=== FILE: README.md ===
# RACTF front-end core, modelled in Dafny

This project models the logic core of the RACTF web front-end, a React
application for capture-the-flag competitions. It leaves out the rendering
and keeps the decisions and state updates behind it:

- **The session controller** (`APIClass`). It covers the error message for a
  failed call, the Authorization header, the bootstrap from browser storage,
  the cache reload (user, then team, then challenges), logout, login, and the
  team and registration calls.
- **The challenge page.** It finds the category and challenge of the route,
  decides between viewer, editor and creator, and resolves the editor and
  renderer plugins (`uses` aliases, `rightOf`). It also saves an edit.
- **The standard challenge view.** It covers regex escaping, the default full
  and partial flag patterns, flag validity, the choice of flag input, the
  challenge-mod filter and the flag submission form.
- **The challenge editor.** It covers metadata-field generation, the metadata
  plugin filter, the metadata merge, the hint and file forms, and the
  creator-mode restrictions.
- **The application shell.** It covers the keystroke window that switches on
  the fake console, and the offline banner.
- **The countdown bookkeeping** (`getCountdown`, `recheckCountdowns`).
- **The two-factor page.** It covers the grouped secret, the `otpauth://`
  key URI and the page's flow.
- **The route table** and the auth guard of every page.
- **The settings forms**, team ownership and the member-row controls.
- **The login form** with its PIN retry loop.
- **The site navigation menus.**
- **The experiments page.**
- **The code-runner action creators.**

The model follows these conventions:

- **JavaScript values** are the datatype `JsValues.Value`. Truthiness, `===`,
  `String(v)` and property reads that throw on `null`/`undefined` are defined
  once, in `values.dfy`.
- **Remote calls** are inputs: the `Result` each call settles with, either the
  response body or the thrown error. An error carries `response.data`,
  `request.status` and `message`.
- **Browser storage** is a `map<string, string>`.
- **`JSON.parse`, `JSON.stringify`, `decodeURIComponent` and regex matching**
  are function parameters (oracles).
- **Clock readings** (`new Date()`) are integer parameters, in milliseconds.
- **Navigation, alerts and redux dispatches** are logs appended to, or values
  returned.
- **Objects the code updates in place** are classes:
  - the controller `SessionCache.Api`;
  - a challenge `Catalog.ChallengeObj` and a category `Catalog.Category`;
  - the flag form, the 2FA page, the settings forms and the countdown store.

  Each state-changing method is specified by a pure function of the old state
  and the inputs (for example `Api.ReloadCache` by `ReloadSpec`). The
  properties are lemmas about those functions.

The 2FA warning on the settings page is the predicate
`Settings.TwoFactorWarning`: it holds exactly when `2fa_status` is not `"on"`,
including when the user has no `2fa_status` at all.

## Model

| member | source | states |
|---|---|---|
| SessionCache.GetError | src/containers/controllers/API.js:88-100 | The message is the server's `m` field when the response has a body and `m` is truthy. Otherwise it is the body's string form, then the transport error's message, then "Unknown error occured.". |
| SessionCache.GetErrorIsEmptyOnlyForEmptyArrayBody | src/containers/controllers/API.js:88-100 | The message is never falsy, except when the body is an array that joins to "". |
| SessionCache.UserPath | src/containers/controllers/API.js:194-196 | `getUser("self")` fetches `/members/self`; any other id fetches `/members/id/<id>`. |
| SessionCache.UserPathInjective | src/containers/controllers/API.js:194-196 | Distinct user ids are fetched from distinct paths. |
| SessionCache.TeamPath | src/containers/controllers/API.js:198-200 | `getTeam("self")` fetches `/teams/self`; any other id fetches `/teams/<id>`. |
| SessionCache.TeamPathInjective | src/containers/controllers/API.js:198-200 | Distinct team ids are fetched from distinct paths. |
| SessionCache.AttemptPath | src/containers/controllers/API.js:269-272 | The attempt path is "/challenges/", then the uuid, then "/attempt". |
| SessionCache.LoginPayload | src/containers/controllers/API.js:240-242 | The payload always carries username and password. It carries `otp` exactly when a non-empty one is given. |
| SessionCache.ModifyUser | src/containers/controllers/API.js:188-192 | `modifyUser` always rejects with "Nope.". |
| SessionCache.AwaitData | src/containers/controllers/API.js:139 | `(await call).d` is the body's `d`. A failed call, or a null body, throws. |
| SessionCache.Cached | src/containers/controllers/API.js:34-51 | A missing key reads as null, a parse failure as the fallback, and otherwise the parsed value. |
| SessionCache.Boot | src/containers/controllers/API.js:31-59 | The initial state is not ready and holds the cached user, team and challenges. It is authenticated exactly when the cached user is truthy. |
| SessionCache.LogoutSpec | src/containers/controllers/API.js:228-238 | After logout: not authenticated, ready, user null, challenges `[]`. The token, user and challenges keys are removed; the team key and the team stay. |
| SessionCache.Classify | src/containers/controllers/API.js:136-166 | A fetch succeeds exactly when its `.d` could be read. A team 404 is "no team", and that case is checked first. Any other failure with a response body is a rejection; the rest are transport failures. |
| SessionCache.RejectionLogsOut | src/containers/controllers/API.js:138-166 | A rejection on any of the three fetches makes the reload a logout, whatever the other replies. |
| SessionCache.TeamNotFoundIsNoTeam | src/containers/controllers/API.js:147-158 | A team 404, with user and challenges fetched, ends ready and authenticated with team null, persisted. |
| SessionCache.ReloadReplacesOnlyWhenFresh | src/containers/controllers/API.js:168-178 | Without a logout, ready holds exactly when every fetch succeeded (a team 404 counts as success). Only then are the cache and storage replaced, and storage mirrors the new state. |
| SessionCache.MirrorRestoresSession | src/containers/controllers/API.js:168-178 | After a successful reload, and given parse inverts stringify, a restarted controller boots with the same user, team and challenges. |
| SessionCache.LoginToken | src/containers/controllers/API.js:246-247 | The stored token is `data.d.token` as a string. A failed post, or a body without `d`, is an error. |
| SessionCache.LoginNavigatesHomeAfterReload | src/containers/controllers/API.js:181-186 | A successful login appends "/home" to the navigation after the reload. The token stays stored unless the reload logged out. |
| SessionCache.LoginScenario | src/containers/controllers/API.js:240-251 | Concrete run: token "T", then user fetched, team 404 and empty catalogue, ends authenticated and ready with no team and token "T". |
| SessionCache.TeamActionSpec | src/containers/controllers/API.js:202-226 | After a successful post the refetched team is set and stored as `String(team)`. A failed post or refetch changes nothing and rejects. |
| SessionCache.JoinedTeamNotRestored | src/containers/controllers/API.js:206-208 | The stored "[object Object]" does not parse, so a restart boots with team `{}`. |
| SessionCache.Api.constructor | src/containers/controllers/API.js:31-59 | The new controller's state is `Boot` of the storage. |
| SessionCache.Api.Mount | src/containers/controllers/API.js:77-86 | With a stored token the state becomes `ReloadSpec`; without one only `ready` is set. |
| SessionCache.Api.GetHeaders | src/containers/controllers/API.js:127-132 | Authorization is present exactly when a token is stored, and then equals it. No other header is set. |
| SessionCache.Api.Logout | src/containers/controllers/API.js:228-238 | The new state is `LogoutSpec` of the old. |
| SessionCache.Api.ReloadCache | src/containers/controllers/API.js:136-179 | The sequential try/catch steps end in the state `ReloadSpec` of the old state and the three replies. |
| SessionCache.Api.Login | src/containers/controllers/API.js:240-251 | Sends `LoginPayload` and rejects exactly when `LoginToken` fails. The new state is `LoginSpec`: token stored, cache reloaded, then "/home". |
| SessionCache.Api.TeamAction | src/containers/controllers/API.js:202-226 | Posts `{name, password}` to `/teams/create` or `/teams/join`. The state and result are `TeamActionSpec`. |
| SessionCache.Api.Register | src/containers/controllers/API.js:257-267 | Success navigates to "/register/email"; failure rejects with the error and navigates nowhere. |
| KeyWatcher.LastN | src/containers/controllers/App.js:129-130 | The window is the last `n` entries, or all of them when fewer. |
| KeyWatcher.Ignored | src/containers/controllers/App.js:126-127 | For a buffer without two adjacent Shifts, a keydown is ignored exactly when appending it would create two. |
| KeyWatcher.KeyStep | src/containers/controllers/App.js:125-130 | A Shift after a Shift leaves the buffer as it is. Any other key is appended and the buffer cut to its last 7 entries. |
| KeyWatcher.StepKeepsWindow | src/containers/controllers/App.js:128-130 | After an accepted key the buffer is the last 7 accepted keys. |
| KeyWatcher.AcceptKeepsNoDoubleShift | src/containers/controllers/App.js:126-128 | Accepting a key never creates two adjacent Shift presses. |
| KeyWatcher.Feed | src/containers/controllers/App.js:125-133 | A run of keydowns never grows the buffer past 7 entries. |
| KeyWatcher.RepeatedShiftCountsOnce | src/containers/controllers/App.js:126-127 | Two Shift keydowns in a row act like one. |
| KeyWatcher.FeedBelowWindow | src/containers/controllers/App.js:128-130 | Until the buffer fills, it holds exactly the keys typed, provided they have no double Shift. |
| KeyWatcher.MagicFromEmpty | src/containers/controllers/App.js:121-132 | Typing the magic sequence from an empty buffer makes the buffer equal to it. |
| KeyWatcher.Render | src/containers/controllers/App.js:141-161 | The console replaces the site. Otherwise the offline banner shows exactly when the controller is not ready. |
| KeyWatcher.App.constructor | src/containers/controllers/App.js:113-123 | The application starts with an empty key buffer and the console off. |
| KeyWatcher.App.HandleKeyDown | src/containers/controllers/App.js:125-133 | See the note below the table. |
| KeyWatcher.AcceptStep | src/containers/controllers/App.js:126-130 | An accepted key keeps the buffer the window of the accepted keys, and keeps both free of double Shift. |
| KeyWatcher.WindowOfNoDoubleShift | src/containers/controllers/App.js:126-130 | A window of keys without double Shift has none either. |
| StandardChallenge.Escape | src/plugins/standardChallenge/components/Challenge.js:50 | The output length is the input length plus the number of special characters. An input without special characters is unchanged. |
| StandardChallenge.UnescapeEscape | src/plugins/standardChallenge/components/Challenge.js:50 | Removing the inserted backslashes gives back the input. |
| StandardChallenge.EscapeAppend | src/plugins/standardChallenge/components/Challenge.js:50 | Escaping works character by character: the escape of a concatenation is the concatenation of the escapes. |
| StandardChallenge.FlagPrefix | src/plugins/standardChallenge/components/Challenge.js:44 | The prefix is the configured one, or "flag" when it is not set. |
| StandardChallenge.GroupsAppend | src/plugins/standardChallenge/components/Challenge.js:57-61 | The partial pattern's groups of a concatenation are the groups of each part, in order. |
| StandardChallenge.GroupsLength | src/plugins/standardChallenge/components/Challenge.js:57-61 | There is one 7-character group per prefix character, plus one character per escaped character. |
| StandardChallenge.DefaultFormat | src/plugins/standardChallenge/components/Challenge.js:56-63 | The full pattern is `^`, the escaped prefix, then `{.+}$`, with its length being the prefix length plus its special characters plus 6. The partial one is the prefix's partial pattern. The format string is the prefix followed by `{...}`. |
| StandardChallenge.BuildPartial | src/plugins/standardChallenge/components/Challenge.js:57-61 | The loop builds `"^"`, one `(?:c\|$)` group per prefix character in order, then the fixed tail. |
| StandardChallenge.FormatOf | src/plugins/standardChallenge/components/Challenge.js:51-67 | Both custom patterns are used only when both are set, with the format string being the regex's string. Otherwise the default format is built from the prefix. Missing metadata throws. |
| StandardChallenge.FlagRegex | src/plugins/standardChallenge/components/Challenge.js:51-67 | The method, with its loop over the prefix, computes `FormatOf`. |
| StandardChallenge.ChangeFlag | src/plugins/standardChallenge/components/Challenge.js:70-74 | As written: a free-text flag is valid iff non-empty, and a built pattern is matched. A custom pattern, a string, throws on `.test`. |
| StandardChallenge.CustomPatternThrows | src/plugins/standardChallenge/components/Challenge.js:51-74 | When the metadata sets both custom patterns, the format is read without error, and typing any flag of a type that is not free text throws `regex.test is not a function`. |
| StandardChallenge.DefaultPatternChecks | src/plugins/standardChallenge/components/Challenge.js:51-74 | When the metadata does not set both custom patterns, typing a flag of a type that is not free text never throws: the flag is matched against `^`, the escaped prefix, then `{.+}$`. |
| StandardChallenge.FlagValid | src/plugins/standardChallenge/components/Challenge.js:70-74 | As intended: a free-text flag is valid iff non-empty. Any other flag is valid iff it matches the full pattern, a custom one read as regex source. |
| StandardChallenge.FlagValidAgrees | src/plugins/standardChallenge/components/Challenge.js:70-74 | The correction agrees with the code wherever the code does not throw. With built patterns the code never throws. |
| StandardChallenge.FlagInputFor | src/plugins/standardChallenge/components/Challenge.js:127-151 | Each case holds exactly for its type. `code` and `map` get no input, and `freeform` a free input. `longText` gets a 5-row input with placeholder "Flag text" and the partial pattern. Every other type gets the partial pattern with "Flag format: " and the format string as placeholder. |
| StandardChallenge.ChallengeMods | src/plugins/standardChallenge/components/Challenge.js:153-161 | One mounted mod per enabled plugin, in registration order, with its component and key. |
| StandardChallenge.UncheckedModMounted | src/plugins/standardChallenge/components/Challenge.js:156 | A mod without `check` is mounted on every challenge. |
| StandardChallenge.FlagForm.constructor | src/plugins/standardChallenge/components/Challenge.js:39-41 | The flag form starts unlocked with no message. |
| StandardChallenge.FlagForm.Submit | src/plugins/standardChallenge/components/Challenge.js:96 | Submitting locks the form. |
| StandardChallenge.FlagForm.Settle | src/plugins/standardChallenge/components/Challenge.js:97-123 | See the note below the table. |
| Plugins.EnabledPlugins | src/plugins/standardChallenge/components/Challenge.js:154-156 | A plugin is kept iff it has no `check` or its check passes. Order is kept and nothing is dropped when all are enabled. |
| ChallengePage.HandlerKey | src/pages/ChallengePage.js:37-40 | The registry key is the challenge type, or "default" when the type is falsy. |
| ChallengePage.Resolve | src/pages/ChallengePage.js:42-43 | Following `uses` ends at a registered handler without `uses`, or at nothing when it reaches an unregistered key. |
| ChallengePage.ResolveRankIndependent | src/pages/ChallengePage.js:42-43 | Where the aliases lead does not depend on the ranking that shows they end. |
| ChallengePage.ChainResolves | src/pages/ChallengePage.js:42-43 | An alias chain resolves to its last editor. |
| ChallengePage.EditorFor | src/pages/ChallengePage.js:37-49 | The while loop mounts the resolved editor's component, or shows "editor missing" when there is no editor or no component. |
| ChallengePage.RenderChallenge | src/pages/ChallengePage.js:102-131 | A missing handler or component, or a missing `rightOf` parent, gives "renderer missing" naming that type. A `rightOf` handler mounts the parent's component with its own on the right. |
| ChallengePage.RightOfNotFollowed | src/pages/ChallengePage.js:117-129 | `rightOf` is applied once: changing the parent's own `rightOf` changes nothing. |
| ChallengePage.CategoryIndex | src/pages/ChallengePage.js:145-149 | The first category whose id string equals the route's, or -1. |
| ChallengePage.ChallengeIndex | src/pages/ChallengePage.js:150-155 | The first challenge whose id string equals the route's, or -1. |
| ChallengePage.FindCategory | src/pages/ChallengePage.js:145-149 | The loop returns `CategoryIndex`. |
| ChallengePage.FindChallenge | src/pages/ChallengePage.js:150-155 | The loop returns `ChallengeIndex`. |
| ChallengePage.CreatorValue | src/pages/ChallengePage.js:156-162 | The creator's challenge is the decoded and parsed hash after `#`, or null when there is no hash or it does not parse. |
| ChallengePage.IsEditor | src/pages/ChallengePage.js:142 | A visitor is an editor exactly when the hash is `#edit` and the user is a signed-in object whose `is_staff` is truthy. |
| ChallengePage.IsCreator | src/pages/ChallengePage.js:143 | A visitor is a creator exactly when the challenge id is `new` and the user is a signed-in object whose `is_staff` is truthy. |
| ChallengePage.OpenChallenge | src/pages/ChallengePage.js:133-174 | See the note below the table. |
| ChallengePage.DecodeFlag | src/pages/ChallengePage.js:55-65 | See the note below the table. |
| ChallengePage.SaveRequest | src/pages/ChallengePage.js:67-68 | The body is the original fields overridden by the changes, with `id` and `flag_metadata` set last. |
| ChallengePage.SavedPath | src/pages/ChallengePage.js:76-80 | A save navigates into "/campaign/<category>", always ending in "#edit". The challenge id is added only when creating with a truthy id. |
| ChallengePage.CopyChanges | src/pages/ChallengePage.js:70-71 | Every changed field is copied into the original object: new fields are the old ones overridden by the changes. |
| ChallengePage.SaveEdit | src/pages/ChallengePage.js:52-84 | See the note below the table. |
| Countdowns.PassedAt | src/controllers/api/countdown.js:37-38 | `passed` has exactly the keys of `dates`, and `passed[k]` iff `dates[k]` lies before now. |
| Countdowns.PassedMonotone | src/controllers/api/countdown.js:35-38 | For fixed dates a countdown only goes from not passed to passed as time grows. |
| Countdowns.FillDates | src/controllers/api/countdown.js:57-61 | Every key but `server_timestamp` gets `value*1000 - offset`, and `passed` iff that date is before the server time. |
| Countdowns.GetCountdown | src/controllers/api/countdown.js:48-67 | The offset is server time minus local time, and the dates and `passed` are as above. |
| Countdowns.Recompute | src/controllers/api/countdown.js:36-41 | `passed` is rebuilt from empty. `changed` holds iff some key's new value differs from the stored one, or is missing from it. |
| Countdowns.Rechecked | src/controllers/api/countdown.js:29-38 | The given countdown, or else the stored one, keeps its offset and dates. Its `passed` is taken at local now plus offset. |
| Countdowns.RecheckAtFetchUnchanged | src/controllers/api/countdown.js:29-38 | Rechecking at the fetch instant reproduces the countdown and reports no change. |
| Countdowns.CountdownStore.Fetch | src/controllers/api/countdown.js:48-67 | A fetched countdown replaces the stored one; a failed fetch changes nothing. |
| Countdowns.CountdownStore.Recheck | src/controllers/api/countdown.js:25-46 | See the note below the table. |
| Prompt.AwaitPin | src/plugins/baseAuth/components/Login.js:51-57 | Prompting ends at the first PIN whose `length` is 6 or at the first cancel, after only wrong-length answers. `length` counts UTF-16 code units. It stays open iff every answer has the wrong length. |
| Prompt.RejectedAnswerSkipped | src/plugins/baseAuth/components/Login.js:52 | A wrong-length PIN re-prompts without any effect. |
| Prompt.AstralPinRejected | src/plugins/baseAuth/components/Login.js:52 | "12345" followed by an emoji has six characters but a `length` of 7, so it is rejected and prompted again. |
| JsValues.CodeUnits | src/plugins/baseAuth/components/Login.js:52 | A string's `length` lies between its character count and twice that. |
| LoginForm.TwoFactorRequired | src/plugins/baseAuth/components/Login.js:46 | 2FA is required iff the response body's `d.reason` is "2fa_required". A body without `d` throws. |
| LoginForm.DoLogin | src/plugins/baseAuth/components/Login.js:37-66 | See the note below the table. |
| LoginForm.SuccessStaysLocked | src/plugins/baseAuth/components/Login.js:43-44 | A successful login leaves the form locked. |
| LoginForm.OtherErrorUnlocks | src/plugins/baseAuth/components/Login.js:60-63 | Another error shows that error and unlocks after exactly one request. |
| LoginForm.TwoFactorRetry | src/plugins/baseAuth/components/Login.js:51-53 | When 2FA is required, wrong-length PINs are skipped. The first PIN of `length` 6 is sent with the same username and password. |
| LoginForm.SkipRejected | src/plugins/baseAuth/components/Login.js:52 | A run of wrong-length PINs is skipped. |
| LoginForm.CancelUnlocks | src/plugins/baseAuth/components/Login.js:54-57 | Cancelling the 2FA prompt after one request shows "2fa.canceled" and unlocks the form. |
| TwoFactor.FormatSecret | src/containers/pages/TwoFA.js:59-64 | The grouped secret is at most 19 characters long. |
| TwoFactor.FormatSecretShape | src/containers/pages/TwoFA.js:59-64 | A secret of at least 16 characters shows as its first 16, in four groups of four separated by single spaces. |
| TwoFactor.FormatSecretDegroup | src/containers/pages/TwoFA.js:59-64 | Dropping the spaces of the grouped secret gives back its first 16 characters. |
| TwoFactor.ParseBuildUri | src/containers/pages/TwoFA.js:55-57 | The unescaped key URI carries the account name and the secret recoverably, when the name has no `?` and the secret no `&`. |
| TwoFactor.BuildUri | src/containers/pages/TwoFA.js:55-57 | The key URI starts with `otpauth://totp/RACTF:` and ends with `&issuer=RACTF`. Its length is the parts' lengths added up, with nothing escaped. |
| TwoFactor.VerifyOutcome | src/containers/pages/TwoFA.js:41-49 | The verification result is `resp.d.valid`, and a failed call is its own error. Reading `d` of a null body, or `valid` of a null `d`, throws, and then `FaPrompt` shows `2fa.validation_fail`. |
| TwoFactor.SecretOf | src/containers/pages/TwoFA.js:24-28 | The secret is the raw value `resp.d.totp_secret`. A failed call is its error, and a reply whose `d` is null or undefined is a read error. |
| TwoFactor.SecretMissingFails | src/containers/pages/TwoFA.js:24-28 | A reply of `{}` or `{d: null}` yields the read error, so the page goes to the error page. |
| TwoFactor.Render | src/containers/pages/TwoFA.js:66-123 | See the note below the table. |
| TwoFactor.TwoFAPage.constructor | src/containers/pages/TwoFA.js:15-17 | The page starts on page 0 with an empty secret and no message. |
| TwoFactor.TwoFAPage.StartFlow | src/containers/pages/TwoFA.js:21-22 | `startFlow` shows page 1. |
| TwoFactor.TwoFAPage.SecretArrived | src/containers/pages/TwoFA.js:24-29 | Success stores the secret and shows page 2; failure shows page -1. |
| TwoFactor.TwoFAPage.FaPrompt | src/containers/pages/TwoFA.js:36-53 | See the note below the table. |
| TwoFactor.TwoFAPage.Restart | src/containers/pages/TwoFA.js:116-122 | The error page's restart shows page 0. |
| Routes.PluginRoutes | src/containers/controllers/Routes.js:99-101 | There is one route per plugin page, in order, after the fixed routes. |
| Routes.Matches | src/containers/controllers/Routes.js:43-105 | A pattern matches a location iff both have the same number of segments and every literal equals its segment up to ASCII case. |
| Routes.FirstMatch | src/containers/controllers/Routes.js:43-105 | The `Switch` picks the first route that matches, and no earlier route matches. |
| Routes.FirstMatchSplit | src/containers/controllers/Routes.js:43-105 | The route picked among fixed routes followed by plugin pages is one of them. When none is picked, no fixed route and no plugin page matches. |
| Routes.Dispatch | src/containers/controllers/Routes.js:43-105 | The rendered target is that of a matching fixed route or of a matching plugin page. Otherwise it is the not-found page, and then nothing matches. |
| Routes.UnmatchedIsNotFound | src/containers/controllers/Routes.js:103-105 | A location no route matches renders the not-found page. |
| Routes.BuiltInWins | src/containers/controllers/Routes.js:43-101 | A location a fixed route matches is never served by a plugin page. |
| Routes.DispatchFixed | src/containers/controllers/Routes.js:43-98 | The first matching fixed route serves the location, whatever the plugins add. |
| Routes.ProfileAtIndex12 | src/containers/controllers/Routes.js:80 | `/profile` is first matched by its redirect. |
| Routes.FixedRedirects | src/containers/controllers/Routes.js:43-80 | `/` redirects to `/home` and `/profile` to `/profile/me`. |
| Routes.Guard | src/containers/controllers/Routes.js:35-38 | An `auth` page sends a visitor to `/login`, checked first. A `noAuth` page sends a signed-in user to `/home`. Otherwise the component renders. |
| Routes.DocumentTitle | src/containers/controllers/Routes.js:32-33 | A null title leaves the title alone, an empty one sets "RACTF", any other sets itself. |
| Routes.AuthPagesNeedLogin | src/containers/controllers/Routes.js:35 | Every page the table marks `auth` sends a visitor to `/login`. |
| Routes.MatchesIgnoresCase | src/containers/controllers/Routes.js:43-105 | A pattern matches a location iff it matches every location that differs only in the case of ASCII letters. |
| Routes.DispatchIgnoresCase | src/containers/controllers/Routes.js:43-105 | Two locations that differ only in letter case render the same target. |
| Routes.SettingsAnyCase | src/containers/controllers/Routes.js:69-71 | `/SETTINGS` is the settings page. |
| Routes.SettingsFolds | src/containers/controllers/Routes.js:69-71 | `SETTINGS` and `settings` differ only in letter case. |
| Routes.SettingsAtIndex9 | src/containers/controllers/Routes.js:69-71 | `/settings` is first matched by the settings page. |
| Routes.SettingsNeedLogin | src/containers/controllers/Routes.js:69-71 | The settings page sends a visitor to `/login`. |
| Routes.Logout | src/containers/controllers/Routes.js:24-27 | `/logout` logs the controller out (`LogoutSpec`) and redirects to `/home`. |
| Settings.PasswordProblem | src/containers/pages/SettingsPage.js:48-54 | The checks run in order: current password, then both new passwords, then their match. There is no problem iff all three pass. |
| Settings.ModifyResult | src/containers/pages/SettingsPage.js:56-60 | Success clears the error to null; a failure stores the rejection's string form. |
| Settings.TeamOwner | src/containers/pages/SettingsPage.js:78 | Without a team the result is null. With one, it throws exactly when the owner or the user is null or undefined, and otherwise is whether the owner's id is `===` the user's id. |
| Settings.TwoFactorWarning | src/containers/pages/SettingsPage.js:84 | The warning shows exactly when the user's `2fa_status` is not `"on"`, including when it is missing. |
| Settings.MemberRows | src/containers/pages/SettingsPage.js:137 | One row per member, in order. The captain is the member whose id equals the owner id. The hat is clickable iff the viewer owns the team, and kick iff the viewer owns it and the member is not captain. |
| Settings.NoKickForCaptainOrNonOwner | src/containers/pages/SettingsPage.js:31-32 | The captain can never be kicked, and only the owner can kick. |
| Settings.SettingsForms.constructor | src/containers/pages/SettingsPage.js:44-46 | All three form errors start as the empty string. |
| Settings.SettingsForms.ChangePassword | src/containers/pages/SettingsPage.js:48-61 | `modifyUser({oPass, nPass})` is called iff no check fails. The error becomes the failed check's message or the call's result. |
| Settings.SettingsForms.ChangeUsername | src/containers/pages/SettingsPage.js:63-72 | An empty name sets "Username required" and sends nothing. Otherwise `{name}` is sent and the error becomes the call's result. |
| Settings.SettingsForms.AlterTeam | src/containers/pages/SettingsPage.js:74-76 | `alterTeam` always sets "Not implemented!". |
| Settings.PasswordChangeRejectedByStub | src/containers/pages/SettingsPage.js:48-60 | A well-formed password change ends with the error "Nope.", because `modifyUser` is a stub. |
| ChallengeEditor.MetadataValue | src/plugins/standardChallenge/components/Editor.js:44 | The read yields `challenge_metadata[name]`, and throws iff the challenge or its metadata is null or undefined. |
| ChallengeEditor.IndexOfKey | src/plugins/standardChallenge/components/Editor.js:54 | `indexOf` is the first `===` position, or -1 iff there is none. |
| ChallengeEditor.SelectInitial | src/plugins/standardChallenge/components/Editor.js:54-57 | A select starts on the current value's first position among the option keys, or on 0 when absent. |
| ChallengeEditor.FieldElement | src/plugins/standardChallenge/components/Editor.js:38-74 | The element carries its key, and a failure is a read failure. |
| ChallengeEditor.Kind | src/plugins/standardChallenge/components/Editor.js:39-74 | A `type` the `switch` has a case for selects that case, and the case's name is the `type` again. Every other name falls through as `OtherType`, keeping the name. |
| ChallengeEditor.FieldElementByType | src/plugins/standardChallenge/components/Editor.js:39-74 | See the note below the table. |
| ChallengeEditor.Elements | src/plugins/standardChallenge/components/Editor.js:35-77 | Exactly one element per field, unless a field throws. |
| ChallengeEditor.FieldElementThrows | src/plugins/standardChallenge/components/Editor.js:38-74 | A field's element fails iff the field throws: an input's or select's metadata is unreadable, an input's value is null, or a group child throws. |
| ChallengeEditor.ElementsThrow | src/plugins/standardChallenge/components/Editor.js:35-77 | The list fails iff some field throws. |
| ChallengeEditor.ElementsInOrder | src/plugins/standardChallenge/components/Editor.js:38-46 | The i-th element is the i-th field's, under key `key + (n + i)`. |
| ChallengeEditor.GenerateFields | src/plugins/standardChallenge/components/Editor.js:35-77 | The push loop with its running counter yields `Elements`. |
| ChallengeEditor.GenerateField | src/plugins/standardChallenge/components/Editor.js:39-74 | The `switch`, recursing into a group with fresh keys from "0", yields `FieldElement`. |
| ChallengeEditor.MetadataFields | src/plugins/standardChallenge/components/Editor.js:79-84 | The plugin loop yields the enabled plugins' elements, each counted on from the elements before it. |
| ChallengeEditor.GatherOnlyEnabled | src/plugins/standardChallenge/components/Editor.js:81 | Gathering over all plugins equals gathering over the enabled ones. |
| ChallengeEditor.GatherLength | src/plugins/standardChallenge/components/Editor.js:79-84 | When each part has one element per field, so does the whole. |
| ChallengeEditor.OnlyEnabledPluginsContribute | src/plugins/standardChallenge/components/Editor.js:81 | Plugins whose check fails contribute nothing to the metadata form. |
| ChallengeEditor.MetadataFromCount | src/plugins/standardChallenge/components/Editor.js:79-84 | A rendered form has one top-level element per field of the enabled plugins. |
| ChallengeEditor.MergeEdit | src/plugins/standardChallenge/components/Editor.js:85-92 | The saved challenge keeps every other field. Its metadata is the old metadata overridden by the changes. |
| ChallengeEditor.MergeEditIdempotent | src/plugins/standardChallenge/components/Editor.js:85-92 | Saving the same changes twice is saving them once. |
| ChallengeEditor.AddHint | src/plugins/standardChallenge/components/Editor.js:105-120 | `newHint` is called iff the cost contains a digit; otherwise "Invalid file size!". The alert reports success or the error. |
| ChallengeEditor.AddFile | src/plugins/standardChallenge/components/Editor.js:141-156 | `newFile` is called iff the size contains a digit. On success the returned id is appended to `files`. A failed call or push changes nothing and alerts. |
| ChallengeEditor.EditorLayout | src/plugins/standardChallenge/components/Editor.js:178-243 | See the note below the table. |
| SiteNav.BrandMenu | src/components/SiteNav.js:86-95 | The brand menu starts open with four entries; the teams entry is null iff teams are disabled. |
| SiteNav.UserMenu | src/components/SiteNav.js:117-125 | The user menu is named after the user, with four entries; the team entry is null iff teams are disabled. |
| SiteNav.BuildSidebar | src/components/SiteNav.js:85-143 | See the note below the table. |
| SiteNav.HeaderChallengesLink | src/components/SiteNav.js:48-52 | Exactly one category links straight to it; otherwise the link is `/campaign`. |
| Experiments.TableIsSwitches | src/plugins/debugPages/components/Experiments.js:27-60 | Every experiment has exactly two options, keyed by the two distinct booleans. No key is listed twice. |
| Experiments.PrefKey | src/plugins/debugPages/components/Experiments.js:67 | The preference key is "experiment." followed by the experiment key. |
| Experiments.Pref | src/plugins/debugPages/components/Experiments.js:67 | A missing preference reads as undefined. |
| Experiments.Dispatches | src/plugins/debugPages/components/Experiments.js:65-71 | There is at most one dispatch per change. |
| Experiments.OnChange | src/plugins/debugPages/components/Experiments.js:65-71 | The loop dispatches `Dispatches`, in order. |
| Experiments.DispatchesExactlyChanged | src/plugins/debugPages/components/Experiments.js:65-71 | Every dispatch stores a differing change under its experiment key, and every differing change is dispatched. |
| Experiments.UnchangedNotDispatched | src/plugins/debugPages/components/Experiments.js:67 | A change equal to the stored preference causes no dispatch for its key. |
| Experiments.Displayed | src/plugins/debugPages/components/Experiments.js:78-79 | A missing preference is displayed as false; otherwise the stored value is shown. |
| RunCode.CodeRunStart | src/plugins/codeChallenge/actions/runCode.js:18-23 | Type SET_CODE_RUN, running, with exactly the given name and the start time. |
| RunCode.CodeRunError | src/plugins/codeChallenge/actions/runCode.js:24-29 | Type SET_CODE_RUN, not running, carrying exactly the error. |
| RunCode.CodeRunAbort | src/plugins/codeChallenge/actions/runCode.js:30-35 | Type SET_CODE_RUN, carrying only `running: false`. |
| RunCode.AbortForgetsError | src/plugins/codeChallenge/actions/runCode.js:24-35 | An abort ignores its argument, while failed runs with different errors differ. |

Notes on the longer contracts:

- **KeyWatcher.App.HandleKeyDown**
  - The buffer becomes `KeyStep` of the old buffer. It stays within 7 entries without double Shift, and it is the window of all accepted keys.
  - An ignored key changes nothing.
  - `console` turns true exactly when the buffer becomes the magic sequence, and is never reset.
- **StandardChallenge.FlagForm.Settle**
  - A correct answer marks the challenge solved, alerts, notifies the listener and reloads.
  - An incorrect one alerts.
  - An error, or a null answer, sets the message and notifies the listener with false.
  - The form is always unlocked.
- **ChallengePage.OpenChallenge**
  - Without the category the page is not found.
  - A staff member on "new" edits a new object built from the hash, or gets not found when the hash value is falsy.
  - Otherwise a missing challenge is not found. With `#edit` and staff the challenge is edited; otherwise it is viewed.
- **ChallengePage.DecodeFlag**
  - An object or null passes through.
  - Any other value is parsed.
  - On a parse failure: an empty string, a number or a boolean gives "", another string rejects the save, and undefined throws.
- **ChallengePage.SaveEdit**
  - A rejected flag sends nothing.
  - Otherwise it sends `SaveRequest`, with the category's id when creating and the original id when editing.
  - On success the changes are copied and a created challenge is appended once to its category. The navigation uses the own id, else `data.id`.
  - A failure changes nothing.
- **Countdowns.CountdownStore.Recheck**
  - Without a stored countdown it does nothing.
  - With a given countdown it returns the recomputed one and leaves the store alone.
  - Otherwise it stores the recomputed one, refetching challenges iff something changed.
- **LoginForm.DoLogin**
  - A missing username or password sets its message and sends nothing.
  - Otherwise the first request carries the credentials, and every request has the same username and password. Retries carry a PIN of `length` 6.
  - An unlocked form always shows a message.
  - The cancel case is `CancelUnlocks`.
- **TwoFactor.Render**
  - Page 0 offers to add 2FA, or to replace it when `totp_status` is 2.
  - Page 1 shows the spinner, page 2 the key URI and the grouped secret, and page 3 the success screen.
  - Any other page is the error page.
  - A null user throws on pages 0 and 2.
  - On page 2 a secret that is not a string throws, because `substring` is not a function of it.
- **TwoFactor.TwoFAPage.FaPrompt**
  - Only a PIN of `length` 6 is sent.
  - A valid verification reloads the cache and then shows page 3.
  - An invalid verification or an error sets `validation_fail` and keeps the page.
  - A cancel sets `unable_to_active`.
- **ChallengeEditor.FieldElementByType**
  - An input shows the value's string, with five rows for `multiline`/`code` and monospace for `code`.
  - A `number` input's format only asks for a digit somewhere (the unanchored `/\d+/`). The other inputs ask for any non-empty text.
  - A select starts on `SelectInitial`.
  - A label, rule or unknown type never fails.
  - A group holds one child per field.
- **ChallengeEditor.EditorLayout**
  - Creator mode has no remove button, and its files and hints tabs show a notice.
  - The edit mode is titled "Editing: <name>".
  - The type select starts on the challenge type's first position among the registered types, or -1.
- **SiteNav.BuildSidebar**
  - The brand menu comes first.
  - A signed-in user gets a challenges section iff staff or there are categories. Categories are listed in order, with the new-category entry last for staff. A non-staff user with a single category gets a direct link instead.
  - A signed-in user then gets their own menu. A visitor gets a login menu iff login or registration is open, with login before register.
  - Staff get an admin menu last, with one entry per admin page.

## Left out

- **Transport and persistence.**
  - HTTP through axios and the `@ractf/api` and `@ractf/http` calls are not modelled. Each call is the `Result` it settles with. `@ractf/http`'s `getError` is not part of this model, so the login and challenge forms keep the error itself.
  - Browser storage holds strings; `JSON.parse`, `JSON.stringify` and `decodeURIComponent` are uninterpreted parameters.
  - Regex matching is the parameter `matches`; patterns are kept as source text.
- **Concurrency and timing.**
  - The `setTimeout` that can move the 2FA page from -1 back to 2 is not modelled.
  - So are the unawaited `_postLogin` in `login` (the model runs it to completion), overlapping reloads and responses after unmount.
  - The model is sequential.
- **Rendering.**
  - React rendering, JSX, i18n `t()`, the redux store, `push` and `reloadAll` are left out. Pages are values, messages are translation keys, and dispatches and navigations are logs.
  - Footer, Misc, SidebarTabs, File and the particle background are left out.
- **Clocks.** `new Date()` is an integer in milliseconds. `server_timestamp` is given already converted to the instant it denotes.
- **Numbers.** JavaScript numbers are integers. NaN, fractions and string-to-number coercion are not modelled.
- **Objects.** Array and object identity is not modelled: `===` on two arrays or objects is false.
- **Plugins.**
  - Plugin registries are maps or sequences in registration order.
  - A `check` is a total function of challenge and category.
  - Editor field options are given as their keys.
- **Metadata fields.** A field without `options` or `children` is not modelled.
- **Ids.** Category and challenge ids are compared through `String(id)`. The `TypeError` that `id.toString()` throws for a null id is not modelled.
- **Values that are not objects.**
  - Spreading a value that is not an object (`{...v}`) is taken as spreading no fields.
  - A creator's hash value that is truthy but not an object becomes a challenge with no fields.
- **Other details.**
  - The 2FA PIN prompt's input format (`/^\d{6}$/`) is enforced by the prompt component, which is not part of this model; only the length check is.
  - The alias chain of editor plugins is required to be acyclic, stated as a ranking (`AliasRanked`). With a cyclic chain the source loops forever. An empty `uses` ends the chain, as the falsy test of the source's loop does, so it needs no rank.
  - `createTeam`/`joinTeam` store the team without `JSON.stringify`. This is modelled as written (`String(team)`), with its consequence stated in `JoinedTeamNotRestored`.
  - `removeChallenge`, `promptHint`, the e-mail reset prompt and `add_2fa`/`verify_2fa`/`verify` are left out. They are single remote calls with an alert, and their results enter the modelled flows as replies.
- **String lengths.** JavaScript `length`, `substring` and string indexing count UTF-16 code units. The model counts characters, except for the PIN length (`CodeUnits`).
  - StandardChallenge.BuildPartial: a prefix character outside the Basic Multilingual Plane makes one group here, where the source makes two groups of lone surrogate halves.
  - TwoFactor.FormatSecret: groups by characters, not code units. The two differ only for characters outside the Basic Multilingual Plane.
  - JsValues.Substring: clamps and cuts by characters, not code units. The two differ the same way.
- **Routing.**
  - Locations are given already split into their non-empty segments, so trailing and doubled slashes are not modelled.
  - Routes.Matches: ignores the case of ASCII letters only. This agrees with the source for every built-in route, since they are ASCII. A plugin path with non-ASCII letters is matched here by exact characters.
- **Weaker contracts.**
  - Settings.MemberRows: gives a row for a null or undefined member, where `i.id` throws in the source. The members are taken to be the objects the team record lists, so this throw is not modelled.
  - Settings.ModifyResult: stores the string form of a null or undefined rejection, where `e.toString()` throws in the source and the error stays as it was. The only rejection `modifyUser` produces is the string "Nope." (`SessionCache.ModifyUser`).
  - TwoFactor.FormatSecret: its own contract only bounds the length. The shape and the round trip are the lemmas `FormatSecretShape` and `FormatSecretDegroup`.
  - Experiments.Dispatches: its own contract only bounds the count. The exact set of dispatches is `DispatchesExactlyChanged`.

## Findings

| source | as written | input that shows it | evidently intended | confidence | as-written member | corrected member |
|---|---|---|---|---|---|---|
| src/plugins/standardChallenge/components/Challenge.js:51-74 | With both `flag_regex` and `flag_partial_regex` set, the metadata strings themselves become `regex`/`partial`, and `changeFlag` calls `regex.test(flag)` on a string | a standard challenge whose metadata is `{flag_regex: "^x$", flag_partial_regex: "^x?$"}`, then typing any flag: `regex.test` is not a function | the custom pattern compiled to a regular expression and matched against the flag | medium, not executed | StandardChallenge.ChangeFlag (with StandardChallenge.CustomPatternThrows) | StandardChallenge.FlagValid (with StandardChallenge.FlagValidAgrees) |

=== FILE: api.dfy ===
/** The session controller of the front-end (`APIClass`): it caches the user,
    the team and the challenge catalogue in browser storage, refetches them
    from the server, and turns a server rejection into a logout.  Remote calls
    are the `Result` values they settle with, browser storage is a map from
    key to string, and `JSON.parse`/`JSON.stringify` are the controller's
    `parse`/`stringify` parameters. */
module SessionCache {
  import opened JsValues

  const TokenKey: string := "token"
  const UserKey: string := "userData"
  const TeamKey: string := "teamData"
  const ChallengesKey: string := "challenges"

  const UserSelfPath: string := "/members/self"
  const UserPathPrefix: string := "/members/id/"
  const TeamSelfPath: string := "/teams/self"
  const TeamPathPrefix: string := "/teams/"
  const TeamCreatePath: string := "/teams/create"
  const TeamJoinPath: string := "/teams/join"

  const UnknownError: string := "Unknown error occured."

  /** A remote call as it settles: the response body, or the thrown error. */
  type Reply = Result<Value, JsError>

  /** `e.response && e.response.data`: the server answered with a body. */
  predicate HasResponseData(e: JsError) {
    e.responseData.Some? && Truthy(e.responseData.value)
  }

  /** `getError`: the message shown for a failed call. */
  function GetError(e: JsError): (r: Value)
    ensures HasResponseData(e) && Truthy(Get(e.responseData.value, "m")) ==>
              r == Get(e.responseData.value, "m")
    ensures HasResponseData(e) && !Truthy(Get(e.responseData.value, "m")) ==>
              r == Str(JsString(e.responseData.value))
    ensures !HasResponseData(e) && e.message != "" ==> r == Str(e.message)
    ensures !HasResponseData(e) && e.message == "" ==> r == Str(UnknownError)
  {
    if HasResponseData(e) then
      var data := e.responseData.value;
      if Truthy(Get(data, "m")) then Get(data, "m") else Str(JsString(data))
    else if e.message != "" then Str(e.message)
    else Str(UnknownError)
  }

  /** The only way `getError` yields an empty message is a response body that
      is an array which joins to the empty string (for instance `[]`). */
  lemma GetErrorIsEmptyOnlyForEmptyArrayBody(e: JsError)
    ensures Truthy(GetError(e)) ||
            (HasResponseData(e) && e.responseData.value.Arr? && JsString(e.responseData.value) == "")
  {
    if HasResponseData(e) {
      var data := e.responseData.value;
      if !Truthy(Get(data, "m")) && !data.Arr? {
        match data
        case Bool(b) =>
        case Num(n) => assert |IntToString(n)| >= 1;
        case Str(s) =>
        case Obj(_) =>
      }
    }
  }

  /** `localStorage.getItem("token")` is truthy. */
  predicate HasToken(storage: map<string, string>) {
    TokenKey in storage && storage[TokenKey] != ""
  }

  /** The request path of `getUser(id)`. */
  function UserPath(id: string): (p: string)
    ensures id == "self" ==> p == UserSelfPath
    ensures id != "self" ==> p == UserPathPrefix + id
  {
    if id == "self" then UserSelfPath else UserPathPrefix + id
  }

  /** The request path of `getTeam(id)`. */
  function TeamPath(id: string): (p: string)
    ensures id == "self" ==> p == TeamSelfPath
    ensures id != "self" ==> p == TeamPathPrefix + id
  {
    if id == "self" then TeamSelfPath else TeamPathPrefix + id
  }

  /** Distinct user ids are fetched from distinct paths: no id is confused
      with "self". */
  lemma UserPathInjective(a: string, b: string)
    requires a != b
    ensures UserPath(a) != UserPath(b)
  {
    if a == "self" {
      assert UserPath(a)[9] == 's' && UserPath(b)[9] == 'i';
    } else if b == "self" {
      assert UserPath(a)[9] == 'i' && UserPath(b)[9] == 's';
    } else {
      assert a == UserPath(a)[|UserPathPrefix|..];
      assert b == UserPath(b)[|UserPathPrefix|..];
    }
  }

  /** Distinct team ids are fetched from distinct paths. */
  lemma TeamPathInjective(a: string, b: string)
    requires a != b
    ensures TeamPath(a) != TeamPath(b)
  {
    if a == "self" {
      assert b == TeamPath(b)[|TeamPathPrefix|..];
    } else if b == "self" {
      assert a == TeamPath(a)[|TeamPathPrefix|..];
    } else {
      assert a == TeamPath(a)[|TeamPathPrefix|..];
      assert b == TeamPath(b)[|TeamPathPrefix|..];
    }
  }

  /** The path `attemptFlag` posts to: the challenge's uuid put in place of
      `<uuid>` in "/challenges/<uuid>/attempt". */
  function AttemptPath(uuid: string): (p: string)
    ensures |p| == |uuid| + 20
    ensures p[..12] == "/challenges/" && p[12..12 + |uuid|] == uuid && p[12 + |uuid|..] == "/attempt"
  {
    "/challenges/" + uuid + "/attempt"
  }

  /** The body `login` posts: `otp` is sent only when one is given and it is
      not empty. */
  function LoginPayload(username: string, password: string, otp: Option<string>): (p: map<string, string>)
    ensures "username" in p && p["username"] == username
    ensures "password" in p && p["password"] == password
    ensures "otp" in p <==> otp.Some? && otp.value != ""
    ensures "otp" in p ==> p["otp"] == otp.value
    ensures p.Keys <= {"username", "password", "otp"}
  {
    var base := map["username" := username, "password" := password];
    if otp.Some? && otp.value != "" then base["otp" := otp.value] else base
  }

  /** `modifyUser` is a stub: whatever the changes, it rejects with "Nope.". */
  function ModifyUser(changes: map<string, Value>): (r: Result<(), Value>)
    ensures r == Err(Str("Nope."))
  {
    Err(Str("Nope."))
  }

  /** `(await call).d`: the reply's `d` field; reading it off a null body
      throws like a failed call. */
  function AwaitData(r: Reply): (d: Result<Value, JsError>)
    ensures r.Err? ==> d == r
    ensures r.Ok? && (r.value == Null || r.value == Undefined) ==> d == Err(ReadFailure)
    ensures r.Ok? && r.value != Null && r.value != Undefined ==> d == Ok(Get(r.value, "d"))
  {
    match r
    case Ok(body) => Read(body, "d")
    case Err(e) => Err(e)
  }

  /** The controller's state: what it renders from and what it has stored. */
  datatype Session = Session(
    ready: bool,
    authenticated: bool,
    user: Value,
    team: Value,
    challenges: Value,
    storage: map<string, string>,
    navigation: seq<string>)

  /** `JSON.parse(localStorage.getItem(key))` with its `catch`: a missing key
      reads as null, a parse failure as `fallback`. */
  function Cached(storage: map<string, string>, key: string, parse: string -> Option<Value>, fallback: Value): (v: Value)
    ensures key !in storage ==> v == Null
    ensures key in storage && parse(storage[key]).Some? ==> v == parse(storage[key]).value
    ensures key in storage && parse(storage[key]).None? ==> v == fallback
  {
    if key !in storage then Null
    else match parse(storage[key])
      case Some(v) => v
      case None => fallback
  }

  /** The state the constructor builds from storage. */
  function Boot(storage: map<string, string>, parse: string -> Option<Value>): (s: Session)
    ensures s.user == Cached(storage, UserKey, parse, Undefined)
    ensures s.challenges == Cached(storage, ChallengesKey, parse, Arr([]))
    ensures s.team == Cached(storage, TeamKey, parse, Obj(map[]))
    ensures s.authenticated <==> Truthy(s.user)
    ensures !s.ready && s.storage == storage && s.navigation == []
  {
    var user := Cached(storage, UserKey, parse, Undefined);
    Session(false, Truthy(user), user,
            Cached(storage, TeamKey, parse, Obj(map[])),
            Cached(storage, ChallengesKey, parse, Arr([])),
            storage, [])
  }

  /** The state after `logout()`. */
  function LogoutSpec(s: Session): (t: Session)
    ensures !t.authenticated && t.ready && t.user == Null && t.challenges == Arr([])
    ensures t.storage == s.storage - {TokenKey, UserKey, ChallengesKey}
    ensures t.team == s.team && t.navigation == s.navigation
  {
    s.(authenticated := false, user := Null, ready := true, challenges := Arr([]),
       storage := s.storage - {TokenKey, UserKey, ChallengesKey})
  }

  /** How one fetch of the cache reload ended. */
  datatype Step = Fetched(v: Value) | Rejected | Offline | NoTeam

  /** A fetch of `_reloadCache`: a rejection with a response body is
      `Rejected`; a team fetch whose request status is 404 is `NoTeam` (that
      test comes first); any other failure is `Offline`. */
  function Classify(r: Reply, isTeam: bool): (st: Step)
    ensures st.NoTeam? ==> isTeam
    ensures st.Fetched? <==> AwaitData(r).Ok?
    ensures st.Fetched? ==> st.v == AwaitData(r).value
    ensures st.Rejected? <==>
              (AwaitData(r).Err? && HasResponseData(AwaitData(r).error) &&
               !(isTeam && AwaitData(r).error.requestStatus == Some(404)))
  {
    match AwaitData(r)
    case Ok(v) => Fetched(v)
    case Err(e) =>
      if isTeam && e.requestStatus == Some(404) then NoTeam
      else if HasResponseData(e) then Rejected
      else Offline
  }

  /** The value a step contributes to the new cache. */
  function StepValue(st: Step): Value {
    match st
    case Fetched(v) => v
    case NoTeam => Null
    case _ => Undefined
  }

  /** The state after `_reloadCache` given the three replies: a rejection
      logs out; otherwise the cache is replaced and persisted when every
      fetch succeeded, and only `ready=false, authenticated=true` are set
      when one failed in transport. */
  function ReloadSpec(s: Session, u: Reply, t: Reply, c: Reply, stringify: Value -> string): Session
  {
    var us := Classify(u, false);
    if us.Rejected? then LogoutSpec(s) else
    var ts := Classify(t, true);
    if ts.Rejected? then LogoutSpec(s) else
    var cs := Classify(c, false);
    if cs.Rejected? then LogoutSpec(s)
    else if us.Fetched? && !ts.Offline? && cs.Fetched? then
      var user, team, chals := StepValue(us), StepValue(ts), StepValue(cs);
      s.(ready := true, authenticated := true, user := user, team := team, challenges := chals,
         storage := s.storage[UserKey := stringify(user)][TeamKey := stringify(team)][ChallengesKey := stringify(chals)])
    else s.(ready := false, authenticated := true)
  }

  /** The persisted mirror holds exactly the in-memory user, team and
      catalogue. */
  predicate Mirrors(s: Session, stringify: Value -> string) {
    && UserKey in s.storage && s.storage[UserKey] == stringify(s.user)
    && TeamKey in s.storage && s.storage[TeamKey] == stringify(s.team)
    && ChallengesKey in s.storage && s.storage[ChallengesKey] == stringify(s.challenges)
  }

  /** A rejection on any of the three fetches ends in `logout()`, whatever
      the other replies are; nothing is cached from that reload. */
  lemma RejectionLogsOut(s: Session, u: Reply, t: Reply, c: Reply, stringify: Value -> string)
    requires Classify(u, false).Rejected? || Classify(t, true).Rejected? || Classify(c, false).Rejected?
    ensures ReloadSpec(s, u, t, c, stringify) == LogoutSpec(s)
    ensures !ReloadSpec(s, u, t, c, stringify).authenticated
    ensures UserKey !in ReloadSpec(s, u, t, c, stringify).storage
  {
  }

  /** A 404 on the team fetch means "no team": with the user and catalogue
      fetched, the reload ends ready with a null team. */
  lemma TeamNotFoundIsNoTeam(s: Session, u: Reply, t: Reply, c: Reply, stringify: Value -> string)
    requires AwaitData(u).Ok? && AwaitData(c).Ok?
    requires t.Err? && t.error.requestStatus == Some(404)
    ensures var r := ReloadSpec(s, u, t, c, stringify);
            r.ready && r.authenticated && r.team == Null && r.storage[TeamKey] == stringify(Null)
  {
  }

  /** The cache is replaced only when every fetch succeeded; after a transport
      failure the previous user, team, catalogue and storage stay. */
  lemma ReloadReplacesOnlyWhenFresh(s: Session, u: Reply, t: Reply, c: Reply, stringify: Value -> string)
    ensures var r := ReloadSpec(s, u, t, c, stringify);
            r.authenticated ==>
              (r.ready <==> Classify(u, false).Fetched? && !Classify(t, true).Offline? && Classify(c, false).Fetched?)
    ensures var r := ReloadSpec(s, u, t, c, stringify);
            r.authenticated && !r.ready ==>
              r.user == s.user && r.team == s.team && r.challenges == s.challenges && r.storage == s.storage
    ensures var r := ReloadSpec(s, u, t, c, stringify);
            r.authenticated && r.ready ==> Mirrors(r, stringify)
    ensures ReloadSpec(s, u, t, c, stringify).navigation == s.navigation
  {
  }

  /** When the stored strings parse back to what was stored, a controller
      restarted after a successful reload boots with the same user, team and
      catalogue and counts as authenticated exactly when that user is truthy. */
  lemma MirrorRestoresSession(s: Session, u: Reply, t: Reply, c: Reply,
                              parse: string -> Option<Value>, stringify: Value -> string)
    requires var r := ReloadSpec(s, u, t, c, stringify);
             parse(stringify(r.user)) == Some(r.user) && parse(stringify(r.team)) == Some(r.team) &&
             parse(stringify(r.challenges)) == Some(r.challenges)
    requires var r := ReloadSpec(s, u, t, c, stringify); r.authenticated && r.ready
    ensures var r := ReloadSpec(s, u, t, c, stringify);
            var b := Boot(r.storage, parse);
            b.user == r.user && b.team == r.team && b.challenges == r.challenges &&
            (b.authenticated <==> Truthy(r.user))
  {
    var r := ReloadSpec(s, u, t, c, stringify);
    ReloadReplacesOnlyWhenFresh(s, u, t, c, stringify);
    assert Mirrors(r, stringify);
  }

  /** The token `login` stores: `data.d.token`, converted to a string by
      `setItem`; a body without `d` throws. */
  function LoginToken(r: Reply): (tok: Result<string, JsError>)
    ensures r.Err? ==> tok == Err(r.error)
    ensures tok.Ok? ==> AwaitData(r).Ok? && AwaitData(r).value != Null && AwaitData(r).value != Undefined
  {
    match AwaitData(r)
    case Err(e) => Err(e)
    case Ok(d) =>
      match Read(d, "token")
      case Err(e) => Err(e)
      case Ok(v) => Ok(JsString(v))
  }

  /** The state after `login` and its `_postLogin`: the token is stored, the
      cache reloaded (with that token in storage), and then "/home" is
      pushed. A failed post changes nothing. */
  function LoginSpec(s: Session, reply: Reply, u: Reply, t: Reply, c: Reply, stringify: Value -> string): Session
  {
    match LoginToken(reply)
    case Err(_) => s
    case Ok(tok) =>
      var r := ReloadSpec(s.(storage := s.storage[TokenKey := tok]), u, t, c, stringify);
      r.(navigation := r.navigation + ["/home"])
  }

  /** A successful login always ends by navigating to "/home", after the
      reload; the token stays stored unless the reload logged out. */
  lemma LoginNavigatesHomeAfterReload(s: Session, reply: Reply, u: Reply, t: Reply, c: Reply, stringify: Value -> string)
    requires LoginToken(reply).Ok?
    ensures var r := LoginSpec(s, reply, u, t, c, stringify);
            r.navigation == s.navigation + ["/home"]
    ensures var r := LoginSpec(s, reply, u, t, c, stringify);
            r.authenticated ==> TokenKey in r.storage && r.storage[TokenKey] == LoginToken(reply).value
  {
  }

  /** Login as "alice" answered with token "T", followed by a reload that
      fetches user 1, gets a 404 for the team and an empty catalogue: the
      session is authenticated and ready, with no team and token "T". */
  lemma LoginScenario(s: Session, stringify: Value -> string)
    ensures
      var alice := Obj(map["id" := Num(1), "username" := Str("alice")]);
      var reply := Ok(Obj(map["d" := Obj(map["token" := Str("T")])]));
      var u := Ok(Obj(map["d" := alice]));
      var t := Err(JsError(Some(Obj(map["m" := Str("Not found")])), Some(404), "Request failed with status code 404"));
      var c := Ok(Obj(map["d" := Arr([])]));
      var r := LoginSpec(s, reply, u, t, c, stringify);
      r.authenticated && r.ready && r.user == alice && r.team == Null && r.challenges == Arr([]) &&
      r.storage[TokenKey] == "T"
  {
  }

  /** The state after `createTeam`/`joinTeam`: after the post succeeds the
      team is refetched and stored in state, and written to storage as
      `String(team)` (not JSON). */
  function TeamActionSpec(s: Session, post: Reply, teamReply: Reply): (r: (Session, Reply))
    ensures post.Err? ==> r == (s, post)
    ensures post.Ok? && AwaitData(teamReply).Err? ==> r == (s, Err(AwaitData(teamReply).error))
    ensures post.Ok? && AwaitData(teamReply).Ok? ==>
              var team := AwaitData(teamReply).value;
              r == (s.(team := team, storage := s.storage[TeamKey := JsString(team)]), post)
  {
    match post
    case Err(e) => (s, post)
    case Ok(_) =>
      match AwaitData(teamReply)
      case Err(e) => (s, Err(e))
      case Ok(team) => (s.(team := team, storage := s.storage[TeamKey := JsString(team)]), post)
  }

  /** Because the team is stored without `JSON.stringify`, a team object is
      stored as "[object Object]"; a restart whose parser rejects that text
      boots with the empty team `{}` instead of the joined team. */
  lemma JoinedTeamNotRestored(s: Session, post: Reply, teamReply: Reply, parse: string -> Option<Value>)
    requires post.Ok? && AwaitData(teamReply).Ok? && AwaitData(teamReply).value.Obj?
    requires parse("[object Object]") == None
    ensures Boot(TeamActionSpec(s, post, teamReply).0.storage, parse).team == Obj(map[])
  {
  }

  /** The controller object. */
  class Api {
    var ready: bool
    var authenticated: bool
    var user: Value
    var team: Value
    var challenges: Value
    var storage: map<string, string>
    var navigation: seq<string>
    const parse: string -> Option<Value>
    const stringify: Value -> string

    function State(): Session
      reads this
    {
      Session(ready, authenticated, user, team, challenges, storage, navigation)
    }

    /** constructor: read the cached user, catalogue and team. */
    constructor (storage0: map<string, string>, parse: string -> Option<Value>, stringify: Value -> string)
      ensures State() == Boot(storage0, parse)
      ensures this.parse == parse && this.stringify == stringify
    {
      this.parse := parse;
      this.stringify := stringify;
      var userData := Cached(storage0, UserKey, parse, Undefined);
      var chals := Cached(storage0, ChallengesKey, parse, Arr([]));
      var teamData := Cached(storage0, TeamKey, parse, Obj(map[]));
      ready := false;
      authenticated := Truthy(userData);
      user := userData;
      challenges := chals;
      team := teamData;
      storage := storage0;
      navigation := [];
    }

    /** `componentWillMount`: reload when a token is stored, otherwise become
        ready without any request. */
    method Mount(u: Reply, t: Reply, c: Reply)
      modifies this
      ensures HasToken(old(storage)) ==> State() == ReloadSpec(old(State()), u, t, c, stringify)
      ensures !HasToken(old(storage)) ==> State() == old(State()).(ready := true)
    {
      if HasToken(storage) {
        ReloadCache(u, t, c);
      } else {
        ready := true;
      }
    }

    /** `_getHeaders`: an Authorization header carrying the stored token,
        present exactly when a token is stored. */
    method GetHeaders() returns (headers: map<string, string>)
      ensures "Authorization" in headers <==> HasToken(storage)
      ensures "Authorization" in headers ==> headers["Authorization"] == storage[TokenKey]
      ensures headers.Keys <= {"Authorization"}
    {
      headers := map[];
      if TokenKey in storage && storage[TokenKey] != "" {
        headers := headers["Authorization" := storage[TokenKey]];
      }
    }

    /** `logout` */
    method Logout()
      modifies this
      ensures State() == LogoutSpec(old(State()))
    {
      storage := storage - {TokenKey};
      storage := storage - {UserKey};
      storage := storage - {ChallengesKey};
      authenticated := false;
      user := Null;
      ready := true;
      challenges := Arr([]);
    }

    /** `_reloadCache`: fetch user, team and challenges in that order. */
    method ReloadCache(u: Reply, t: Reply, c: Reply)
      modifies this
      ensures State() == ReloadSpec(old(State()), u, t, c, stringify)
    {
      var us := Classify(u, false);
      if us.Rejected? {
        Logout();
        return;
      }
      if !us.Fetched? {
        ready := false;
      }
      var ts := Classify(t, true);
      if ts.Rejected? {
        Logout();
        return;
      }
      if ts.Offline? {
        ready := false;
      }
      var cs := Classify(c, false);
      if cs.Rejected? {
        Logout();
        return;
      }
      var ok := us.Fetched? && !ts.Offline? && cs.Fetched?;
      if ok {
        var userData, teamData, chals := StepValue(us), StepValue(ts), StepValue(cs);
        storage := storage[UserKey := stringify(userData)];
        storage := storage[TeamKey := stringify(teamData)];
        storage := storage[ChallengesKey := stringify(chals)];
        user := userData;
        team := teamData;
        challenges := chals;
      }
      ready := ok;
      authenticated := true;
    }

    /** `login` followed by `_postLogin`. The post's outcome is returned. */
    method Login(username: string, password: string, otp: Option<string>, reply: Reply, u: Reply, t: Reply, c: Reply)
      returns (payload: map<string, string>, result: Result<(), JsError>)
      modifies this
      ensures payload == LoginPayload(username, password, otp)
      ensures result.Err? <==> LoginToken(reply).Err?
      ensures result.Err? ==> result.error == LoginToken(reply).error
      ensures State() == LoginSpec(old(State()), reply, u, t, c, stringify)
    {
      payload := LoginPayload(username, password, otp);
      match LoginToken(reply) {
        case Err(e) =>
          result := Err(e);
        case Ok(tok) =>
          storage := storage[TokenKey := tok];
          ReloadCache(u, t, c);
          navigation := navigation + ["/home"];
          result := Ok(());
      }
    }

    /** `createTeam` (create = true) or `joinTeam`: post, then refetch the
        team. Returns the post's body or the error the promise rejects with. */
    method TeamAction(create: bool, name: string, password: string, post: Reply, teamReply: Reply)
      returns (path: string, body: map<string, string>, result: Reply)
      modifies this
      ensures path == (if create then TeamCreatePath else TeamJoinPath)
      ensures body == map["name" := name, "password" := password]
      ensures (State(), result) == TeamActionSpec(old(State()), post, teamReply)
    {
      path := if create then TeamCreatePath else TeamJoinPath;
      body := map["name" := name, "password" := password];
      match post {
        case Err(e) =>
          result := post;
        case Ok(_) =>
          match AwaitData(teamReply) {
            case Err(e) =>
              result := Err(e);
            case Ok(v) =>
              team := v;
              storage := storage[TeamKey := JsString(v)];
              result := post;
          }
      }
    }

    /** `register`: on success navigate to the e-mail notice; the session is
        not authenticated by it. */
    method Register(reply: Reply) returns (result: Result<(), JsError>)
      modifies this`navigation
      ensures reply.Err? ==> result == Err(reply.error) && navigation == old(navigation)
      ensures reply.Ok? ==> result == Ok(()) && navigation == old(navigation) + ["/register/email"]
    {
      match reply {
        case Err(e) =>
          result := Err(e);
        case Ok(_) =>
          navigation := navigation + ["/register/email"];
          result := Ok(());
      }
    }
  }
}

=== FILE: app.dfy ===
/** The application shell (`App`): a keydown watcher that switches the site to
    a fake console once the last keystrokes spell a fixed sequence, and the
    choice between that console, the site, and the offline banner. */
module KeyWatcher {

  /** Escape, Shift, `;`, Q, Shift, 1, Enter. */
  const Magic: seq<int> := [27, 16, 186, 81, 16, 49, 13]
  const Shift: int := 16

  /** The last `n` entries of `s` (all of `s` when it is shorter). */
  function LastN(s: seq<int>, n: nat): (r: seq<int>)
    ensures |r| == if |s| <= n then |s| else n
    ensures r == s[|s| - |r|..]
  {
    if |s| <= n then s else s[|s| - n..]
  }

  /** A keydown is ignored when it is Shift and the buffer already ends with
      Shift. */
  predicate Ignored(buf: seq<int>, key: int)
    ensures NoDoubleShift(buf) ==> (Ignored(buf, key) <==> !NoDoubleShift(buf + [key]))
  {
    if key == Shift && |buf| > 0 && buf[|buf| - 1] == Shift then
      assert DoubleShiftAt(buf + [key], |buf| - 1);
      true
    else if NoDoubleShift(buf) then
      AcceptKeepsNoDoubleShift(buf, key);
      false
    else
      false
  }

  /** The buffer after a keydown: unchanged when ignored, otherwise the key is
      appended and the buffer cut to its last `|Magic|` entries. */
  function KeyStep(buf: seq<int>, key: int): (r: seq<int>)
    ensures Ignored(buf, key) ==> r == buf
    ensures !Ignored(buf, key) ==> r == LastN(buf + [key], |Magic|)
  {
    if Ignored(buf, key) then buf
    else
      var pushed := buf + [key];
      if |pushed| > |Magic| then pushed[|pushed| - |Magic|..] else pushed
  }

  /** No two adjacent Shift presses. */
  predicate NoDoubleShift(s: seq<int>) {
    forall i :: 0 <= i < |s| - 1 ==> !DoubleShiftAt(s, i)
  }

  /** Shift pressed at `i` and again at `i + 1`. */
  predicate DoubleShiftAt(s: seq<int>, i: int)
    requires 0 <= i < |s| - 1
  {
    s[i] == Shift && s[i + 1] == Shift
  }

  /** Windowing and appending commute: cutting the accepted keys to their
      last `n` before or after appending a key gives the same window. */
  lemma WindowAppend(accepted: seq<int>, key: int, n: nat)
    requires n > 0
    ensures LastN(LastN(accepted, n) + [key], n) == LastN(accepted + [key], n)
  {
    if |accepted| > n {
      var w := accepted[|accepted| - n..];
      assert (w + [key])[1..] == accepted[|accepted| - n + 1..] + [key];
      assert (accepted + [key])[|accepted| + 1 - n..] == accepted[|accepted| + 1 - n..] + [key];
    }
  }

  /** The buffer after an accepted key is the last `|Magic|` accepted keys. */
  lemma StepKeepsWindow(accepted: seq<int>, key: int)
    requires !Ignored(LastN(accepted, |Magic|), key)
    ensures KeyStep(LastN(accepted, |Magic|), key) == LastN(accepted + [key], |Magic|)
  {
    WindowAppend(accepted, key, |Magic|);
  }

  /** Accepting a key never creates two adjacent Shift presses. */
  lemma AcceptKeepsNoDoubleShift(accepted: seq<int>, key: int)
    requires NoDoubleShift(accepted)
    requires !(key == Shift && |accepted| > 0 && accepted[|accepted| - 1] == Shift)
    ensures NoDoubleShift(accepted + [key])
  {
    var s := accepted + [key];
    forall i | 0 <= i < |s| - 1
      ensures !DoubleShiftAt(s, i)
    {
      if i + 1 < |accepted| {
        assert s[i] == accepted[i] && s[i + 1] == accepted[i + 1];
        assert !DoubleShiftAt(accepted, i);
      } else {
        assert s[i] == accepted[|accepted| - 1] && s[i + 1] == key;
      }
    }
  }

  /** The buffer after a run of keydowns. */
  function Feed(buf: seq<int>, keys: seq<int>): (r: seq<int>)
    ensures |buf| <= |Magic| ==> |r| <= |Magic|
    decreases |keys|
  {
    if keys == [] then buf else Feed(KeyStep(buf, keys[0]), keys[1..])
  }

  /** Holding Shift (a repeated Shift keydown) counts as one press. */
  lemma {:induction false} RepeatedShiftCountsOnce(buf: seq<int>, rest: seq<int>)
    ensures Feed(buf, [Shift, Shift] + rest) == Feed(buf, [Shift] + rest)
  {
    var b := KeyStep(buf, Shift);
    assert |b| > 0 && b[|b| - 1] == Shift;
    assert KeyStep(b, Shift) == b;
    assert ([Shift, Shift] + rest)[1..] == [Shift] + rest;
    assert ([Shift] + rest)[1..] == rest;
  }

  /** Until the buffer fills, it holds exactly the keys typed, as long as
      they contain no double Shift press. */
  lemma {:induction false} FeedBelowWindow(buf: seq<int>, keys: seq<int>)
    requires |buf| + |keys| <= |Magic|
    requires NoDoubleShift(buf + keys)
    ensures Feed(buf, keys) == buf + keys
    decreases |keys|
  {
    if keys == [] {
      assert buf + keys == buf;
    } else {
      var s := buf + keys;
      if |buf| > 0 {
        assert s[|buf| - 1] == buf[|buf| - 1] && s[|buf|] == keys[0];
        assert !DoubleShiftAt(s, |buf| - 1);
      }
      assert !Ignored(buf, keys[0]);
      var next := buf + [keys[0]];
      assert KeyStep(buf, keys[0]) == next;
      assert next + keys[1..] == s;
      FeedBelowWindow(next, keys[1..]);
    }
  }

  /** Typing the sequence from an empty buffer fills the buffer with it. */
  lemma MagicFromEmpty()
    ensures Feed([], Magic) == Magic
  {
    assert [] + Magic == Magic;
    assert NoDoubleShift(Magic) by {
      assert Magic[3] != Shift && Magic[5] != Shift;
      assert forall i :: 0 <= i < 6 && i != 1 && i != 4 ==> Magic[i] != Shift;
    }
    FeedBelowWindow([], Magic);
  }

  /** What the shell renders. */
  datatype Screen = Console | Site(offlineBanner: bool)

  /** The console replaces the whole site; otherwise the offline banner shows
      exactly when the session controller is not ready. */
  function Render(console: bool, ready: bool): (s: Screen)
    ensures s.Console? <==> console
    ensures s.Site? ==> (s.offlineBanner <==> !ready)
  {
    if console then Console else Site(!ready)
  }

  class App {
    var current: seq<int>
    var console: bool
    /** Every keydown the watcher accepted, oldest first. */
    ghost var accepted: seq<int>

    ghost predicate Valid()
      reads this
    {
      current == LastN(accepted, |Magic|) && NoDoubleShift(accepted)
    }

    constructor ()
      ensures Valid() && current == [] && !console && accepted == []
    {
      current := [];
      console := false;
      accepted := [];
    }

    /** `_handleKeyDown`. */
    method HandleKeyDown(keyCode: int)
      requires Valid()
      modifies this
      ensures Valid()
      ensures current == KeyStep(old(current), keyCode)
      ensures |current| <= |Magic| && NoDoubleShift(current)
      ensures Ignored(old(current), keyCode) ==> unchanged(this)
      ensures !Ignored(old(current), keyCode) ==> accepted == old(accepted) + [keyCode]
      ensures !Ignored(old(current), keyCode) ==> (console <==> old(console) || current == Magic)
      ensures old(console) ==> console
    {
      if keyCode == Shift && |current| > 0 && current[|current| - 1] == Shift {
        WindowOfNoDoubleShift(accepted, |Magic|);
        return;
      }
      var pushed := current + [keyCode];
      if |pushed| > |Magic| {
        pushed := pushed[|pushed| - |Magic|..];
      }
      AcceptStep(accepted, keyCode);
      assert pushed == KeyStep(current, keyCode);
      current := pushed;
      accepted := accepted + [keyCode];
      if current == Magic {
        console := true;
      }
    }
  }

  /** An accepted key keeps the buffer the window of the accepted keys and
      keeps both free of double Shift presses. */
  lemma AcceptStep(accepted: seq<int>, key: int)
    requires NoDoubleShift(accepted)
    requires !Ignored(LastN(accepted, |Magic|), key)
    ensures KeyStep(LastN(accepted, |Magic|), key) == LastN(accepted + [key], |Magic|)
    ensures NoDoubleShift(accepted + [key])
    ensures NoDoubleShift(LastN(accepted + [key], |Magic|))
  {
    var w := LastN(accepted, |Magic|);
    assert |accepted| > 0 ==> w[|w| - 1] == accepted[|accepted| - 1];
    StepKeepsWindow(accepted, key);
    AcceptKeepsNoDoubleShift(accepted, key);
    WindowOfNoDoubleShift(accepted + [key], |Magic|);
  }

  /** A window of the accepted keys inherits their lack of double Shift
      presses. */
  lemma WindowOfNoDoubleShift(accepted: seq<int>, n: nat)
    requires NoDoubleShift(accepted)
    ensures NoDoubleShift(LastN(accepted, n))
  {
    var w := LastN(accepted, n);
    var d := |accepted| - |w|;
    forall i | 0 <= i < |w| - 1
      ensures !DoubleShiftAt(w, i)
    {
      assert w[i] == accepted[d + i] && w[i + 1] == accepted[d + i + 1];
      assert !DoubleShiftAt(accepted, d + i);
    }
  }
}

=== FILE: catalog.dfy ===
/** The challenge catalogue as the pages hold it: shared, mutable objects.
    A challenge object is the same object wherever it is listed, so writing
    a field through one reference is seen through every other. */
module Catalog {
  import opened JsValues

  /** A challenge: its own fields (`id`, `name`, `challenge_type`,
      `challenge_metadata`, `files`, `solved`, ...). */
  class ChallengeObj {
    var fields: map<string, Value>

    constructor (fields: map<string, Value>)
      ensures this.fields == fields
    {
      this.fields := fields;
    }
  }

  /** A category with its id and the challenges listed in it. */
  class Category {
    const id: Value
    var challenges: seq<ChallengeObj>

    constructor (id: Value, challenges: seq<ChallengeObj>)
      ensures this.id == id && this.challenges == challenges
    {
      this.id := id;
      this.challenges := challenges;
    }
  }

  /** `challenge.id.toString()` */
  function IdText(c: ChallengeObj): string
    reads c
  {
    JsString(Get(Obj(c.fields), "id"))
  }
}

=== FILE: challenge.dfy ===
/** The standard challenge view: the flag format it derives from the flag
    prefix, the validity of a typed flag, the flag input it offers, the
    challenge mods it mounts, and the flag submission form.  Regular
    expressions are kept as their source text; matching a flag against one
    is the `matches(source, flag)` parameter. */
module StandardChallenge {
  import opened JsValues
  import opened Catalog
  import opened Plugins

  // ---------------------------------------------------------------------
  // `escape`

  /** The characters `escape` puts a backslash before. */
  predicate IsSpecial(c: char) {
    c in ".*+?^${}()|[]\\"
  }

  function CountSpecial(s: string): (n: nat)
    ensures n <= |s|
  {
    if s == [] then 0 else (if IsSpecial(s[0]) then 1 else 0) + CountSpecial(s[1..])
  }

  /** `string.replace(/[.*+?^${}()|[\]\\]/g, "\\$&")`. */
  function Escape(s: string): (r: string)
    ensures |r| == |s| + CountSpecial(s)
    ensures (forall i :: 0 <= i < |s| ==> !IsSpecial(s[i])) ==> r == s
  {
    if s == [] then []
    else (if IsSpecial(s[0]) then ['\\', s[0]] else [s[0]]) + Escape(s[1..])
  }

  /** Drops the backslash in front of each escaped character. */
  function Unescape(r: string): string
    decreases |r|
  {
    if r == [] then []
    else if r[0] == '\\' && |r| >= 2 then [r[1]] + Unescape(r[2..])
    else [r[0]] + Unescape(r[1..])
  }

  /** Removing the inserted backslashes gives back the input. */
  lemma {:induction false} UnescapeEscape(s: string)
    ensures Unescape(Escape(s)) == s
  {
    if s != [] {
      var head := if IsSpecial(s[0]) then ['\\', s[0]] else [s[0]];
      var r := head + Escape(s[1..]);
      assert Escape(s) == r;
      if IsSpecial(s[0]) {
        assert r[0] == '\\' && r[1] == s[0] && r[2..] == Escape(s[1..]);
      } else {
        assert s[0] != '\\';
        assert r[0] == s[0] && r[1..] == Escape(s[1..]);
      }
      UnescapeEscape(s[1..]);
    }
  }

  /** Escaping works character by character. */
  lemma {:induction false} EscapeAppend(a: string, b: string)
    ensures Escape(a + b) == Escape(a) + Escape(b)
  {
    if a != [] {
      assert (a + b)[0] == a[0] && (a + b)[1..] == a[1..] + b;
      EscapeAppend(a[1..], b);
    } else {
      assert a + b == b;
    }
  }

  // ---------------------------------------------------------------------
  // `flagRegex`

  const DefaultFlagPrefix: string := "flag"

  /** The `flag_prefix` setting, "flag" when it is not configured. */
  function FlagPrefix(config: map<string, string>): (p: string)
    ensures "flag_prefix" in config ==> p == config["flag_prefix"]
    ensures "flag_prefix" !in config ==> p == DefaultFlagPrefix
  {
    if "flag_prefix" in config then config["flag_prefix"] else DefaultFlagPrefix
  }

  /** The group that lets the partial pattern accept one more prefix
      character or the end of the input. */
  function Group(c: char): string {
    "(?:" + Escape([c]) + "|$)"
  }

  /** One group per character, in order. */
  function Groups(s: string): string
    decreases |s|
  {
    if s == [] then "" else Groups(s[..|s| - 1]) + Group(s[|s| - 1])
  }

  const PartialTail: string := "(?:{|$)(?:[^}]+|$)(?:}|$)$"

  /** The default partial pattern: every prefix of a well-formed flag
      matches it. */
  function PartialPattern(prefix: string): string {
    "^" + Groups(prefix) + PartialTail
  }

  /** The groups of a concatenation are the groups of its parts. */
  lemma {:induction false} GroupsAppend(a: string, b: string)
    ensures Groups(a + b) == Groups(a) + Groups(b)
    decreases |b|
  {
    if b == [] {
      assert a + b == a;
    } else {
      var b' := b[..|b| - 1];
      var last := b[|b| - 1];
      var ab := a + b;
      GroupsAppend(a, b');
      assert ab[..|ab| - 1] == a + b' && ab[|ab| - 1] == last;
      GroupsSnoc(ab);
      GroupsSnoc(b);
      ConcatAssoc(Groups(a), Groups(b'), Group(last));
    }
  }

  /** One step of `Groups`, from the end. */
  lemma GroupsSnoc(s: string)
    requires s != []
    ensures Groups(s) == Groups(s[..|s| - 1]) + Group(s[|s| - 1])
  {
  }

  lemma ConcatAssoc(x: string, y: string, z: string)
    ensures (x + y) + z == x + (y + z)
  {
  }

  /** Exactly one group per prefix character: seven characters each, plus
      one for every character that needs escaping. */
  lemma {:induction false} GroupsLength(s: string)
    ensures |Groups(s)| == 7 * |s| + CountSpecial(s)
    decreases |s|
  {
    if s != [] {
      var init := s[..|s| - 1];
      GroupsLength(init);
      CountSpecialAppend(init, [s[|s| - 1]]);
      assert init + [s[|s| - 1]] == s;
    }
  }

  lemma {:induction false} CountSpecialAppend(a: string, b: string)
    ensures CountSpecial(a + b) == CountSpecial(a) + CountSpecial(b)
  {
    if a != [] {
      assert (a + b)[0] == a[0] && (a + b)[1..] == a[1..] + b;
      CountSpecialAppend(a[1..], b);
    } else {
      assert a + b == b;
    }
  }

  /** A pattern: the metadata's own value, or source text built here. */
  datatype Pattern = Custom(value: Value) | Built(source: string)

  datatype FlagFormat = FlagFormat(full: Pattern, partial: Pattern, formatString: string)

  /** The format used when the challenge does not set both custom patterns:
      both patterns are built from the prefix, the full one accepting the
      prefix followed by any non-empty text in braces. */
  function DefaultFormat(prefix: string): (f: FlagFormat)
    ensures f.full == Built("^" + Escape(prefix) + "{.+}$")
    ensures f.formatString == prefix + "{...}"
    ensures f.full.Built? && f.partial.Built?
    ensures |f.full.source| == 6 + |prefix| + CountSpecial(prefix)
    ensures f.full.source[..1] == "^" && f.full.source[|f.full.source| - 5..] == "{.+}$"
    ensures f.partial.source == PartialPattern(prefix)
    ensures |f.formatString| == |prefix| + 5 && f.formatString[..|prefix|] == prefix
  {
    FlagFormat(Built("^" + Escape(prefix) + "{.+}$"), Built(PartialPattern(prefix)), prefix + "{...}")
  }

  /** The partial pattern's loop over the prefix characters. */
  method BuildPartial(prefix: string) returns (partial: string)
    ensures partial == PartialPattern(prefix)
  {
    var acc := "";
    for i := 0 to |prefix|
      invariant acc == Groups(prefix[..i])
    {
      assert prefix[..i + 1][..i] == prefix[..i];
      acc := acc + Group(prefix[i]);
    }
    assert prefix[..|prefix|] == prefix;
    partial := "^" + acc + PartialTail;
  }

  /** `flagRegex`: the custom patterns are used only when both are set;
      otherwise both patterns and the format string come from the prefix.
      Reading the metadata of a challenge that has none throws. */
  function FormatOf(metadata: Value, prefix: string): (r: Result<FlagFormat, JsError>)
    ensures (metadata == Null || metadata == Undefined) <==> r.Err?
    ensures r.Err? ==> r.error == ReadFailure
    ensures var regex := Get(metadata, "flag_regex");
            var partial := Get(metadata, "flag_partial_regex");
            r.Ok? && Truthy(regex) && Truthy(partial) ==>
              r.value == FlagFormat(Custom(regex), Custom(partial), JsString(regex))
    ensures r.Ok? && !(Truthy(Get(metadata, "flag_regex")) && Truthy(Get(metadata, "flag_partial_regex"))) ==>
              r.value == DefaultFormat(prefix)
  {
    if metadata == Null || metadata == Undefined then Err(ReadFailure)
    else
      var regex := Get(metadata, "flag_regex");
      var partial := Get(metadata, "flag_partial_regex");
      if !Truthy(regex) || !Truthy(partial) then Ok(DefaultFormat(prefix))
      else Ok(FlagFormat(Custom(regex), Custom(partial), JsString(regex)))
  }

  /** `flagRegex` with its loop building the partial pattern. */
  method FlagRegex(metadata: Value, prefix: string) returns (r: Result<FlagFormat, JsError>)
    ensures r == FormatOf(metadata, prefix)
  {
    if metadata == Null || metadata == Undefined {
      return Err(ReadFailure);
    }
    var regex := Get(metadata, "flag_regex");
    var partial := Get(metadata, "flag_partial_regex");
    if !Truthy(regex) || !Truthy(partial) {
      var partialSource := BuildPartial(prefix);
      return Ok(FlagFormat(Built("^" + Escape(prefix) + "{.+}$"), Built(partialSource), prefix + "{...}"));
    }
    return Ok(FlagFormat(Custom(regex), Custom(partial), JsString(regex)));
  }

  // ---------------------------------------------------------------------
  // `changeFlag`

  /** Types whose flag is free text. */
  predicate FreeText(challengeType: Value) {
    StrictEquals(challengeType, Str("freeform")) || StrictEquals(challengeType, Str("longText"))
  }

  const NotAFunction: JsError := JsError(None, None, "TypeError: regex.test is not a function")

  /** `changeFlag` as written: a custom pattern is the metadata's value, a
      string and not a `RegExp`, so calling `regex.test` on it throws. */
  function ChangeFlag(challengeType: Value, full: Pattern, flag: string, matches: (string, string) -> bool): (r: Result<bool, JsError>)
    ensures FreeText(challengeType) ==> r == Ok(flag != "")
    ensures !FreeText(challengeType) && full.Built? ==> r == Ok(matches(full.source, flag))
    ensures !FreeText(challengeType) && full.Custom? ==> r == Err(NotAFunction)
  {
    if FreeText(challengeType) then Ok(flag != "")
    else match full
      case Built(source) => Ok(matches(source, flag))
      case Custom(_) => Err(NotAFunction)
  }

  /** With both custom patterns set, typing a flag into any challenge whose
      flag is not free text throws instead of checking the flag. */
  lemma CustomPatternThrows(metadata: Value, prefix: string, challengeType: Value, flag: string, matches: (string, string) -> bool)
    requires metadata != Null && metadata != Undefined
    requires Truthy(Get(metadata, "flag_regex")) && Truthy(Get(metadata, "flag_partial_regex"))
    requires !FreeText(challengeType)
    ensures FormatOf(metadata, prefix).Ok?
    ensures ChangeFlag(challengeType, FormatOf(metadata, prefix).value.full, flag, matches) == Err(NotAFunction)
  {
  }

  /** Without both custom patterns, `changeFlag` never throws: the flag is
      checked against the pattern built from the prefix. */
  lemma DefaultPatternChecks(metadata: Value, prefix: string, challengeType: Value, flag: string, matches: (string, string) -> bool)
    requires metadata != Null && metadata != Undefined
    requires !(Truthy(Get(metadata, "flag_regex")) && Truthy(Get(metadata, "flag_partial_regex")))
    requires !FreeText(challengeType)
    ensures FormatOf(metadata, prefix).Ok?
    ensures ChangeFlag(challengeType, FormatOf(metadata, prefix).value.full, flag, matches)
              == Ok(matches("^" + Escape(prefix) + "{.+}$", flag))
  {
  }

  /** `changeFlag` as intended: free-text flags are valid when non-empty,
      every other flag when it matches the full pattern, the custom one
      taken as the source of a regular expression. */
  function FlagValid(challengeType: Value, full: Pattern, flag: string, matches: (string, string) -> bool): (valid: bool)
    ensures FreeText(challengeType) ==> (valid <==> flag != "")
    ensures !FreeText(challengeType) && full.Built? ==> (valid <==> matches(full.source, flag))
    ensures !FreeText(challengeType) && full.Custom? ==> (valid <==> matches(JsString(full.value), flag))
  {
    if FreeText(challengeType) then flag != ""
    else match full
      case Built(source) => matches(source, flag)
      case Custom(v) => matches(JsString(v), flag)
  }

  /** The correction changes nothing where the code as written does not
      throw. */
  lemma FlagValidAgrees(challengeType: Value, full: Pattern, flag: string, matches: (string, string) -> bool)
    ensures ChangeFlag(challengeType, full, flag, matches).Ok? ==>
              ChangeFlag(challengeType, full, flag, matches).value == FlagValid(challengeType, full, flag, matches)
    ensures full.Built? ==> ChangeFlag(challengeType, full, flag, matches).Ok?
  {
  }

  // ---------------------------------------------------------------------
  // The flag input and the challenge mods

  datatype FlagInput =
    | NoInput
    | FreeformInput
    | LongTextInput(placeholder: string, rows: nat, format: Pattern)
    | FormatInput(placeholder: string, format: Pattern)

  /** The `switch (challenge.challenge_type)` choosing the flag input. */
  function FlagInputFor(challengeType: Value, fmt: FlagFormat): (i: FlagInput)
    ensures i.NoInput? <==> (challengeType == Str("code") || challengeType == Str("map"))
    ensures i.FreeformInput? <==> challengeType == Str("freeform")
    ensures i.LongTextInput? <==> challengeType == Str("longText")
    ensures i.FormatInput? <==> challengeType !in {Str("code"), Str("map"), Str("freeform"), Str("longText")}
    ensures i.LongTextInput? ==> i == LongTextInput("Flag text", 5, fmt.partial)
    ensures i.FormatInput? ==> i.format == fmt.partial && i.placeholder == "Flag format: " + fmt.formatString
  {
    if challengeType == Str("code") || challengeType == Str("map") then NoInput
    else if challengeType == Str("freeform") then FreeformInput
    else if challengeType == Str("longText") then LongTextInput("Flag text", 5, fmt.partial)
    else FormatInput("Flag format: " + fmt.formatString, fmt.partial)
  }

  /** A mounted challenge mod: its component and its registry key. */
  datatype ModElement = ModElement(component: string, key: string)

  /** The challenge mods mounted on a challenge, in registration order. */
  function ChallengeMods(mods: seq<Plugin<string>>, challenge: Value, category: Value): (r: seq<ModElement>)
    ensures |r| == |EnabledPlugins(mods, challenge, category)|
    ensures forall i :: 0 <= i < |r| ==>
              var p := EnabledPlugins(mods, challenge, category)[i];
              r[i] == ModElement(p.contributes, p.key)
  {
    var enabled := EnabledPlugins(mods, challenge, category);
    seq(|enabled|, i requires 0 <= i < |enabled| => ModElement(enabled[i].contributes, enabled[i].key))
  }

  /** A mod with no `check` is mounted on every challenge. */
  lemma UncheckedModMounted(mods: seq<Plugin<string>>, challenge: Value, category: Value, i: int)
    requires 0 <= i < |mods| && mods[i].check.None?
    ensures ModElement(mods[i].contributes, mods[i].key) in ChallengeMods(mods, challenge, category)
  {
    var enabled := EnabledPlugins(mods, challenge, category);
    assert Enabled(mods[i], challenge, category);
    var j :| 0 <= j < |enabled| && enabled[j] == mods[i];
    assert ChallengeMods(mods, challenge, category)[j] == ModElement(mods[i].contributes, mods[i].key);
  }

  // ---------------------------------------------------------------------
  // `tryFlag`

  /** What the form does besides updating its own state. */
  datatype Effect =
    | Alert(text: string)
    | FlagResponse(correct: bool)
    | ReloadAll

  /** The flag form of one challenge. */
  class FlagForm {
    const challenge: ChallengeObj
    var locked: bool
    /** The error shown under the input: the error the attempt failed with. */
    var message: Option<JsError>
    /** Alerts, listener calls and reloads, oldest first. */
    var effects: seq<Effect>

    constructor (challenge: ChallengeObj)
      ensures this.challenge == challenge && !locked && message.None? && effects == []
    {
      this.challenge := challenge;
      locked := false;
      message := None;
      effects := [];
    }

    /** Submitting locks the form until the attempt settles. */
    method Submit()
      modifies this
      ensures locked && message == old(message) && effects == old(effects)
    {
      locked := true;
    }

    /** The attempt settles with `reply`. A correct flag marks the challenge
        solved; any answer or error unlocks the form; reading `correct` off a
        null answer throws into the error path. `hasListener` is whether
        `onFlagResponse` is set. */
    method Settle(reply: Result<Value, JsError>, hasListener: bool)
      modifies this, challenge
      ensures !locked
      ensures var listener := if hasListener then [FlagResponse(true)] else [];
              reply.Ok? && Read(reply.value, "correct").Ok? && Truthy(Get(reply.value, "correct")) ==>
                challenge.fields == old(challenge.fields)["solved" := Bool(true)] &&
                message == old(message) &&
                effects == old(effects) + [Alert("Flag correct!")] + listener + [ReloadAll]
      ensures reply.Ok? && Read(reply.value, "correct").Ok? && !Truthy(Get(reply.value, "correct")) ==>
                challenge.fields == old(challenge.fields) && message == old(message) &&
                effects == old(effects) + [Alert("Incorrect flag")]
      ensures var e := if reply.Err? then reply.error else ReadFailure;
              var listener := if hasListener then [FlagResponse(false)] else [];
              reply.Err? || Read(reply.value, "correct").Err? ==>
                challenge.fields == old(challenge.fields) && message == Some(e) &&
                effects == old(effects) + listener
    {
      var outcome := if reply.Err? then Err(reply.error) else Read(reply.value, "correct");
      match outcome
      case Ok(correct) =>
        if Truthy(correct) {
          effects := effects + [Alert("Flag correct!")];
          if hasListener {
            effects := effects + [FlagResponse(true)];
          }
          challenge.fields := challenge.fields["solved" := Bool(true)];
          effects := effects + [ReloadAll];
        } else {
          effects := effects + [Alert("Incorrect flag")];
        }
        locked := false;
      case Err(e) =>
        message := Some(e);
        if hasListener {
          effects := effects + [FlagResponse(false)];
        }
        locked := false;
    }
  }
}

=== FILE: challenge_page.dfy ===
/** The challenge page: it finds the category and challenge named in the
    route, decides between the viewer and the editor, picks the plugin that
    renders or edits the challenge, and saves an edit. */
module ChallengePage {
  import opened JsValues
  import opened Catalog

  /** A registered challenge-type or challenge-editor plugin. `uses` and
      `rightOf` are "" when the plugin does not set them; `component` is the
      name of the component it renders, if any. */
  datatype Handler = Handler(component: Option<string>, uses: string, rightOf: string)

  type Registry = map<string, Handler>

  /** The registry key for a challenge type: the type itself, or "default"
      when the challenge has none. */
  function HandlerKey(challengeType: Value): (k: string)
    ensures Truthy(challengeType) ==> k == JsString(challengeType)
    ensures !Truthy(challengeType) ==> k == "default"
  {
    if Truthy(challengeType) then JsString(challengeType) else "default"
  }

  // ---------------------------------------------------------------------
  // Editor plugins: following `uses` aliases

  /** `rank` strictly decreases along every `uses` alias between registered
      editors, so following aliases ends. */
  predicate AliasRanked(reg: Registry, rank: map<string, nat>) {
    forall k :: k in reg ==>
      k in rank && (reg[k].uses != "" && reg[k].uses in reg ==> reg[k].uses in rank && rank[reg[k].uses] < rank[k])
  }

  /** The editor a key ends at once every `uses` alias is followed: `None`
      when the chain reaches a key nobody registered. */
  ghost function Resolve(reg: Registry, key: string, rank: map<string, nat>): (r: Option<Handler>)
    requires AliasRanked(reg, rank)
    ensures r.Some? ==> r.value.uses == "" && r.value in reg.Values
    ensures key in reg && reg[key].uses == "" ==> r == Some(reg[key])
    ensures key !in reg ==> r.None?
    decreases if key in reg then rank[key] + 1 else 0
  {
    if key !in reg then None
    else if reg[key].uses == "" then Some(reg[key])
    else Resolve(reg, reg[key].uses, rank)
  }

  /** Where aliases lead depends only on the registry, not on the ranking
      that shows they end. */
  lemma {:induction false} ResolveRankIndependent(reg: Registry, key: string, rank1: map<string, nat>, rank2: map<string, nat>)
    requires AliasRanked(reg, rank1) && AliasRanked(reg, rank2)
    ensures Resolve(reg, key, rank1) == Resolve(reg, key, rank2)
    decreases if key in reg then rank1[key] + 1 else 0
  {
    if key in reg && reg[key].uses != "" {
      ResolveRankIndependent(reg, reg[key].uses, rank1, rank2);
    }
  }

  /** A chain of `uses` aliases from `path[0]` to the last key, which is a
      registered editor that aliases nothing. */
  predicate AliasChain(reg: Registry, path: seq<string>) {
    |path| >= 1 &&
    (forall i :: 0 <= i < |path| ==> path[i] in reg) &&
    (forall i {:trigger path[i]} :: 0 <= i < |path| - 1 ==> reg[path[i]].uses == path[i + 1] != "") &&
    reg[path[|path| - 1]].uses == ""
  }

  /** Following the aliases of a chain ends at its last editor. */
  lemma {:induction false} ChainResolves(reg: Registry, path: seq<string>, rank: map<string, nat>)
    requires AliasRanked(reg, rank) && AliasChain(reg, path)
    ensures Resolve(reg, path[0], rank) == Some(reg[path[|path| - 1]])
    decreases |path|
  {
    if |path| > 1 {
      assert reg[path[0]].uses == path[1] != "";
      assert path[1..][|path[1..]| - 1] == path[|path| - 1];
      assert AliasChain(reg, path[1..]);
      ChainResolves(reg, path[1..], rank);
    }
  }

  /** What the editor slot shows. */
  datatype EditorView = EditorMissing(challengeType: Value) | EditorMount(component: string)

  /** `EditorWrap`: look the challenge type up among the editors, follow
      `uses` aliases, and mount the editor's component. */
  method EditorFor(reg: Registry, challengeType: Value, ghost rank: map<string, nat>) returns (view: EditorView)
    requires AliasRanked(reg, rank)
    ensures var h := Resolve(reg, HandlerKey(challengeType), rank);
            (h.Some? && h.value.component.Some? ==> view == EditorMount(h.value.component.value)) &&
            (h.None? || h.value.component.None? ==> view == EditorMissing(challengeType))
  {
    var key := HandlerKey(challengeType);
    var found := key in reg;
    var handler := if found then reg[key] else Handler(None, "", "");
    while found && handler.uses != ""
      invariant found ==> key in reg && handler == reg[key]
      invariant Resolve(reg, HandlerKey(challengeType), rank) == (if found then Resolve(reg, key, rank) else None)
      decreases if found then rank[key] + 1 else 0
    {
      key := handler.uses;
      found := key in reg;
      if found {
        handler := reg[key];
      }
    }
    if !found || handler.component.None? {
      return EditorMissing(challengeType);
    }
    return EditorMount(handler.component.value);
  }

  // ---------------------------------------------------------------------
  // Challenge-type plugins: `rightOf`

  /** What the challenge slot shows: a missing-renderer notice naming a type,
      or the element to mount with, when the type renders right of a parent,
      its own component in the parent's right-hand slot. */
  datatype ChallengeView =
    | RendererMissing(challengeType: Value)
    | Mounted(component: Option<string>, right: Option<string>)

  /** `ChallengeWrap`. */
  function RenderChallenge(reg: Registry, challengeType: Value): (v: ChallengeView)
    ensures var key := HandlerKey(challengeType);
            v.Mounted? ==> key in reg && reg[key].component.Some?
    ensures var key := HandlerKey(challengeType);
            v.Mounted? && v.right.None? ==> v.component == reg[key].component && reg[key].rightOf == ""
    ensures var key := HandlerKey(challengeType);
            v.Mounted? && v.right.Some? ==>
              reg[key].rightOf != "" && reg[key].rightOf in reg &&
              v.right == reg[key].component && v.component == reg[reg[key].rightOf].component
    ensures var key := HandlerKey(challengeType);
            v.RendererMissing? ==>
              (v.challengeType == challengeType && (key !in reg || reg[key].component.None?)) ||
              (key in reg && reg[key].component.Some? && v.challengeType == Str(reg[key].rightOf) &&
               reg[key].rightOf != "" && reg[key].rightOf !in reg)
  {
    var key := HandlerKey(challengeType);
    if key !in reg || reg[key].component.None? then RendererMissing(challengeType)
    else
      var handler := reg[key];
      if handler.rightOf != "" then
        if handler.rightOf !in reg then RendererMissing(Str(handler.rightOf))
        else Mounted(reg[handler.rightOf].component, handler.component)
      else Mounted(handler.component, None)
  }

  /** `rightOf` is applied once: the parent's own `rightOf` is not followed,
      so re-registering the parent with another `rightOf` changes nothing. */
  lemma RightOfNotFollowed(reg: Registry, challengeType: Value, parentRightOf: string)
    requires HandlerKey(challengeType) in reg
    requires var h := reg[HandlerKey(challengeType)];
             h.rightOf != "" && h.rightOf in reg && h.rightOf != HandlerKey(challengeType)
    ensures var h := reg[HandlerKey(challengeType)];
            var p := reg[h.rightOf];
            RenderChallenge(reg[h.rightOf := p.(rightOf := parentRightOf)], challengeType) ==
            RenderChallenge(reg, challengeType)
  {
  }

  // ---------------------------------------------------------------------
  // Finding the category and the challenge of the route

  /** The first category whose id, as a string, is `catId`; -1 when there is
      none. */
  function CategoryIndex(cats: seq<Category>, catId: string): (r: int)
    ensures -1 <= r < |cats|
    ensures r >= 0 ==> JsString(cats[r].id) == catId
    ensures forall j :: 0 <= j < |cats| && (r < 0 || j < r) ==> JsString(cats[j].id) != catId
    decreases |cats|
  {
    if cats == [] then -1
    else if JsString(cats[0].id) == catId then 0
    else
      var r := CategoryIndex(cats[1..], catId);
      if r < 0 then -1 else r + 1
  }

  /** The first challenge whose id, as a string, is `chalId`; -1 when there
      is none. */
  function ChallengeIndex(chals: seq<ChallengeObj>, chalId: string): (r: int)
    reads set c | c in chals
    ensures -1 <= r < |chals|
    ensures r >= 0 ==> IdText(chals[r]) == chalId
    ensures forall j :: 0 <= j < |chals| && (r < 0 || j < r) ==> IdText(chals[j]) != chalId
    decreases |chals|
  {
    if chals == [] then -1
    else if IdText(chals[0]) == chalId then 0
    else
      var r := ChallengeIndex(chals[1..], chalId);
      if r < 0 then -1 else r + 1
  }

  /** The `for (const i in categories)` search of the page. */
  method FindCategory(cats: seq<Category>, catId: string) returns (r: int)
    ensures r == CategoryIndex(cats, catId)
  {
    var i := 0;
    while i < |cats|
      invariant 0 <= i <= |cats|
      invariant forall j :: 0 <= j < i ==> JsString(cats[j].id) != catId
    {
      if JsString(cats[i].id) == catId {
        return i;
      }
      i := i + 1;
    }
    return -1;
  }

  /** The `for (const i in chals)` search of the page. */
  method FindChallenge(chals: seq<ChallengeObj>, chalId: string) returns (r: int)
    ensures r == ChallengeIndex(chals, chalId)
  {
    var i := 0;
    while i < |chals|
      invariant 0 <= i <= |chals|
      invariant forall j :: 0 <= j < i ==> IdText(chals[j]) != chalId
    {
      if IdText(chals[i]) == chalId {
        return i;
      }
      i := i + 1;
    }
    return -1;
  }

  /** A staff member viewing a challenge with the `#edit` hash. */
  predicate IsEditor(hash: Value, user: Value)
    ensures IsEditor(hash, user) <==>
              hash == Str("#edit") && user.Obj? && "is_staff" in user.fields && Truthy(user.fields["is_staff"])
  {
    StrictEquals(hash, Str("#edit")) && Truthy(user) && Truthy(Get(user, "is_staff"))
  }

  /** A staff member on the `new` challenge of a category. */
  predicate IsCreator(chalId: string, user: Value)
    ensures IsCreator(chalId, user) <==>
              chalId == "new" && user.Obj? && "is_staff" in user.fields && Truthy(user.fields["is_staff"])
  {
    chalId == "new" && Truthy(user) && Truthy(Get(user, "is_staff"))
  }

  /** The challenge a creator starts from: the hash after `#`, URI-decoded
      and parsed (`decodeParse`), or `null` when there is no hash or it does
      not decode. */
  function CreatorValue(hash: Value, decodeParse: string -> Option<Value>): (v: Value)
    ensures !hash.Str? ==> v == Null
    ensures hash.Str? && decodeParse(Substring(hash.s, 1, |hash.s|)).None? ==> v == Null
    ensures hash.Str? && decodeParse(Substring(hash.s, 1, |hash.s|)).Some? ==>
              v == decodeParse(Substring(hash.s, 1, |hash.s|)).value
  {
    if !hash.Str? then Null
    else match decodeParse(Substring(hash.s, 1, |hash.s|))
      case None => Null
      case Some(v) => v
  }

  /** What the page shows. */
  datatype PageView =
    | NotFound
    | Editing(category: Category, challenge: ChallengeObj, isCreator: bool)
    | Viewing(category: Category, challenge: ChallengeObj)

  /** The page for route `/campaign/:tabId/challenge/:chalId`. A creator's
      challenge is a new object built from the hash; a value that is not an
      object gives it no fields. */
  method OpenChallenge(categories: seq<Category>, catId: string, chalId: string, hash: Value, user: Value,
                       decodeParse: string -> Option<Value>) returns (view: PageView)
    ensures view.Editing? ==> Truthy(user) && Truthy(Get(user, "is_staff"))
    ensures CategoryIndex(categories, catId) < 0 ==> view.NotFound?
    ensures var ci := CategoryIndex(categories, catId);
            ci >= 0 && !IsCreator(chalId, user) ==>
              var cat := categories[ci];
              var k := ChallengeIndex(cat.challenges, chalId);
              (k < 0 ==> view.NotFound?) &&
              (k >= 0 && IsEditor(hash, user) ==> view == Editing(cat, cat.challenges[k], false)) &&
              (k >= 0 && !IsEditor(hash, user) ==> view == Viewing(cat, cat.challenges[k]))
    ensures var ci := CategoryIndex(categories, catId);
            ci >= 0 && IsCreator(chalId, user) ==>
              var parsed := CreatorValue(hash, decodeParse);
              (!Truthy(parsed) ==> view.NotFound?) &&
              (Truthy(parsed) ==>
                 view.Editing? && view.category == categories[ci] && view.isCreator &&
                 fresh(view.challenge) &&
                 view.challenge.fields == (if parsed.Obj? then parsed.fields else map[]))
  {
    var ci := FindCategory(categories, catId);
    if ci < 0 {
      return NotFound;
    }
    var category := categories[ci];
    var k := FindChallenge(category.challenges, chalId);
    if IsCreator(chalId, user) {
      var parsed := CreatorValue(hash, decodeParse);
      if !Truthy(parsed) {
        return NotFound;
      }
      var challenge := new ChallengeObj(if parsed.Obj? then parsed.fields else map[]);
      return Editing(category, challenge, true);
    }
    if k < 0 {
      return NotFound;
    }
    var challenge := category.challenges[k];
    if IsEditor(hash, user) {
      return Editing(category, challenge, false);
    }
    return Viewing(category, challenge);
  }

  // ---------------------------------------------------------------------
  // Saving an edit

  /** How `saveEdit` reads the `flag_metadata` the editor produced. */
  datatype FlagDecoding =
    | FlagOk(flag: Value)
    | FlagRejected          // alert "invalid flag JSON", nothing sent
    | FlagCrash(error: JsError)

  /** An object (or null) is used as it is; anything else goes through
      `JSON.parse` (`parse`, applied to its string form).  When parsing fails
      an empty string, a number or a boolean becomes the flag "", another
      string is rejected, and `undefined` throws on `.length`. */
  function DecodeFlag(fm: Value, parse: string -> Option<Value>): (r: FlagDecoding)
    ensures IsObjectType(fm) ==> r == FlagOk(fm)
    ensures !IsObjectType(fm) && parse(JsString(fm)).Some? ==> r == FlagOk(parse(JsString(fm)).value)
    ensures r.FlagRejected? <==> (fm.Str? && fm.s != "" && parse(fm.s).None?)
    ensures r.FlagCrash? <==> (fm == Undefined && parse("undefined").None?)
    ensures r.FlagCrash? ==> r.error == ReadFailure
    ensures !IsObjectType(fm) && parse(JsString(fm)).None? && !r.FlagRejected? && !r.FlagCrash? ==>
              r == FlagOk(Str(""))
  {
    if IsObjectType(fm) then FlagOk(fm)
    else match parse(JsString(fm))
      case Some(v) => FlagOk(v)
      case None =>
        match fm
        case Undefined => FlagCrash(ReadFailure)
        case Str(s) => if s == "" then FlagOk(Str("")) else FlagRejected
        case _ => FlagOk(Str(""))
  }

  /** The body sent to `createChallenge`/`editChallenge`: the original's
      fields, overridden by the changes, with `id` and `flag_metadata` set
      last. */
  function SaveRequest(original: map<string, Value>, changes: map<string, Value>, id: Value, flag: Value): (r: map<string, Value>)
    ensures r.Keys == original.Keys + changes.Keys + {"id", "flag_metadata"}
    ensures r["id"] == id && r["flag_metadata"] == flag
    ensures forall k :: k in changes && k != "id" && k != "flag_metadata" ==> r[k] == changes[k]
    ensures forall k :: k in original && k !in changes && k != "id" && k != "flag_metadata" ==> r[k] == original[k]
  {
    original + changes + map["id" := id, "flag_metadata" := flag]
  }

  /** Where a saved edit navigates to. */
  function SavedPath(categoryId: Value, id: Value, isCreator: bool): (p: string)
    ensures |p| > 5 && p[|p| - 5..] == "#edit"
    ensures var prefix := "/campaign/" + JsString(categoryId);
            |prefix| <= |p| && p[..|prefix|] == prefix
    ensures !isCreator || !Truthy(id) ==> p == "/campaign/" + JsString(categoryId) + "#edit"
  {
    if Truthy(id) && isCreator then
      "/campaign/" + JsString(categoryId) + "/challenge/" + JsString(id) + "#edit"
    else "/campaign/" + JsString(categoryId) + "#edit"
  }

  /** How a save ends once it has been sent. */
  datatype SaveResult = Saved(navigateTo: string) | Failed(error: JsError)

  datatype SaveOutcome =
    | NotSent(decoding: FlagDecoding)
    | Sent(create: bool, request: map<string, Value>, result: SaveResult)

  /** `for (const i in changes) original[i] = changes[i]`. */
  method CopyChanges(original: ChallengeObj, changes: map<string, Value>)
    modifies original
    ensures original.fields == old(original.fields) + changes
  {
    var pending := changes.Keys;
    var fields := original.fields;
    ghost var base := fields;
    assert Copied(changes, changes.Keys - pending) == map[];
    while pending != {}
      invariant pending <= changes.Keys
      invariant fields == base + Copied(changes, changes.Keys - pending)
      decreases |pending|
    {
      var k :| k in pending;
      CopyOneMore(base, changes, pending, k);
      fields := fields[k := changes[k]];
      pending := pending - {k};
    }
    CopiedAll(changes);
    original.fields := fields;
  }

  /** The entries of `changes` already copied. */
  ghost function Copied(changes: map<string, Value>, done: set<string>): map<string, Value> {
    map k | k in done && k in changes :: changes[k]
  }

  lemma CopiedAll(changes: map<string, Value>)
    ensures Copied(changes, changes.Keys - {}) == changes
  {
  }

  /** Copying one more entry extends the copied part by that entry. */
  lemma CopyOneMore(fields: map<string, Value>, changes: map<string, Value>, pending: set<string>, k: string)
    requires k in pending && pending <= changes.Keys
    ensures (fields + Copied(changes, changes.Keys - pending))[k := changes[k]] ==
            fields + Copied(changes, changes.Keys - (pending - {k}))
  {
    assert changes.Keys - (pending - {k}) == (changes.Keys - pending) + {k};
    assert Copied(changes, changes.Keys - (pending - {k})) == Copied(changes, changes.Keys - pending)[k := changes[k]];
  }

  /** `saveEdit(changes)` of the editor, with `reply` the settled create or
      edit call.  When the call succeeds the changes are written into the
      original challenge, a created challenge is appended to its category,
      and the page navigates; `data.id` is read only when the challenge has
      no id of its own. */
  method SaveEdit(original: ChallengeObj, category: Category, isCreator: bool, changes: map<string, Value>,
                  parse: string -> Option<Value>, reply: Result<Value, JsError>) returns (outcome: SaveOutcome)
    modifies original, category
    ensures var d := DecodeFlag(Get(Obj(changes), "flag_metadata"), parse);
            !d.FlagOk? ==> outcome == NotSent(d) && unchanged(original, category)
    ensures var d := DecodeFlag(Get(Obj(changes), "flag_metadata"), parse);
            d.FlagOk? ==>
              outcome.Sent? && outcome.create == isCreator &&
              outcome.request == SaveRequest(old(original.fields), changes,
                                             if isCreator then category.id else Get(Obj(old(original.fields)), "id"),
                                             d.flag)
    ensures var d := DecodeFlag(Get(Obj(changes), "flag_metadata"), parse);
            d.FlagOk? && reply.Err? ==> outcome.result == Failed(reply.error) && unchanged(original, category)
    ensures var d := DecodeFlag(Get(Obj(changes), "flag_metadata"), parse);
            d.FlagOk? && reply.Ok? ==>
              original.fields == old(original.fields) + changes &&
              category.challenges == old(category.challenges) + (if isCreator then [original] else [])
    ensures var d := DecodeFlag(Get(Obj(changes), "flag_metadata"), parse);
            var ownId := Get(Obj(old(original.fields) + changes), "id");
            d.FlagOk? && reply.Ok? ==>
              (Truthy(ownId) ==> outcome.result == Saved(SavedPath(category.id, ownId, isCreator))) &&
              (!Truthy(ownId) && (reply.value == Null || reply.value == Undefined) ==>
                 outcome.result == Failed(ReadFailure)) &&
              (!Truthy(ownId) && reply.value != Null && reply.value != Undefined ==>
                 outcome.result == Saved(SavedPath(category.id, Get(reply.value, "id"), isCreator)))
  {
    var d := DecodeFlag(Get(Obj(changes), "flag_metadata"), parse);
    if !d.FlagOk? {
      return NotSent(d);
    }
    var id := if isCreator then category.id else Get(Obj(original.fields), "id");
    var request := SaveRequest(original.fields, changes, id, d.flag);
    if reply.Err? {
      return Sent(isCreator, request, Failed(reply.error));
    }
    CopyChanges(original, changes);
    if isCreator {
      category.challenges := category.challenges + [original];
    }
    var ownId := Get(Obj(original.fields), "id");
    var newId: Value;
    if Truthy(ownId) {
      newId := ownId;
    } else {
      match Read(reply.value, "id")
      case Err(e) => return Sent(isCreator, request, Failed(e));
      case Ok(v) => newId := v;
    }
    return Sent(isCreator, request, Saved(SavedPath(category.id, newId, isCreator)));
  }
}

=== FILE: countdown.dfy ===
/** Countdown bookkeeping: the instants the server announces (in seconds),
    moved onto the local clock, and which of them have passed.  Clock reads
    are parameters: `localNow` is the browser's clock and `serverTime` the
    instant `server_timestamp` denotes, both in milliseconds. */
module Countdowns {
  import opened JsValues

  const ServerTimestampKey: string := "server_timestamp"

  /** `offset` is server clock minus local clock; `dates` and `passed` are
      keyed by countdown name. */
  datatype Countdown = Countdown(offset: int, dates: map<string, int>, passed: map<string, bool>)

  /** Which dates lie before `now`. */
  function PassedAt(dates: map<string, int>, now: int): (passed: map<string, bool>)
    ensures passed.Keys == dates.Keys
    ensures forall k :: k in dates ==> (passed[k] <==> dates[k] < now)
  {
    map k | k in dates :: dates[k] - now < 0
  }

  /** For fixed dates a countdown can only go from not passed to passed as
      time moves on. */
  lemma PassedMonotone(dates: map<string, int>, now1: int, now2: int, k: string)
    requires now1 <= now2 && k in dates
    ensures PassedAt(dates, now1)[k] ==> PassedAt(dates, now2)[k]
  {
  }

  /** The `forEach` of `getCountdown`: every key but `server_timestamp`
      gets its date on the local clock and whether it is before the server
      time. */
  method FillDates(data: map<string, int>, serverTime: int, offset: int)
    returns (dates: map<string, int>, passed: map<string, bool>)
    ensures dates.Keys == data.Keys - {ServerTimestampKey}
    ensures forall k :: k in dates ==> dates[k] == data[k] * 1000 - offset
    ensures passed.Keys == dates.Keys
    ensures forall k :: k in passed ==> (passed[k] <==> dates[k] < serverTime)
  {
    dates := map[];
    passed := map[];
    var pending := data.Keys;
    while pending != {}
      invariant pending <= data.Keys
      invariant dates.Keys == (data.Keys - pending) - {ServerTimestampKey}
      invariant forall k :: k in dates ==> dates[k] == data[k] * 1000 - offset
      invariant passed.Keys == dates.Keys
      invariant forall k :: k in passed ==> (passed[k] <==> dates[k] < serverTime)
      decreases |pending|
    {
      var k :| k in pending;
      pending := pending - {k};
      if k != ServerTimestampKey {
        dates := dates[k := data[k] * 1000 - offset];
        passed := passed[k := dates[k] - serverTime < 0];
      }
    }
  }

  /** `getCountdown` once the server answered with `data`. */
  method GetCountdown(data: map<string, int>, serverTime: int, localNow: int) returns (c: Countdown)
    ensures c.offset == serverTime - localNow
    ensures c.dates.Keys == data.Keys - {ServerTimestampKey}
    ensures forall k :: k in c.dates ==> c.dates[k] == data[k] * 1000 - c.offset
    ensures c.passed == PassedAt(c.dates, serverTime)
  {
    var offset := serverTime - localNow;
    var dates, passed := FillDates(data, serverTime, offset);
    c := Countdown(offset, dates, passed);
  }

  /** The loop of `recheckCountdowns`: the new `passed` map, rebuilt from
      empty, and whether any key differs from the stored one. */
  method Recompute(dates: map<string, int>, now: int, storedPassed: map<string, bool>)
    returns (passed: map<string, bool>, changed: bool)
    ensures passed == PassedAt(dates, now)
    ensures changed <==> exists k :: k in dates && (k !in storedPassed || storedPassed[k] != (dates[k] < now))
  {
    passed := map[];
    changed := false;
    var pending := dates.Keys;
    while pending != {}
      invariant pending <= dates.Keys
      invariant passed.Keys == dates.Keys - pending
      invariant forall k :: k in passed ==> (passed[k] <==> dates[k] < now)
      invariant changed <==> exists k :: k in passed && (k !in storedPassed || storedPassed[k] != passed[k])
      decreases |pending|
    {
      var k :| k in pending;
      pending := pending - {k};
      passed := passed[k := dates[k] - now < 0];
      if k !in storedPassed || passed[k] != storedPassed[k] {
        changed := true;
      }
    }
  }

  /** The countdown `recheckCountdowns` computes: the given one, or else the
      stored one, with `passed` taken at the server time `localNow + offset`. */
  function Rechecked(stored: Countdown, given: Option<Countdown>, localNow: int): (c: Countdown)
    ensures var base := if given.Some? then given.value else stored;
            c.offset == base.offset && c.dates == base.dates &&
            c.passed == PassedAt(base.dates, localNow + base.offset)
  {
    var base := if given.Some? then given.value else stored;
    base.(passed := PassedAt(base.dates, localNow - (-base.offset)))
  }

  /** Whether `recheckCountdowns` reports a change: some key's new `passed`
      differs from the one in the store. */
  predicate Changed(newPassed: map<string, bool>, storedPassed: map<string, bool>) {
    exists k :: k in newPassed && (k !in storedPassed || storedPassed[k] != newPassed[k])
  }

  /** Rechecking at the instant the countdown was fetched reproduces it and
      reports no change. */
  lemma RecheckAtFetchUnchanged(data: map<string, int>, serverTime: int, localNow: int, c: Countdown)
    requires c.offset == serverTime - localNow
    requires c.passed == PassedAt(c.dates, serverTime)
    ensures Rechecked(c, None, localNow) == c
    ensures !Changed(Rechecked(c, None, localNow).passed, c.passed)
  {
  }

  /** The countdown slice of the redux store and the challenge refetches
      `recheckCountdowns` triggers. */
  class CountdownStore {
    var countdowns: Option<Countdown>
    var refetches: nat

    constructor ()
      ensures countdowns.None? && refetches == 0
    {
      countdowns := None;
      refetches := 0;
    }

    /** `getCountdown`: a successful fetch replaces the stored countdown; a
        failed one changes nothing. */
    method Fetch(reply: Result<map<string, int>, JsError>, serverTime: int, localNow: int)
      modifies this
      ensures reply.Err? ==> unchanged(this)
      ensures reply.Ok? ==>
                countdowns.Some? && refetches == old(refetches) &&
                countdowns.value.offset == serverTime - localNow &&
                countdowns.value.dates.Keys == reply.value.Keys - {ServerTimestampKey} &&
                countdowns.value.passed == PassedAt(countdowns.value.dates, serverTime)
    {
      if reply.Ok? {
        var c := GetCountdown(reply.value, serverTime, localNow);
        countdowns := Some(c);
      }
    }

    /** `recheckCountdowns(given)`: nothing without a stored countdown; with
        a given countdown the result is returned and the store is left
        alone; otherwise it is stored, and challenges are refetched first
        when anything changed. */
    method Recheck(given: Option<Countdown>, localNow: int) returns (result: Option<Countdown>)
      modifies this
      ensures old(countdowns).None? ==> unchanged(this) && result.None?
      ensures old(countdowns).Some? && given.Some? ==>
                unchanged(this) && result == Some(Rechecked(old(countdowns).value, given, localNow))
      ensures old(countdowns).Some? && given.None? ==>
                var c := Rechecked(old(countdowns).value, given, localNow);
                result.None? && countdowns == Some(c) &&
                refetches == old(refetches) + (if Changed(c.passed, old(countdowns).value.passed) then 1 else 0)
    {
      if countdowns.None? {
        return None;
      }
      var stored := countdowns.value;
      var base := if given.Some? then given.value else stored;
      var now := localNow - (-base.offset);
      var passed, changed := Recompute(base.dates, now, stored.passed);
      var c := base.(passed := passed);
      assert c == Rechecked(stored, given, localNow);
      if given.Some? {
        return Some(c);
      }
      if changed {
        refetches := refetches + 1;
      }
      countdowns := Some(c);
      result := None;
    }
  }
}

=== FILE: editor.dfy ===
/** The challenge editor: the form elements generated from the metadata
    fields that challenge-metadata plugins declare, the metadata save, the
    hint and file forms with their size check, and what creator mode hides.
    Elements are described by what the form shows; the server's answers to
    the create calls are inputs. */
module ChallengeEditor {
  import opened JsValues
  import opened Plugins
  import Catalog

  // ---------------------------------------------------------------------
  // Metadata fields

  /** The `type` of a field, as the generator's `switch` tells them apart;
      any other string is `OtherType`. */
  datatype FieldType =
    | Multiline | Code | Text | Number | Select | LabelType | Hr | Group
    | OtherType(name: string)

  /** The text of a field type. */
  function TypeName(t: FieldType): (name: string) {
    match t
    case Multiline => "multiline"
    case Code => "code"
    case Text => "text"
    case Number => "number"
    case Select => "select"
    case LabelType => "label"
    case Hr => "hr"
    case Group => "group"
    case OtherType(name) => name
  }

  /** The field types the generator's `switch` has a case for, by name. */
  const KnownTypes: map<string, FieldType> := map[
    "multiline" := Multiline, "code" := Code, "text" := Text, "number" := Number,
    "select" := Select, "label" := LabelType, "hr" := Hr, "group" := Group]

  /** The case of the `switch` a field's `type` falls into: `OtherType`
      exactly for the names without a case, which it keeps. */
  function Kind(name: string): (t: FieldType)
    ensures TypeName(t) == name
    ensures t.OtherType? <==> name !in KnownTypes
  {
    if name in KnownTypes then KnownTypes[name] else OtherType(name)
  }

  /** A field a metadata plugin declares: its `type` text, the metadata entry it
      edits, its label, the keys of its options (for a `select`) and its
      children (for a `group`). */
  datatype Field = Field(typeName: string, name: string, caption: string,
                         optionKeys: seq<Value>, children: seq<Field>)

  /** The element a field becomes.  `key` is the React key; an input shows
      its current value (if any), must contain a digit for a `number`
      (the unanchored format `/\d+/`) and be non-empty otherwise (`/.+/`),
      and has five rows and a monospace font where the type asks for it. */
  datatype Element =
    | InputElem(key: string, name: string, caption: string, val: Option<string>,
                needsDigit: bool, rows: Option<nat>, monospace: bool)
    | SelectElem(key: string, name: string, caption: string, initial: nat)
    | LabelElem(key: string, caption: string)
    | Rule(key: string)
    | GroupElem(key: string, caption: string, children: seq<Element>)
    | UnknownElem(key: string, fieldType: string)

  /** The field types shown as a text input. */
  predicate IsInput(t: FieldType) {
    t == Multiline || t == Code || t == Text || t == Number
  }

  const MetadataKey: string := "challenge_metadata"

  /** `challenge.challenge_metadata[name]`, which throws when the challenge
      has no metadata object. */
  function MetadataValue(challenge: Value, name: string): (r: Result<Value, JsError>)
    ensures r.Ok? ==> r.value == Get(Get(challenge, MetadataKey), name)
    ensures r.Err? <==> challenge == Null || challenge == Undefined ||
                        Get(challenge, MetadataKey) == Null || Get(challenge, MetadataKey) == Undefined
  {
    match Read(challenge, MetadataKey)
    case Err(e) => Err(e)
    case Ok(metadata) => Read(metadata, name)
  }

  /** `keys.indexOf(v)`: the first key strictly equal to `v`, or -1. */
  function IndexOfKey(keys: seq<Value>, v: Value): (r: int)
    ensures -1 <= r < |keys|
    ensures r >= 0 ==> StrictEquals(keys[r], v) && forall j :: 0 <= j < r ==> !StrictEquals(keys[j], v)
    ensures r == -1 <==> forall j :: 0 <= j < |keys| ==> !StrictEquals(keys[j], v)
  {
    if keys == [] then -1
    else if StrictEquals(keys[0], v) then 0
    else
      var k := IndexOfKey(keys[1..], v);
      if k == -1 then -1 else k + 1
  }

  /** The option a `select` starts on: the current value's position among
      the option keys, or the first option when it is not among them. */
  function SelectInitial(keys: seq<Value>, v: Value): (r: nat)
    ensures (exists j :: 0 <= j < |keys| && StrictEquals(keys[j], v)) ==>
              r < |keys| && StrictEquals(keys[r], v) && forall j :: 0 <= j < r ==> !StrictEquals(keys[j], v)
    ensures (forall j :: 0 <= j < |keys| ==> !StrictEquals(keys[j], v)) ==> r == 0
  {
    var idx := IndexOfKey(keys, v);
    if idx != -1 then idx else 0
  }

  /** Whether generating the element of a field throws: an input or a
      `select` reads the challenge's metadata, an input also calls
      `toString` on the value, and a group throws when a child does. */
  predicate Throws(f: Field, challenge: Value)
    decreases f
  {
    if IsInput(Kind(f.typeName)) then
      MetadataValue(challenge, f.name).Err? || MetadataValue(challenge, f.name) == Ok(Null)
    else if Kind(f.typeName) == Select then MetadataValue(challenge, f.name).Err?
    else if Kind(f.typeName) == Group then exists i :: 0 <= i < |f.children| && Throws(f.children[i], challenge)
    else false
  }

  /** The element of one field under React key `key`.  A group's children
      are generated afresh, with keys counted from "0". */
  function FieldElement(f: Field, challenge: Value, key: string): (r: Result<Element, JsError>)
    ensures r.Err? ==> r.error == ReadFailure
    ensures r.Ok? ==> r.value.key == key
    decreases f, 1
  {
    var kind := Kind(f.typeName);
    if IsInput(kind) then
      match MetadataValue(challenge, f.name)
      case Err(e) => Err(e)
      case Ok(v) =>
        if v == Null then Err(ReadFailure)
        else
          var shown := if v == Undefined then None else Some(JsString(v));
          var rows := if kind == Multiline || kind == Code then Some(5) else None;
          Ok(InputElem(key, f.name, f.caption, shown, kind == Number, rows, kind == Code))
    else if kind == Select then
      match MetadataValue(challenge, f.name)
      case Err(e) => Err(e)
      case Ok(v) => Ok(SelectElem(key, f.name, f.caption, SelectInitial(f.optionKeys, v)))
    else if kind == LabelType then Ok(LabelElem(key, f.caption))
    else if kind == Hr then Ok(Rule(key))
    else if kind == Group then
      match Elements(f.children, challenge, "", 0)
      case Err(e) => Err(e)
      case Ok(children) => Ok(GroupElem(key, f.caption, children))
    else Ok(UnknownElem(key, f.typeName))
  }

  /** The element each kind of field produces. */
  lemma FieldElementByType(f: Field, challenge: Value, key: string, r: Result<Element, JsError>)
    requires r == FieldElement(f, challenge, key)
    ensures r.Ok? && IsInput(Kind(f.typeName)) ==>
              var v := MetadataValue(challenge, f.name).value;
              r.value.InputElem? && r.value.name == f.name && r.value.caption == f.caption &&
              r.value.val == (if v == Undefined then None else Some(JsString(v))) &&
              (r.value.needsDigit <==> Kind(f.typeName) == Number) &&
              (r.value.rows.Some? <==> Kind(f.typeName) == Multiline || Kind(f.typeName) == Code) &&
              (r.value.rows.Some? ==> r.value.rows.value == 5) &&
              (r.value.monospace <==> Kind(f.typeName) == Code)
    ensures r.Ok? && Kind(f.typeName) == Select ==>
              r.value == SelectElem(key, f.name, f.caption,
                                    SelectInitial(f.optionKeys, MetadataValue(challenge, f.name).value))
    ensures Kind(f.typeName) == LabelType ==> r == Ok(LabelElem(key, f.caption))
    ensures Kind(f.typeName) == Hr ==> r == Ok(Rule(key))
    ensures r.Ok? && Kind(f.typeName) == Group ==>
              r.value.GroupElem? && r.value.caption == f.caption && |r.value.children| == |f.children|
    ensures Kind(f.typeName).OtherType? ==> r == Ok(UnknownElem(key, f.typeName))
  {
  }

  /** The elements of a list of fields, the `i`-th under the key
      `key + (n + i)`: one element per field, in order, unless a field
      throws. */
  function Elements(fields: seq<Field>, challenge: Value, key: string, n: nat): (r: Result<seq<Element>, JsError>)
    ensures r.Err? ==> r.error == ReadFailure
    ensures r.Ok? ==> |r.value| == |fields|
    decreases fields, 0
  {
    if fields == [] then Ok([])
    else
      match FieldElement(fields[0], challenge, key + NatToString(n))
      case Err(e) => Err(e)
      case Ok(first) =>
        match Elements(fields[1..], challenge, key, n + 1)
        case Err(e) => Err(e)
        case Ok(rest) => Ok([first] + rest)
  }

  /** A field's element fails exactly when the field throws. */
  lemma {:induction false} FieldElementThrows(f: Field, challenge: Value, key: string)
    ensures FieldElement(f, challenge, key).Err? <==> Throws(f, challenge)
    decreases f, 1
  {
    if Kind(f.typeName) == Group {
      ElementsThrow(f.children, challenge, "", 0);
    }
  }

  /** The elements of a list of fields fail exactly when one of the fields
      throws. */
  lemma {:induction false} ElementsThrow(fields: seq<Field>, challenge: Value, key: string, n: nat)
    ensures Elements(fields, challenge, key, n).Err? <==> exists i :: 0 <= i < |fields| && Throws(fields[i], challenge)
    decreases fields, 0
  {
    if fields != [] {
      FieldElementThrows(fields[0], challenge, key + NatToString(n));
      ElementsThrow(fields[1..], challenge, key, n + 1);
      assert forall i :: 1 <= i < |fields| ==> fields[i] == fields[1..][i - 1];
    }
  }

  /** The `i`-th element is the `i`-th field's, under the key `key + (n + i)`. */
  lemma ElementsInOrder(fields: seq<Field>, challenge: Value, key: string, n: nat)
    ensures Elements(fields, challenge, key, n).Ok? ==>
              forall i :: 0 <= i < |fields| ==>
                FieldElement(fields[i], challenge, key + NatToString(n + i)) ==
                Ok(Elements(fields, challenge, key, n).value[i])
  {
    if Elements(fields, challenge, key, n).Ok? {
      var es := Elements(fields, challenge, key, n).value;
      forall i | 0 <= i < |fields|
        ensures FieldElement(fields[i], challenge, key + NatToString(n + i)) == Ok(es[i])
      {
        ElementAtIndex(fields, challenge, key, n, i, es, key + NatToString(n + i));
      }
    }
  }

  /** The `i`-th element of a successful `Elements`, whose key is `k`. */
  lemma {:induction false} ElementAtIndex(fields: seq<Field>, challenge: Value, key: string, n: nat, i: nat,
                                          es: seq<Element>, k: string)
    requires i < |fields| && Elements(fields, challenge, key, n) == Ok(es)
    requires k == key + NatToString(n + i)
    ensures FieldElement(fields[i], challenge, k) == Ok(es[i])
    decreases i
  {
    if i == 0 {
      assert n + i == n;
      assert FieldElement(fields[0], challenge, key + NatToString(n)) == Ok(es[0]) by {
        ElementsCons(fields, challenge, key, n, es);
      }
    } else {
      assert Elements(fields[1..], challenge, key, n + 1) == Ok(es[1..]) by {
        ElementsCons(fields, challenge, key, n, es);
      }
      assert n + 1 + (i - 1) == n + i;
      ElementAtIndex(fields[1..], challenge, key, n + 1, i - 1, es[1..], k);
      assert fields[1..][i - 1] == fields[i] && es[1..][i - 1] == es[i];
    }
  }

  /** A successful `Elements` is its first field's element followed by the
      rest's. */
  lemma ElementsCons(fields: seq<Field>, challenge: Value, key: string, n: nat, es: seq<Element>)
    requires fields != [] && Elements(fields, challenge, key, n) == Ok(es)
    ensures FieldElement(fields[0], challenge, key + NatToString(n)) == Ok(es[0])
    ensures Elements(fields[1..], challenge, key, n + 1) == Ok(es[1..])
  {
  }

  /** `r` with `prefix` in front of its elements. */
  function Prepend<E>(prefix: seq<E>, r: Result<seq<E>, JsError>): Result<seq<E>, JsError> {
    match r
    case Err(e) => Err(e)
    case Ok(es) => Ok(prefix + es)
  }

  lemma PrependNothing<E>(r: Result<seq<E>, JsError>)
    ensures Prepend([], r) == r
  {
    if r.Ok? {
      assert [] + r.value == r.value;
    }
  }

  lemma PrependTwice<E>(a: seq<E>, b: seq<E>, r: Result<seq<E>, JsError>)
    ensures Prepend(a, Prepend(b, r)) == Prepend(a + b, r)
  {
    if r.Ok? {
      assert a + (b + r.value) == (a + b) + r.value;
    }
  }

  /** One step of `Elements` over a suffix of the fields. */
  lemma ElementsAt(fields: seq<Field>, i: nat, challenge: Value, key: string, n: nat, head: Result<Element, JsError>)
    requires i < |fields| && head == FieldElement(fields[i], challenge, key + NatToString(n))
    ensures Elements(fields[i..], challenge, key, n) ==
              if head.Err? then Err(head.error)
              else Prepend([head.value], Elements(fields[i + 1..], challenge, key, n + 1))
  {
    assert fields[i..][0] == fields[i] && fields[i..][1..] == fields[i + 1..];
  }

  /** The element of a group holds the elements of its children. */
  lemma GroupElement(f: Field, challenge: Value, key: string, inner: Result<seq<Element>, JsError>)
    requires Kind(f.typeName) == Group && inner == Elements(f.children, challenge, "", 0)
    ensures FieldElement(f, challenge, key) ==
              if inner.Err? then Err(inner.error) else Ok(GroupElem(key, f.caption, inner.value))
  {
  }

  /** `generateFields(fields, key, n)`: push one element per field, counting
      the keys up from `n`. */
  method GenerateFields(fields: seq<Field>, challenge: Value, key: string, n0: nat)
    returns (r: Result<seq<Element>, JsError>)
    ensures r == Elements(fields, challenge, key, n0)
    decreases fields, 0
  {
    var ret: seq<Element> := [];
    var n := n0;
    assert fields[0..] == fields;
    PrependNothing(Elements(fields, challenge, key, n0));
    for i := 0 to |fields|
      invariant n == n0 + i
      invariant Elements(fields, challenge, key, n0) == Prepend(ret, Elements(fields[i..], challenge, key, n))
    {
      var made := GenerateField(fields[i], challenge, key + NatToString(n));
      ElementsAt(fields, i, challenge, key, n, made);
      if made.Err? {
        return Err(made.error);
      }
      PrependTwice(ret, [made.value], Elements(fields[i + 1..], challenge, key, n + 1));
      ret := ret + [made.value];
      n := n + 1;
    }
    assert fields[|fields|..] == [];
    assert ret + [] == ret;
    return Ok(ret);
  }

  /** The `switch` on the field's type, recursing into a group's children. */
  method GenerateField(field: Field, challenge: Value, key: string) returns (r: Result<Element, JsError>)
    ensures r == FieldElement(field, challenge, key)
    decreases field, 1
  {
    if Kind(field.typeName) == Group {
      var children := GenerateFields(field.children, challenge, "", 0);
      GroupElement(field, challenge, key, children);
      if children.Err? {
        return Err(children.error);
      }
      return Ok(GroupElem(key, field.caption, children.value));
    }
    return FieldElement(field, challenge, key);
  }

  // ---------------------------------------------------------------------
  // The metadata form

  /** What the enabled plugins from `ps` onwards contribute, in registration
      order: `gen(p, n)` is plugin `p`'s part when `n` elements come before
      it, and the first part that fails ends the whole. */
  function Gather<F(!new), E>(ps: seq<Plugin<seq<F>>>, challenge: Value, category: Value, n: nat,
                              gen: (Plugin<seq<F>>, nat) -> Result<seq<E>, JsError>): Result<seq<E>, JsError>
    decreases |ps|
  {
    if ps == [] then Ok([])
    else if !Enabled(ps[0], challenge, category) then Gather(ps[1..], challenge, category, n, gen)
    else
      match gen(ps[0], n)
      case Err(e) => Err(e)
      case Ok(es) => Prepend(es, Gather(ps[1..], challenge, category, n + |es|, gen))
  }

  /** A metadata plugin's part of the form: its fields' elements under its
      own key. */
  function PluginElements(challenge: Value): (Plugin<seq<Field>>, nat) -> Result<seq<Element>, JsError> {
    (p: Plugin<seq<Field>>, n: nat) => Elements(p.contributes, challenge, p.key, n)
  }

  /** The elements of the enabled metadata plugins from `ps` onwards, each
      plugin's keys prefixed with its own key and counted on from the
      number of elements before it. */
  function MetadataFrom(ps: seq<Plugin<seq<Field>>>, challenge: Value, category: Value, n: nat)
    : Result<seq<Element>, JsError>
  {
    Gather(ps, challenge, category, n, PluginElements(challenge))
  }

  /** The number of fields the plugins declare at top level. */
  function FieldCount<F>(ps: seq<Plugin<seq<F>>>): nat {
    if ps == [] then 0 else |ps[0].contributes| + FieldCount(ps[1..])
  }

  /** The metadata form: the fields of every plugin whose check passes, in
      registration order. */
  method MetadataFields(ps: seq<Plugin<seq<Field>>>, challenge: Value, category: Value)
    returns (r: Result<seq<Element>, JsError>)
    ensures r == MetadataFrom(ps, challenge, category, 0)
  {
    var fields: seq<Element> := [];
    assert ps[0..] == ps;
    PrependNothing(MetadataFrom(ps, challenge, category, 0));
    for i := 0 to |ps|
      invariant MetadataFrom(ps, challenge, category, 0) ==
                Prepend(fields, MetadataFrom(ps[i..], challenge, category, |fields|))
    {
      var p := ps[i];
      if Enabled(p, challenge, category) {
        var made := GenerateFields(p.contributes, challenge, p.key, |fields|);
        assert made == PluginElements(challenge)(p, |fields|);
        GatherPrepend(ps, i, challenge, category, fields, PluginElements(challenge), made);
        if made.Err? {
          return Err(made.error);
        }
        fields := fields + made.value;
      } else {
        GatherPrepend(ps, i, challenge, category, fields, PluginElements(challenge), PluginElements(challenge)(p, |fields|));
      }
    }
    assert ps[|ps|..] == [];
    assert fields + [] == fields;
    return Ok(fields);
  }

  /** One step of a loop that gathers the parts of the plugins after the
      `done` elements: `made` is the `i`-th plugin's part. */
  lemma GatherPrepend<F(!new), E>(ps: seq<Plugin<seq<F>>>, i: nat, challenge: Value, category: Value, done: seq<E>,
                                  gen: (Plugin<seq<F>>, nat) -> Result<seq<E>, JsError>, made: Result<seq<E>, JsError>)
    requires i < |ps| && made == gen(ps[i], |done|)
    ensures !Enabled(ps[i], challenge, category) ==>
              Prepend(done, Gather(ps[i..], challenge, category, |done|, gen)) ==
              Prepend(done, Gather(ps[i + 1..], challenge, category, |done|, gen))
    ensures Enabled(ps[i], challenge, category) && made.Err? ==>
              Prepend(done, Gather(ps[i..], challenge, category, |done|, gen)) == Err(made.error)
    ensures Enabled(ps[i], challenge, category) && made.Ok? ==>
              Prepend(done, Gather(ps[i..], challenge, category, |done|, gen)) ==
              Prepend(done + made.value, Gather(ps[i + 1..], challenge, category, |done + made.value|, gen))
  {
    GatherAt(ps, i, challenge, category, |done|, gen);
    if made.Ok? {
      PrependTwice(done, made.value, Gather(ps[i + 1..], challenge, category, |done| + |made.value|, gen));
    }
  }

  /** One step of `Gather` over a suffix of the plugins. */
  lemma GatherAt<F(!new), E>(ps: seq<Plugin<seq<F>>>, i: nat, challenge: Value, category: Value, n: nat,
                             gen: (Plugin<seq<F>>, nat) -> Result<seq<E>, JsError>)
    requires i < |ps|
    ensures !Enabled(ps[i], challenge, category) ==>
              Gather(ps[i..], challenge, category, n, gen) == Gather(ps[i + 1..], challenge, category, n, gen)
    ensures Enabled(ps[i], challenge, category) && gen(ps[i], n).Err? ==>
              Gather(ps[i..], challenge, category, n, gen) == Err(gen(ps[i], n).error)
    ensures Enabled(ps[i], challenge, category) && gen(ps[i], n).Ok? ==>
              Gather(ps[i..], challenge, category, n, gen) ==
              Prepend(gen(ps[i], n).value, Gather(ps[i + 1..], challenge, category, n + |gen(ps[i], n).value|, gen))
  {
    assert ps[i..][0] == ps[i] && ps[i..][1..] == ps[i + 1..];
  }

  /** `Gather` at an enabled plugin. */
  lemma GatherCons<F(!new), E>(ps: seq<Plugin<seq<F>>>, challenge: Value, category: Value, n: nat,
                               gen: (Plugin<seq<F>>, nat) -> Result<seq<E>, JsError>)
    requires ps != [] && Enabled(ps[0], challenge, category)
    ensures gen(ps[0], n).Err? ==> Gather(ps, challenge, category, n, gen) == Err(gen(ps[0], n).error)
    ensures gen(ps[0], n).Ok? ==>
              Gather(ps, challenge, category, n, gen) ==
              Prepend(gen(ps[0], n).value, Gather(ps[1..], challenge, category, n + |gen(ps[0], n).value|, gen))
  {
  }

  /** Plugins whose check fails contribute nothing: what is gathered is what
      the enabled plugins alone give. */
  lemma {:induction false} GatherOnlyEnabled<F(!new), E>(ps: seq<Plugin<seq<F>>>, challenge: Value, category: Value,
                                                         n: nat, gen: (Plugin<seq<F>>, nat) -> Result<seq<E>, JsError>)
    ensures Gather(ps, challenge, category, n, gen) ==
            Gather(EnabledPlugins(ps, challenge, category), challenge, category, n, gen)
    decreases |ps|
  {
    if ps != [] {
      if !Enabled(ps[0], challenge, category) {
        GatherOnlyEnabled(ps[1..], challenge, category, n, gen);
        GatherSkip(ps, challenge, category, n, gen);
      } else {
        var head := gen(ps[0], n);
        if head.Ok? {
          GatherOnlyEnabled(ps[1..], challenge, category, n + |head.value|, gen);
        }
        GatherKeep(ps, challenge, category, n, gen, head);
      }
    }
  }

  /** A disabled first plugin is dropped on both sides. */
  lemma GatherSkip<F(!new), E>(ps: seq<Plugin<seq<F>>>, challenge: Value, category: Value, n: nat,
                               gen: (Plugin<seq<F>>, nat) -> Result<seq<E>, JsError>)
    requires ps != [] && !Enabled(ps[0], challenge, category)
    requires Gather(ps[1..], challenge, category, n, gen) ==
             Gather(EnabledPlugins(ps[1..], challenge, category), challenge, category, n, gen)
    ensures Gather(ps, challenge, category, n, gen) ==
            Gather(EnabledPlugins(ps, challenge, category), challenge, category, n, gen)
  {
    EnabledHead(ps, challenge, category);
  }

  /** An enabled first plugin is kept on both sides. */
  lemma GatherKeep<F(!new), E>(ps: seq<Plugin<seq<F>>>, challenge: Value, category: Value, n: nat,
                               gen: (Plugin<seq<F>>, nat) -> Result<seq<E>, JsError>, head: Result<seq<E>, JsError>)
    requires ps != [] && Enabled(ps[0], challenge, category) && head == gen(ps[0], n)
    requires head.Ok? ==>
               Gather(ps[1..], challenge, category, n + |head.value|, gen) ==
               Gather(EnabledPlugins(ps[1..], challenge, category), challenge, category, n + |head.value|, gen)
    ensures Gather(ps, challenge, category, n, gen) ==
            Gather(EnabledPlugins(ps, challenge, category), challenge, category, n, gen)
  {
    EnabledHead(ps, challenge, category);
    GatherSameHead(ps, EnabledPlugins(ps, challenge, category), challenge, category, n, gen, head);
  }

  /** Two plugin lists that start with the same enabled plugin, and whose
      tails gather the same after it, gather the same. */
  lemma GatherSameHead<F(!new), E>(a: seq<Plugin<seq<F>>>, b: seq<Plugin<seq<F>>>, challenge: Value, category: Value,
                                   n: nat, gen: (Plugin<seq<F>>, nat) -> Result<seq<E>, JsError>,
                                   head: Result<seq<E>, JsError>)
    requires a != [] && b != [] && a[0] == b[0] && Enabled(a[0], challenge, category) && head == gen(a[0], n)
    requires head.Ok? ==>
               Gather(a[1..], challenge, category, n + |head.value|, gen) ==
               Gather(b[1..], challenge, category, n + |head.value|, gen)
    ensures Gather(a, challenge, category, n, gen) == Gather(b, challenge, category, n, gen)
  {
    GatherCons(a, challenge, category, n, gen);
    GatherCons(b, challenge, category, n, gen);
  }

  /** The number of top-level fields of the plugins whose check passes. */
  function EnabledFieldCount<F>(ps: seq<Plugin<seq<F>>>, challenge: Value, category: Value): nat {
    if ps == [] then 0
    else (if Enabled(ps[0], challenge, category) then |ps[0].contributes| else 0) +
         EnabledFieldCount(ps[1..], challenge, category)
  }

  /** The count is that of the enabled plugins' fields. */
  lemma {:induction false} EnabledFieldCountIsFieldCount<F(!new)>(ps: seq<Plugin<seq<F>>>, challenge: Value, category: Value)
    ensures EnabledFieldCount(ps, challenge, category) == FieldCount(EnabledPlugins(ps, challenge, category))
    decreases |ps|
  {
    if ps != [] {
      EnabledFieldCountIsFieldCount(ps[1..], challenge, category);
      EnabledHead(ps, challenge, category);
    }
  }

  /** When every plugin's part has one element per declared field, so has
      the whole. */
  lemma {:induction false} GatherLength<F(!new), E>(ps: seq<Plugin<seq<F>>>, challenge: Value, category: Value,
                                                    n: nat, gen: (Plugin<seq<F>>, nat) -> Result<seq<E>, JsError>)
    requires forall p, k :: gen(p, k).Ok? ==> |gen(p, k).value| == |p.contributes|
    ensures Gather(ps, challenge, category, n, gen).Ok? ==>
              |Gather(ps, challenge, category, n, gen).value| == EnabledFieldCount(ps, challenge, category)
    decreases |ps|
  {
    if ps != [] {
      if !Enabled(ps[0], challenge, category) {
        GatherLength(ps[1..], challenge, category, n, gen);
      } else {
        GatherCons(ps, challenge, category, n, gen);
        var head := gen(ps[0], n);
        if head.Ok? {
          GatherLength(ps[1..], challenge, category, n + |head.value|, gen);
        }
      }
    }
  }

  /** Plugins whose check fails contribute nothing: the form is the one the
      enabled plugins alone would give. */
  lemma OnlyEnabledPluginsContribute(ps: seq<Plugin<seq<Field>>>, challenge: Value, category: Value, n: nat)
    ensures MetadataFrom(ps, challenge, category, n) ==
            MetadataFrom(EnabledPlugins(ps, challenge, category), challenge, category, n)
  {
    GatherOnlyEnabled(ps, challenge, category, n, PluginElements(challenge));
  }

  /** A form that renders has one top-level element per field of the
      plugins it draws from. */
  lemma MetadataFromCount(ps: seq<Plugin<seq<Field>>>, challenge: Value, category: Value, n: nat)
    ensures MetadataFrom(ps, challenge, category, n).Ok? ==>
              |MetadataFrom(ps, challenge, category, n).value| == FieldCount(EnabledPlugins(ps, challenge, category))
  {
    var gen := PluginElements(challenge);
    assert forall p, k :: gen(p, k).Ok? ==> |gen(p, k).value| == |p.contributes|;
    GatherLength(ps, challenge, category, n, gen);
    EnabledFieldCountIsFieldCount(ps, challenge, category);
  }

  /** `{...v}` of an object; other values spread no fields. */
  function Spread(v: Value): map<string, Value> {
    if v.Obj? then v.fields else map[]
  }

  /** The metadata form's save: the challenge with its metadata overridden
      by the changes, every other field kept. */
  function MergeEdit(fields: map<string, Value>, changes: map<string, Value>): (r: map<string, Value>)
    ensures r.Keys == fields.Keys + {MetadataKey}
    ensures forall k :: k in fields && k != MetadataKey ==> r[k] == fields[k]
    ensures var before := Spread(Get(Obj(fields), MetadataKey));
            r[MetadataKey].Obj? &&
            r[MetadataKey].fields.Keys == before.Keys + changes.Keys &&
            (forall k :: k in changes ==> r[MetadataKey].fields[k] == changes[k]) &&
            (forall k :: k in before && k !in changes ==> r[MetadataKey].fields[k] == before[k])
  {
    fields[MetadataKey := Obj(Spread(Get(Obj(fields), MetadataKey)) + changes)]
  }

  /** Saving the same metadata changes twice is saving them once. */
  lemma MergeEditIdempotent(fields: map<string, Value>, changes: map<string, Value>)
    ensures MergeEdit(MergeEdit(fields, changes), changes) == MergeEdit(fields, changes)
  {
    var once := MergeEdit(fields, changes);
    var m := Spread(Get(Obj(fields), MetadataKey)) + changes;
    assert Spread(Get(Obj(once), MetadataKey)) == m;
    assert m + changes == m;
  }

  // ---------------------------------------------------------------------
  // Hints and files

  /** What the page alerts: a fixed text, or a prefix followed by the error
      a create call failed with. */
  datatype Notice = Notice(text: string) | Failure(prefix: string, error: JsError)

  /** The create call a form makes, if any. */
  datatype Request =
    | NoRequest
    | HintRequest(challengeId: Value, name: string, cost: string, body: string)
    | FileRequest(challengeId: Value, name: string, url: string, size: string)

  /** The alert of a rejected cost or size; the hint form reuses the file
      form's text. */
  const InvalidSize: string := "Invalid file size!"

  /** The hint form: the cost must contain a digit before `newHint` is
      called. */
  function AddHint(challengeId: Value, name: string, cost: string, body: string,
                   reply: Result<Value, JsError>): (r: (Request, Notice))
    ensures r.0 != NoRequest <==> HasDigit(cost)
    ensures HasDigit(cost) ==> r.0 == HintRequest(challengeId, name, cost, body)
    ensures !HasDigit(cost) ==> r.1 == Notice(InvalidSize)
    ensures HasDigit(cost) && reply.Ok? ==> r.1 == Notice("New hint added!")
    ensures HasDigit(cost) && reply.Err? ==> r.1 == Failure("Error creating new hint:\n", reply.error)
  {
    if !HasDigit(cost) then (NoRequest, Notice(InvalidSize))
    else
      var request := HintRequest(challengeId, name, cost, body);
      match reply
      case Ok(_) => (request, Notice("New hint added!"))
      case Err(e) => (request, Failure("Error creating new hint:\n", e))
  }

  /** `challenge.files.push(id)` on a files value that is not an array. */
  const PushNotAFunction: JsError := JsError(None, None, "TypeError: challenge.files.push is not a function")

  /** The file form: the size must contain a digit before `newFile` is
      called; the new file's id is then appended to the challenge's files.
      A failure of the push itself is reported like a failed call. */
  method AddFile(challenge: Catalog.ChallengeObj, name: string, url: string, size: string,
                 reply: Result<Value, JsError>) returns (request: Request, notice: Notice)
    modifies challenge
    ensures request != NoRequest <==> HasDigit(size)
    ensures !HasDigit(size) ==> notice == Notice(InvalidSize) && unchanged(challenge)
    ensures HasDigit(size) ==> request == FileRequest(Get(Obj(old(challenge.fields)), "id"), name, url, size)
    ensures HasDigit(size) && reply.Err? ==>
              notice == Failure("Error creating new file:\n", reply.error) && unchanged(challenge)
    ensures var files := Get(Obj(old(challenge.fields)), "files");
            HasDigit(size) && reply.Ok? && files.Arr? ==>
              notice == Notice("New file added!") &&
              challenge.fields == old(challenge.fields)["files" := Arr(files.items + [reply.value])]
    ensures var files := Get(Obj(old(challenge.fields)), "files");
            HasDigit(size) && reply.Ok? && !files.Arr? ==>
              notice == Failure("Error creating new file:\n",
                                if files == Null || files == Undefined then ReadFailure else PushNotAFunction) &&
              unchanged(challenge)
  {
    if !HasDigit(size) {
      return NoRequest, Notice(InvalidSize);
    }
    request := FileRequest(Get(Obj(challenge.fields), "id"), name, url, size);
    match reply {
      case Err(e) =>
        notice := Failure("Error creating new file:\n", e);
      case Ok(id) =>
        var files := Get(Obj(challenge.fields), "files");
        if files.Arr? {
          challenge.fields := challenge.fields["files" := Arr(files.items + [id])];
          notice := Notice("New file added!");
        } else if files == Null || files == Undefined {
          notice := Failure("Error creating new file:\n", ReadFailure);
        } else {
          notice := Failure("Error creating new file:\n", PushNotAFunction);
        }
    }
  }

  // ---------------------------------------------------------------------
  // The editor's tabs

  /** What the files and hints tabs hold. */
  datatype TabBody = Blocked(message: string) | FileEditor | HintEditor

  /** The editor's frame: its title, whether it offers removal, the submit
      button's text key, the two list tabs, and the option the challenge
      type select starts on. */
  datatype Layout = Layout(title: string, removeButton: bool, submitKey: string,
                           filesTab: TabBody, hintsTab: TabBody, typeInitial: int)

  /** How JSX shows a value inside text: nothing for null, undefined and
      booleans. */
  function Shown(v: Value): string {
    if v == Null || v == Undefined || v.Bool? then "" else JsString(v)
  }

  /** The editor frame.  A challenge being created cannot be removed and has
      no files or hints yet; the challenge type select starts on the
      challenge's type among the registered types, or on -1 when it is not
      one of them. */
  function EditorLayout(isCreator: bool, challenge: Value, typeKeys: seq<string>): (l: Layout)
    ensures l.removeButton <==> !isCreator
    ensures isCreator ==>
              l.title == "New challenge" && l.submitKey == "editor.create" &&
              l.filesTab == Blocked("Cannot add files to non-existant challenge.") &&
              l.hintsTab == Blocked("Cannot add hints to non-existant challenge.")
    ensures !isCreator ==>
              l.title == "Editing: " + Shown(Get(challenge, "name")) && l.submitKey == "editor.save" &&
              l.filesTab == FileEditor && l.hintsTab == HintEditor
    ensures -1 <= l.typeInitial < |typeKeys|
    ensures l.typeInitial >= 0 ==> StrictEquals(Str(typeKeys[l.typeInitial]), Get(challenge, "challenge_type"))
    ensures l.typeInitial == -1 <==>
              forall j :: 0 <= j < |typeKeys| ==> !StrictEquals(Str(typeKeys[j]), Get(challenge, "challenge_type"))
  {
    var keys := seq(|typeKeys|, j requires 0 <= j < |typeKeys| => Str(typeKeys[j]));
    assert forall j :: 0 <= j < |typeKeys| ==> keys[j] == Str(typeKeys[j]);
    var typeInitial := IndexOfKey(keys, Get(challenge, "challenge_type"));
    if isCreator then
      Layout("New challenge", false, "editor.create",
             Blocked("Cannot add files to non-existant challenge."),
             Blocked("Cannot add hints to non-existant challenge."), typeInitial)
    else
      Layout("Editing: " + Shown(Get(challenge, "name")), true, "editor.save",
             FileEditor, HintEditor, typeInitial)
  }
}

=== FILE: experiments.dfy ===
/** The experiments debug page: the table of experimental features, each a
    preference that is on or off, the form that stores changed choices as
    preferences, and the value each select shows. */
module Experiments {
  import opened JsValues

  /** An experiment: its display name and its options, each a key and the
      text shown for it. */
  datatype Experiment = Experiment(key: string, name: string, options: seq<(bool, string)>)

  /** The experiments, in declaration order. */
  const Table: seq<Experiment> := [
    Experiment("showDev", "Show developer links in navigations", [(true, "Enabled"), (false, "Disabled")]),
    Experiment("accDeletion", "Account deletion", [(true, "Enabled"), (false, "Disabled")]),
    Experiment("accOauth", "OAuth Providers", [(true, "Enabled"), (false, "Disabled")]),
    Experiment("importEntire", "Import Entire CTF", [(true, "Enabled"), (false, "Disabled")]),
    Experiment("advSearch", "Advanced Team/Member Search", [(true, "Enabled"), (false, "Disabled")]),
    Experiment("newCampaign", "Campaign Layout", [(false, "Old Layout"), (true, "New Layout")]),
    Experiment("leaderboardReload", "Live Leaderboard Reload", [(false, "Disabled"), (true, "Enabled")]),
    Experiment("layoutDebug", "Display Layout Debug", [(false, "Disabled"), (true, "Enabled")])
  ]

  /** An experiment is a switch: exactly two options, one keyed `true` and
      one keyed `false`. */
  predicate IsSwitch(e: Experiment) {
    |e.options| == 2 && e.options[0].0 != e.options[1].0
  }

  /** Every experiment in the table is a switch, and no key is listed
      twice. */
  lemma TableIsSwitches()
    ensures forall i :: 0 <= i < |Table| ==> IsSwitch(Table[i])
    ensures forall i, j :: 0 <= i < j < |Table| ==> Table[i].key != Table[j].key
  {
  }

  /** The preference an experiment is stored under. */
  function PrefKey(key: string): (k: string)
    ensures |k| == 11 + |key| && k[11..] == key
  {
    "experiment." + key
  }

  /** `prefs[k]`, `undefined` when absent. */
  function Pref(prefs: map<string, Value>, k: string): (v: Value)
    ensures k !in prefs ==> v == Undefined
    ensures k in prefs ==> v == prefs[k]
  {
    if k in prefs then prefs[k] else Undefined
  }

  /** A `setPreference` action. */
  datatype SetPreference = SetPreference(key: string, value: Value)

  /** A submitted choice differs from the stored preference (`!==`). */
  predicate Differs(prefs: map<string, Value>, change: (string, Value)) {
    !StrictEquals(change.1, Pref(prefs, PrefKey(change.0)))
  }

  /** The keys of an object's entries are distinct. */
  predicate DistinctKeys(changes: seq<(string, Value)>) {
    forall i, j :: 0 <= i < j < |changes| ==> changes[i].0 != changes[j].0
  }

  /** The actions the form dispatches for `changes`, in order. */
  function Dispatches(changes: seq<(string, Value)>, prefs: map<string, Value>): (r: seq<SetPreference>)
    ensures |r| <= |changes|
  {
    if changes == [] then []
    else
      var rest := Dispatches(changes[1..], prefs);
      if Differs(prefs, changes[0]) then [SetPreference(PrefKey(changes[0].0), changes[0].1)] + rest else rest
  }

  /** `onChange`: dispatch `setPreference` for each changed entry whose
      value is not the stored one. */
  method OnChange(changes: seq<(string, Value)>, prefs: map<string, Value>) returns (dispatched: seq<SetPreference>)
    ensures dispatched == Dispatches(changes, prefs)
  {
    dispatched := [];
    assert changes[0..] == changes;
    for i := 0 to |changes|
      invariant Dispatches(changes, prefs) == dispatched + Dispatches(changes[i..], prefs)
    {
      assert changes[i..][0] == changes[i] && changes[i..][1..] == changes[i + 1..];
      if Differs(prefs, changes[i]) {
        dispatched := dispatched + [SetPreference(PrefKey(changes[i].0), changes[i].1)];
      }
    }
    assert changes[|changes|..] == [];
  }

  /** Every dispatched action stores a changed entry under its experiment
      key, and every changed entry is dispatched. */
  lemma {:induction false} DispatchesExactlyChanged(changes: seq<(string, Value)>, prefs: map<string, Value>)
    ensures forall a :: a in Dispatches(changes, prefs) ==>
              exists j :: 0 <= j < |changes| && Differs(prefs, changes[j]) &&
                          a == SetPreference(PrefKey(changes[j].0), changes[j].1)
    ensures forall j :: 0 <= j < |changes| && Differs(prefs, changes[j]) ==>
              SetPreference(PrefKey(changes[j].0), changes[j].1) in Dispatches(changes, prefs)
  {
    if changes != [] {
      DispatchesExactlyChanged(changes[1..], prefs);
      forall a | a in Dispatches(changes, prefs)
        ensures exists j :: 0 <= j < |changes| && Differs(prefs, changes[j]) &&
                            a == SetPreference(PrefKey(changes[j].0), changes[j].1)
      {
        if a !in Dispatches(changes[1..], prefs) {
          assert a == SetPreference(PrefKey(changes[0].0), changes[0].1);
        } else {
          var k :| 0 <= k < |changes[1..]| && Differs(prefs, changes[1..][k]) &&
                   a == SetPreference(PrefKey(changes[1..][k].0), changes[1..][k].1);
          assert changes[1..][k] == changes[k + 1];
        }
      }
      forall j | 0 <= j < |changes| && Differs(prefs, changes[j])
        ensures SetPreference(PrefKey(changes[j].0), changes[j].1) in Dispatches(changes, prefs)
      {
        if j > 0 {
          assert changes[j] == changes[1..][j - 1];
        }
      }
    }
  }

  /** An entry whose value equals the stored preference causes no dispatch
      for its key. */
  lemma UnchangedNotDispatched(changes: seq<(string, Value)>, prefs: map<string, Value>, j: int)
    requires DistinctKeys(changes)
    requires 0 <= j < |changes| && !Differs(prefs, changes[j])
    ensures forall a :: a in Dispatches(changes, prefs) ==> a.key != PrefKey(changes[j].0)
  {
    DispatchesExactlyChanged(changes, prefs);
    forall a | a in Dispatches(changes, prefs)
      ensures a.key != PrefKey(changes[j].0)
    {
      var k :| 0 <= k < |changes| && Differs(prefs, changes[k]) &&
               a == SetPreference(PrefKey(changes[k].0), changes[k].1);
      assert k != j;
    }
  }

  /** The value an experiment's select shows: the stored preference, or
      `false` when none is stored. */
  function Displayed(prefs: map<string, Value>, key: string): (v: Value)
    ensures Pref(prefs, PrefKey(key)) == Undefined ==> v == Bool(false)
    ensures Pref(prefs, PrefKey(key)) != Undefined ==> v == prefs[PrefKey(key)]
  {
    var state := Pref(prefs, PrefKey(key));
    if state == Undefined then Bool(false) else state
  }
}

=== FILE: login.dfy ===
/** The login form: it checks that a username and a password were typed,
    locks itself while the login request runs, and answers a
    "2fa_required" rejection by prompting for a PIN and retrying.  Each
    login request's outcome and the user's answers to the prompt are the
    inputs; messages are translation keys or the error itself. */
module LoginForm {
  import opened JsValues
  import opened Prompt
  import SessionCache

  /** What the form shows under its fields. */
  datatype Message = NoMessage | Key(key: string) | Failure(error: JsError)

  datatype Form = Form(message: Message, locked: bool)

  /** One login request: username, password and the PIN, if any. */
  datatype Attempt = Attempt(username: string, password: string, pin: Option<string>)

  /** The state after `doLogin`, and every login request it made. */
  datatype LoginRun = LoginRun(form: Form, attempts: seq<Attempt>)

  /** `e.response && e.response.data && e.response.data.d.reason ===
      "2fa_required"`; reading `reason` off a body without `d` throws. */
  function TwoFactorRequired(e: JsError): (r: Result<bool, JsError>)
    ensures !SessionCache.HasResponseData(e) ==> r == Ok(false)
    ensures SessionCache.HasResponseData(e) ==>
              var d := Get(e.responseData.value, "d");
              (r.Err? <==> (d == Null || d == Undefined)) &&
              (r.Ok? ==> (r.value <==> Get(d, "reason") == Str("2fa_required")))
  {
    if !SessionCache.HasResponseData(e) then Ok(false)
    else
      match Read(Get(e.responseData.value, "d"), "reason")
      case Err(err) => Err(err)
      case Ok(reason) => Ok(StrictEquals(reason, Str("2fa_required")))
  }

  /** `doLogin` started from `form`.  `replies` are the settled login
      requests in order; an exhausted list means the request is still
      running. */
  function DoLogin(form: Form, username: string, password: string, pin: Option<string>,
                   replies: seq<Result<Value, JsError>>, answers: seq<Answer>): (r: LoginRun)
    ensures username == "" ==> r == LoginRun(form.(message := Key("auth.no_uname")), [])
    ensures username != "" && password == "" ==> r == LoginRun(form.(message := Key("auth.no_pass")), [])
    ensures username != "" && password != "" ==>
              |r.attempts| >= 1 && r.attempts[0] == Attempt(username, password, pin)
    ensures username != "" && password != "" && replies == [] ==> r.form == form.(locked := true)
    ensures forall i :: 0 <= i < |r.attempts| ==>
              r.attempts[i].username == username && r.attempts[i].password == password
    ensures forall i :: 1 <= i < |r.attempts| ==>
              r.attempts[i].pin.Some? && CodeUnits(r.attempts[i].pin.value) == PinLength
    ensures |r.attempts| <= |replies| + 1
    ensures !r.form.locked ==> r.form.message != NoMessage
    decreases |replies|
  {
    if username == "" then LoginRun(form.(message := Key("auth.no_uname")), [])
    else if password == "" then LoginRun(form.(message := Key("auth.no_pass")), [])
    else
      var attempt := Attempt(username, password, pin);
      var locked := form.(locked := true);
      if replies == [] then LoginRun(locked, [attempt])
      else match replies[0]
        case Ok(_) => LoginRun(locked, [attempt])
        case Err(e) =>
          match TwoFactorRequired(e)
          case Err(_) => LoginRun(locked, [attempt])
          case Ok(required) =>
            if !required then LoginRun(Form(Failure(e), false), [attempt])
            else match AwaitPin(answers)
              case Open => LoginRun(locked, [attempt])
              case Cancelled(_) => LoginRun(Form(Key("2fa.canceled"), false), [attempt])
              case Pin(p, rest) =>
                var retry := DoLogin(locked, username, password, Some(p), replies[1..], rest);
                LoginRun(retry.form, [attempt] + retry.attempts)
  }

  /** A successful login leaves the form locked. */
  lemma SuccessStaysLocked(form: Form, username: string, password: string, pin: Option<string>,
                           v: Value, replies: seq<Result<Value, JsError>>, answers: seq<Answer>)
    requires username != "" && password != ""
    ensures DoLogin(form, username, password, pin, [Ok(v)] + replies, answers).form.locked
  {
  }

  /** A rejection that is not about 2FA shows the error and unlocks the form
      after exactly one request. */
  lemma OtherErrorUnlocks(form: Form, username: string, password: string, pin: Option<string>,
                          e: JsError, replies: seq<Result<Value, JsError>>, answers: seq<Answer>)
    requires username != "" && password != ""
    requires TwoFactorRequired(e) == Ok(false)
    ensures DoLogin(form, username, password, pin, [Err(e)] + replies, answers) ==
            LoginRun(Form(Failure(e), false), [Attempt(username, password, pin)])
  {
  }

  /** When 2FA is required, wrong-length PINs are ignored and the first
      six-character PIN is sent with the same username and password. */
  lemma TwoFactorRetry(form: Form, username: string, password: string, e: JsError,
                       replies: seq<Result<Value, JsError>>, bad: seq<Answer>, p: string, rest: seq<Answer>)
    requires username != "" && password != ""
    requires TwoFactorRequired(e) == Ok(true)
    requires forall i :: 0 <= i < |bad| ==> Rejected(bad[i])
    requires CodeUnits(p) == PinLength
    ensures var run := DoLogin(form, username, password, None, [Err(e)] + replies, bad + [Submit(p)] + rest);
            |run.attempts| >= 2 && run.attempts[1] == Attempt(username, password, Some(p))
  {
    var tail := [Submit(p)] + rest;
    var answers := bad + [Submit(p)] + rest;
    assert answers == bad + tail;
    SkipRejected(bad, tail);
    assert tail[0] == Submit(p) && tail[1..] == rest;
    assert AwaitPin(answers) == Pin(p, rest);
    var rs := [Err(e)] + replies;
    assert rs[0] == Err(e) && rs[1..] == replies;
    var retry := DoLogin(form.(locked := true), username, password, Some(p), replies, rest);
    assert DoLogin(form, username, password, None, rs, answers).attempts ==
           [Attempt(username, password, None)] + retry.attempts;
  }

  /** Cancelling the 2FA prompt shows "2fa.canceled" and unlocks the form
      after the one request. */
  lemma CancelUnlocks(form: Form, username: string, password: string, pin: Option<string>, e: JsError,
                      replies: seq<Result<Value, JsError>>, answers: seq<Answer>)
    requires username != "" && password != ""
    requires TwoFactorRequired(e) == Ok(true)
    requires AwaitPin(answers).Cancelled?
    ensures DoLogin(form, username, password, pin, [Err(e)] + replies, answers) ==
            LoginRun(Form(Key("2fa.canceled"), false), [Attempt(username, password, pin)])
  {
    assert ([Err(e)] + replies)[0] == Err(e);
  }

  /** Prompting past a run of rejected answers. */
  lemma {:induction false} SkipRejected(bad: seq<Answer>, rest: seq<Answer>)
    requires forall i :: 0 <= i < |bad| ==> Rejected(bad[i])
    ensures AwaitPin(bad + rest) == AwaitPin(rest)
  {
    if bad != [] {
      var all := bad + rest;
      assert all[0] == bad[0] && all[1..] == bad[1..] + rest;
      assert AwaitPin(all) == AwaitPin(all[1..]);
      SkipRejected(bad[1..], rest);
    } else {
      assert bad + rest == rest;
    }
  }
}

=== FILE: plugins.dfy ===
/** Plugins that declare an optional `check(challenge, category)`: challenge
    mods and challenge-metadata plugins are used only where their check
    passes. */
module Plugins {
  import opened JsValues

  /** A registry entry, in registration order: its key, its optional
      `check` and what it contributes. */
  datatype Plugin<T> = Plugin(key: string, check: Option<(Value, Value) -> bool>, contributes: T)

  /** `!i.check || i.check(challenge, category)` */
  predicate Enabled<T>(p: Plugin<T>, challenge: Value, category: Value) {
    p.check.None? || p.check.value(challenge, category)
  }

  /** The plugins that apply to a challenge, in registration order. */
  function EnabledPlugins<T(!new)>(ps: seq<Plugin<T>>, challenge: Value, category: Value): (r: seq<Plugin<T>>)
    ensures forall p :: p in r <==> p in ps && Enabled(p, challenge, category)
    ensures |r| <= |ps|
    ensures (forall i :: 0 <= i < |ps| ==> Enabled(ps[i], challenge, category)) ==> r == ps
  {
    if ps == [] then []
    else
      var rest := EnabledPlugins(ps[1..], challenge, category);
      if Enabled(ps[0], challenge, category) then [ps[0]] + rest else rest
  }

  /** The first plugin is kept exactly when it is enabled. */
  lemma EnabledHead<T(!new)>(ps: seq<Plugin<T>>, challenge: Value, category: Value)
    requires ps != []
    ensures Enabled(ps[0], challenge, category) ==>
              EnabledPlugins(ps, challenge, category) != [] &&
              EnabledPlugins(ps, challenge, category)[0] == ps[0] &&
              EnabledPlugins(ps, challenge, category)[1..] == EnabledPlugins(ps[1..], challenge, category)
    ensures !Enabled(ps[0], challenge, category) ==>
              EnabledPlugins(ps, challenge, category) == EnabledPlugins(ps[1..], challenge, category)
  {
  }

  /** Selecting from a concatenation selects from each part, so the order of
      registration is kept. */
  lemma {:induction false} EnabledPluginsAppend<T(!new)>(a: seq<Plugin<T>>, b: seq<Plugin<T>>, challenge: Value, category: Value)
    ensures EnabledPlugins(a + b, challenge, category) ==
            EnabledPlugins(a, challenge, category) + EnabledPlugins(b, challenge, category)
  {
    if a != [] {
      assert (a + b)[1..] == a[1..] + b;
      EnabledPluginsAppend(a[1..], b, challenge, category);
    } else {
      assert a + b == b;
    }
  }
}

=== FILE: prompt.dfy ===
/** The one-time-PIN prompt shared by the login form and the 2FA page: it
    asks again until the answer has six characters or the user cancels.
    The user's answers, in order, are the input. */
module Prompt {
  import opened JsValues

  const PinLength: nat := 6

  /** One answer to the prompt. */
  datatype Answer = Cancel | Submit(pin: string)

  /** How the prompting ends: with a six-character PIN, with a cancel, or
      still open when the answers run out.  `rest` holds the answers not
      consumed. */
  datatype PinOutcome = Pin(pin: string, rest: seq<Answer>) | Cancelled(rest: seq<Answer>) | Open

  /** A rejected answer: a PIN whose `length`, in UTF-16 code units, is
      not 6. */
  predicate Rejected(a: Answer) {
    a.Submit? && CodeUnits(a.pin) != PinLength
  }

  /** `faPrompt`, re-prompting on every PIN whose length is not 6. */
  function AwaitPin(answers: seq<Answer>): (r: PinOutcome)
    ensures r.Pin? ==>
              CodeUnits(r.pin) == PinLength && |r.rest| < |answers| &&
              answers[|answers| - |r.rest| - 1] == Submit(r.pin) &&
              r.rest == answers[|answers| - |r.rest|..] &&
              forall j :: 0 <= j < |answers| - |r.rest| - 1 ==> Rejected(answers[j])
    ensures r.Cancelled? ==>
              |r.rest| < |answers| &&
              answers[|answers| - |r.rest| - 1] == Cancel &&
              r.rest == answers[|answers| - |r.rest|..] &&
              forall j :: 0 <= j < |answers| - |r.rest| - 1 ==> Rejected(answers[j])
    ensures r.Open? <==> forall j :: 0 <= j < |answers| ==> Rejected(answers[j])
  {
    if answers == [] then Open
    else match answers[0]
      case Cancel => Cancelled(answers[1..])
      case Submit(pin) =>
        if CodeUnits(pin) != PinLength then AwaitPin(answers[1..]) else Pin(pin, answers[1..])
  }

  /** A PIN of the wrong length is dropped without effect. */
  lemma {:induction false} RejectedAnswerSkipped(a: Answer, answers: seq<Answer>)
    requires Rejected(a)
    ensures AwaitPin([a] + answers) == AwaitPin(answers)
  {
    assert ([a] + answers)[0] == a && ([a] + answers)[1..] == answers;
  }

  /** Five digits and an emoji are six characters but seven code units, so
      the prompt asks again. */
  lemma AstralPinRejected(rest: seq<Answer>)
    ensures Rejected(Submit("12345\U{1F600}"))
    ensures AwaitPin([Submit("12345\U{1F600}")] + rest) == AwaitPin(rest)
  {
    var pin := "12345\U{1F600}";
    assert pin[1..] == "2345\U{1F600}" && pin[1..][1..] == "345\U{1F600}";
    assert CodeUnits(pin) == 7;
    RejectedAnswerSkipped(Submit(pin), rest);
  }
}

=== FILE: routes.dfy ===
/** The route table of the site and the guard every page goes through.  A
    location is its path split into non-empty segments (`/profile/bob` is
    `["profile", "bob"]`, `/` is `[]`); components are named by strings. */
module Routes {
  import opened JsValues
  import SessionCache

  /** A segment of a route pattern: a literal or a `:param`. */
  datatype Segment = Lit(name: string) | Param

  /** What a route leads to. */
  datatype Target =
    | RedirectRoute(to: string)
    | LogoutRoute
    | PageRoute(title: Option<string>, auth: bool, noAuth: bool, component: string)
    | PluginRoute(component: string)

  datatype Route = Route(pattern: seq<Segment>, target: Target)

  /** A character with an ASCII capital letter lowered. */
  function LowerAscii(c: char): (l: char)
    ensures !('A' <= l <= 'Z')
  {
    if 'A' <= c <= 'Z' then (c as int + 32) as char else c
  }

  /** Equal up to the case of ASCII letters, as the router's
      case-insensitive patterns compare. */
  predicate SameIgnoringCase(a: string, b: string) {
    |a| == |b| && forall i :: 0 <= i < |a| ==> LowerAscii(a[i]) == LowerAscii(b[i])
  }

  /** `exact` matching: as many segments as the pattern, each literal equal
      to its segment up to case, a parameter taking any segment. */
  predicate Matches(pattern: seq<Segment>, path: seq<string>)
    ensures Matches(pattern, path) <==>
              |pattern| == |path| &&
              forall i :: 0 <= i < |pattern| && pattern[i].Lit? ==> SameIgnoringCase(pattern[i].name, path[i])
  {
    |pattern| == |path| &&
    (pattern == [] ||
     ((pattern[0].Lit? ==> SameIgnoringCase(pattern[0].name, path[0])) && Matches(pattern[1..], path[1..])))
  }

  /** Two locations whose segments differ only in the case of letters. */
  predicate SamePathIgnoringCase(p: seq<string>, q: seq<string>) {
    |p| == |q| && forall i :: 0 <= i < |p| ==> SameIgnoringCase(p[i], q[i])
  }

  lemma {:induction false} MatchesIgnoresCase(pattern: seq<Segment>, p: seq<string>, q: seq<string>)
    requires SamePathIgnoringCase(p, q)
    ensures Matches(pattern, p) <==> Matches(pattern, q)
  {
    if pattern != [] && |pattern| == |p| {
      assert SamePathIgnoringCase(p[1..], q[1..]) by {
        forall i | 0 <= i < |p[1..]|
          ensures SameIgnoringCase(p[1..][i], q[1..][i])
        {
          assert p[1..][i] == p[i + 1] && q[1..][i] == q[i + 1];
        }
      }
      MatchesIgnoresCase(pattern[1..], p[1..], q[1..]);
      if pattern[0].Lit? {
        assert SameIgnoringCase(p[0], q[0]);
      }
    }
  }

  function Page(title: string, auth: bool, noAuth: bool, component: string): Target {
    PageRoute(Some(title), auth, noAuth, component)
  }

  /** The fixed routes, in the order the `Switch` tries them. */
  const BuiltIn: seq<Route> := [
    Route([], RedirectRoute("/home")),
    Route([Lit("logout")], LogoutRoute),
    Route([Lit("login")], Page("Login", false, true, "Login")),
    Route([Lit("register")], Page("Register", false, true, "SignUp")),
    Route([Lit("register"), Lit("email")], Page("Register", false, true, "EmailMessage")),
    Route([Lit("verify")], Page("Verify", false, true, "EmailVerif")),
    Route([Lit("team"), Lit("join")], Page("Join Team", false, true, "JoinTeam")),
    Route([Lit("team"), Lit("new")], Page("New Team", false, true, "CreateTeam")),
    Route([Lit("home")], Page("Home", false, false, "HomePage")),
    Route([Lit("settings")], Page("Settings", true, false, "SettingsPage")),
    Route([Lit("settings"), Lit("2fa")], Page("Settings", true, false, "TwoFA")),
    Route([Lit("campaign")], Page("Challenges", true, false, "Campaign")),
    Route([Lit("profile")], RedirectRoute("/profile/me")),
    Route([Lit("profile"), Param], PageRoute(None, true, false, "Profile")),
    Route([Lit("users")], Page("Users", false, false, "UsersList")),
    Route([Lit("teams")], Page("Teams", false, false, "TeamsList")),
    Route([Lit("leaderboard")], Page("Leaderboard", false, false, "Leaderboard")),
    Route([Lit("team")], Page("Team", true, false, "TeamPage"))
  ]

  /** The catch-all route at the end of the table. */
  const NotFoundPage: Target := Page("Error", false, false, "NotFound")

  /** The routes contributed by page plugins, after the fixed ones. */
  function PluginRoutes(pages: seq<(seq<Segment>, string)>): (r: seq<Route>)
    ensures |r| == |pages|
    ensures forall i :: 0 <= i < |r| ==> r[i] == Route(pages[i].0, PluginRoute(pages[i].1))
  {
    if pages == [] then [] else [Route(pages[0].0, PluginRoute(pages[0].1))] + PluginRoutes(pages[1..])
  }

  /** The first route that matches, if any. */
  function FirstMatch(routes: seq<Route>, path: seq<string>): (r: Option<nat>)
    ensures r.Some? ==> r.value < |routes| && Matches(routes[r.value].pattern, path)
    ensures forall j :: 0 <= j < |routes| && (r.None? || j < r.value) ==> !Matches(routes[j].pattern, path)
    decreases |routes|
  {
    if routes == [] then None
    else if Matches(routes[0].pattern, path) then Some(0)
    else match FirstMatch(routes[1..], path)
      case None => None
      case Some(k) => Some(k + 1)
  }

  /** The route `FirstMatch` picks among fixed routes followed by plugin
      pages is a matching fixed route or a matching plugin page; when it
      picks none, nothing matches. */
  lemma FirstMatchSplit(fixed: seq<Route>, pages: seq<(seq<Segment>, string)>, path: seq<string>)
    ensures var routes := fixed + PluginRoutes(pages);
            match FirstMatch(routes, path)
            case Some(k) =>
              || (k < |fixed| && routes[k] == fixed[k])
              || (|fixed| <= k && routes[k] == Route(pages[k - |fixed|].0, PluginRoute(pages[k - |fixed|].1)))
            case None =>
              && (forall j :: 0 <= j < |fixed| ==> !Matches(fixed[j].pattern, path))
              && (forall i :: 0 <= i < |pages| ==> !Matches(pages[i].0, path))
  {
    var routes := fixed + PluginRoutes(pages);
    if FirstMatch(routes, path).None? {
      assert forall j :: 0 <= j < |fixed| ==> routes[j] == fixed[j];
      assert forall i :: 0 <= i < |pages| ==> routes[|fixed| + i].pattern == pages[i].0;
    }
  }

  /** The target the `Switch` renders for a location. */
  function Dispatch(pages: seq<(seq<Segment>, string)>, path: seq<string>): (t: Target)
    ensures || (exists k :: 0 <= k < |BuiltIn| && Matches(BuiltIn[k].pattern, path) && t == BuiltIn[k].target)
            || (exists i :: 0 <= i < |pages| && Matches(pages[i].0, path) && t == PluginRoute(pages[i].1))
            || (&& t == NotFoundPage
                && (forall k :: 0 <= k < |BuiltIn| ==> !Matches(BuiltIn[k].pattern, path))
                && (forall i :: 0 <= i < |pages| ==> !Matches(pages[i].0, path)))
  {
    var routes := BuiltIn + PluginRoutes(pages);
    FirstMatchSplit(BuiltIn, pages, path);
    match FirstMatch(routes, path)
    case None => NotFoundPage
    case Some(k) => routes[k].target
  }

  /** A location that no fixed route and no plugin page matches renders
      the not-found page. */
  lemma UnmatchedIsNotFound(pages: seq<(seq<Segment>, string)>, path: seq<string>)
    requires forall i :: 0 <= i < |BuiltIn| ==> !Matches(BuiltIn[i].pattern, path)
    requires forall i :: 0 <= i < |pages| ==> !Matches(pages[i].0, path)
    ensures Dispatch(pages, path) == NotFoundPage
  {
  }

  /** Plugin pages come after the fixed routes, so they cannot take over a
      location a fixed route serves. */
  lemma BuiltInWins(pages: seq<(seq<Segment>, string)>, path: seq<string>, i: nat)
    requires i < |BuiltIn| && Matches(BuiltIn[i].pattern, path)
    ensures !Dispatch(pages, path).PluginRoute?
  {
    var routes := BuiltIn + PluginRoutes(pages);
    assert routes[i] == BuiltIn[i];
    var k := FirstMatch(routes, path);
    assert k.Some? && k.value <= i;
    assert routes[k.value] == BuiltIn[k.value];
    assert !BuiltIn[k.value].target.PluginRoute?;
  }

  /** A location whose first matching fixed route is the `k`-th is served
      by that route, whatever the plugins add. */
  lemma DispatchFixed(pages: seq<(seq<Segment>, string)>, path: seq<string>, k: nat)
    requires k < |BuiltIn| && Matches(BuiltIn[k].pattern, path)
    requires forall j :: 0 <= j < k ==> !Matches(BuiltIn[j].pattern, path)
    ensures Dispatch(pages, path) == BuiltIn[k].target
  {
    var routes := BuiltIn + PluginRoutes(pages);
    assert routes[k] == BuiltIn[k];
    var r := FirstMatch(routes, path);
    assert r.Some? && r.value <= k;
    assert routes[r.value] == BuiltIn[r.value];
  }

  /** Of the fixed routes, the one at index 12, the `/profile` redirect,
      is the first to serve `/profile`. */
  lemma ProfileAtIndex12()
    ensures Matches(BuiltIn[12].pattern, ["profile"])
    ensures forall j :: 0 <= j < 12 ==> !Matches(BuiltIn[j].pattern, ["profile"])
  {
    forall j | 0 <= j < 12
      ensures !Matches(BuiltIn[j].pattern, ["profile"])
    {
      OneSegment(BuiltIn[j].pattern, "profile");
    }
  }

  /** A one-segment path is matched by a lone literal equal to it up to
      case and by a lone parameter, and by nothing else. */
  lemma OneSegment(pattern: seq<Segment>, s: string)
    ensures Matches(pattern, [s]) <==>
              pattern == [Param] || (|pattern| == 1 && pattern[0].Lit? && SameIgnoringCase(pattern[0].name, s))
  {
    if |pattern| == 1 {
      assert pattern == [pattern[0]];
    }
  }

  /** `/` redirects home and `/profile` to the signed-in user's profile. */
  lemma FixedRedirects(pages: seq<(seq<Segment>, string)>)
    ensures Dispatch(pages, []) == RedirectRoute("/home")
    ensures Dispatch(pages, ["profile"]) == RedirectRoute("/profile/me")
  {
    DispatchFixed(pages, [], 0);
    ProfileAtIndex12();
    DispatchFixed(pages, ["profile"], 12);
  }

  // ---------------------------------------------------------------------
  // `Page`

  /** What a page route shows. */
  datatype Outcome = Redirect(to: string) | Render(component: string)

  /** `Page`: an `auth` page sends a visitor to log in, a `noAuth` page
      sends a signed-in user home, the `auth` check coming first; otherwise
      the component renders. */
  function Guard(auth: bool, noAuth: bool, authenticated: bool, component: string): (o: Outcome)
    ensures auth && !authenticated ==> o == Redirect("/login")
    ensures !(auth && !authenticated) && noAuth && authenticated ==> o == Redirect("/home")
    ensures o.Render? <==> (!(auth && !authenticated) && !(noAuth && authenticated))
    ensures o.Render? ==> o.component == component
  {
    if auth && !authenticated then Redirect("/login")
    else if noAuth && authenticated then Redirect("/home")
    else Render(component)
  }

  /** `document.title` after a page renders: unchanged for a `null` title,
      otherwise the title, or "RACTF" for an empty one. */
  function DocumentTitle(current: string, title: Option<string>): (t: string)
    ensures title.None? ==> t == current
    ensures title.Some? && title.value != "" ==> t == title.value
    ensures title.Some? && title.value == "" ==> t == "RACTF"
  {
    match title
    case None => current
    case Some(s) => if s == "" then "RACTF" else s
  }

  /** Every page the table marks `auth` sends a visitor to `/login`. */
  lemma AuthPagesNeedLogin(pages: seq<(seq<Segment>, string)>, path: seq<string>)
    requires Dispatch(pages, path).PageRoute? && Dispatch(pages, path).auth
    ensures var p := Dispatch(pages, path);
            Guard(p.auth, p.noAuth, false, p.component) == Redirect("/login")
  {
  }

  /** The fixed route at index 9 is the first to serve `/settings`. */
  lemma SettingsAtIndex9()
    ensures Matches(BuiltIn[9].pattern, ["settings"])
    ensures forall j :: 0 <= j < 9 ==> !Matches(BuiltIn[j].pattern, ["settings"])
  {
    forall j | 0 <= j < 9
      ensures !Matches(BuiltIn[j].pattern, ["settings"])
    {
      OneSegment(BuiltIn[j].pattern, "settings");
      if j == 3 {
        assert LowerAscii("register"[0]) != LowerAscii("settings"[0]);
      }
    }
  }

  /** The settings page is not shown to a visitor. */
  lemma SettingsNeedLogin(pages: seq<(seq<Segment>, string)>)
    ensures var p := Dispatch(pages, ["settings"]);
            p.PageRoute? && Guard(p.auth, p.noAuth, false, p.component) == Redirect("/login")
  {
    SettingsAtIndex9();
    DispatchFixed(pages, ["settings"], 9);
  }

  /** The `Switch` sends two locations that differ only in the case of
      letters to the same target. */
  lemma {:induction false} FirstMatchIgnoresCase(routes: seq<Route>, p: seq<string>, q: seq<string>)
    requires SamePathIgnoringCase(p, q)
    ensures FirstMatch(routes, p) == FirstMatch(routes, q)
    decreases |routes|
  {
    if routes != [] {
      MatchesIgnoresCase(routes[0].pattern, p, q);
      FirstMatchIgnoresCase(routes[1..], p, q);
    }
  }

  lemma DispatchIgnoresCase(pages: seq<(seq<Segment>, string)>, p: seq<string>, q: seq<string>)
    requires SamePathIgnoringCase(p, q)
    ensures Dispatch(pages, p) == Dispatch(pages, q)
  {
    FirstMatchIgnoresCase(BuiltIn + PluginRoutes(pages), p, q);
  }

  /** `SETTINGS` folds to `settings`. */
  lemma SettingsFolds()
    ensures SamePathIgnoringCase(["SETTINGS"], ["settings"])
  {
    assert SameIgnoringCase("SETTINGS", "settings") by {
      forall i | 0 <= i < 8
        ensures LowerAscii("SETTINGS"[i]) == LowerAscii("settings"[i])
      {
      }
    }
  }

  /** `/SETTINGS` is the settings page too. */
  lemma SettingsAnyCase(pages: seq<(seq<Segment>, string)>)
    ensures Dispatch(pages, ["SETTINGS"]) == Page("Settings", true, false, "SettingsPage")
  {
    SettingsFolds();
    DispatchIgnoresCase(pages, ["SETTINGS"], ["settings"]);
    SettingsAtIndex9();
    DispatchFixed(pages, ["settings"], 9);
  }

  /** `Logout`: sign out, then redirect home. */
  method Logout(api: SessionCache.Api) returns (to: string)
    modifies api
    ensures api.State() == SessionCache.LogoutSpec(old(api.State()))
    ensures to == "/home"
  {
    api.Logout();
    to := "/home";
  }
}

=== FILE: runcode.dfy ===
/** The redux actions of the code-challenge runner: starting a run, a run
    that failed and an aborted run all set the runner's state.  The start
    time is the clock reading `now`, in milliseconds. */
module RunCode {
  import opened JsValues

  const SetCodeRun: string := "SET_CODE_RUN"

  /** An action: its type and its payload's fields. */
  datatype Action = Action(kind: string, payload: map<string, Value>)

  /** Whether the action leaves the runner running. */
  predicate Running(a: Action) {
    "running" in a.payload && a.payload["running"] == Bool(true)
  }

  /** `codeRunStart(name)`: a running run of `name` started at `now`. */
  function CodeRunStart(name: Value, now: int): (a: Action)
    ensures a.kind == SetCodeRun && Running(a)
    ensures a.payload.Keys == {"name", "running", "start"}
    ensures a.payload["name"] == name && a.payload["start"] == Num(now)
  {
    Action(SetCodeRun, map["name" := name, "running" := Bool(true), "start" := Num(now)])
  }

  /** `codeRunError(error)`: the run stopped with `error`. */
  function CodeRunError(error: Value): (a: Action)
    ensures a.kind == SetCodeRun && !Running(a)
    ensures a.payload.Keys == {"error", "running"}
    ensures a.payload["error"] == error && a.payload["running"] == Bool(false)
  {
    Action(SetCodeRun, map["error" := error, "running" := Bool(false)])
  }

  /** `codeRunAbort(error)`: the run stopped; the argument is not used. */
  function CodeRunAbort(error: Value): (a: Action)
    ensures a.kind == SetCodeRun && !Running(a)
    ensures a.payload == map["running" := Bool(false)]
  {
    Action(SetCodeRun, map["running" := Bool(false)])
  }

  /** Aborting carries no error, whatever it is given, while a failed run
      always carries its error. */
  lemma AbortForgetsError(e1: Value, e2: Value)
    ensures CodeRunAbort(e1) == CodeRunAbort(e2)
    ensures "error" !in CodeRunAbort(e1).payload
    ensures e1 != e2 ==> CodeRunError(e1) != CodeRunError(e2)
  {
    assert CodeRunError(e1).payload["error"] == e1;
  }
}

=== FILE: settings.dfy ===
/** The settings page: the username and password forms with their checks,
    the unimplemented team form, who owns the team, and which controls each
    team member row offers.  Each form's error is the JavaScript value it
    holds: "" at first, `null` after a success, a message otherwise. */
module Settings {
  import opened JsValues
  import SessionCache

  /** The first problem with a password change, checked in order. */
  function PasswordProblem(current: string, new1: string, new2: string): (p: Option<string>)
    ensures current == "" ==> p == Some("Current password required")
    ensures current != "" && (new1 == "" || new2 == "") ==> p == Some("New password required")
    ensures current != "" && new1 != "" && new2 != "" && new1 != new2 ==> p == Some("Passwords must match")
    ensures p.None? <==> (current != "" && new1 != "" && new1 == new2)
  {
    if current == "" then Some("Current password required")
    else if new1 == "" || new2 == "" then Some("New password required")
    else if new1 != new2 then Some("Passwords must match")
    else None
  }

  /** The form error a settled `modifyUser` call leaves: `null` on success,
      the rejection's string form otherwise. */
  function ModifyResult(reply: Result<(), Value>): (v: Value)
    ensures reply.Ok? ==> v == Null
    ensures reply.Err? ==> v == Str(JsString(reply.error))
  {
    match reply
    case Ok(_) => Null
    case Err(e) => Str(JsString(e))
  }

  /** `2fa_status !== "on"`: the warning that 2FA is off, shown too when
      the user has no `2fa_status` at all. */
  predicate TwoFactorWarning(user: Value)
    ensures TwoFactorWarning(user) <==>
              !(user.Obj? && "2fa_status" in user.fields && user.fields["2fa_status"] == Str("on"))
  {
    !StrictEquals(Get(user, "2fa_status"), Str("on"))
  }

  /** `api.team ? api.team.owner.id === api.user.id : null`; `None` is the
      `null` of a user without a team. */
  function TeamOwner(team: Value, user: Value): (r: Result<Option<bool>, JsError>)
    ensures !Truthy(team) ==> r == Ok(None)
    ensures Truthy(team) ==>
              (r.Err? <==> (Get(team, "owner") == Null || Get(team, "owner") == Undefined ||
                            user == Null || user == Undefined))
    ensures Truthy(team) && Get(team, "owner") != Null && Get(team, "owner") != Undefined &&
            user != Null && user != Undefined ==>
              r == Ok(Some(StrictEquals(Get(Get(team, "owner"), "id"), Get(user, "id"))))
    ensures r.Err? ==> r.error == ReadFailure
  {
    if !Truthy(team) then Ok(None)
    else
      match Read(Get(team, "owner"), "id")
      case Err(e) => Err(e)
      case Ok(ownerId) =>
        match Read(user, "id")
        case Err(e) => Err(e)
        case Ok(userId) => Ok(Some(StrictEquals(ownerId, userId)))
  }

  /** The controls of one member row: the captain's hat is clickable for
      the team owner, and the kick hammer is shown to the owner next to
      every member but the captain. */
  datatype MemberRow = MemberRow(name: Value, captain: bool, hatClickable: bool, kick: bool)

  /** `team.members.map(...)`: one row per member, in order. */
  function MemberRows(members: seq<Value>, ownerId: Value, isOwner: bool): (rows: seq<MemberRow>)
    ensures |rows| == |members|
    ensures forall i :: 0 <= i < |rows| ==>
              rows[i].name == Get(members[i], "name") &&
              (rows[i].captain <==> StrictEquals(Get(members[i], "id"), ownerId)) &&
              rows[i].hatClickable == isOwner &&
              (rows[i].kick <==> isOwner && !rows[i].captain)
  {
    if members == [] then []
    else
      var captain := StrictEquals(Get(members[0], "id"), ownerId);
      var rest := MemberRows(members[1..], ownerId, isOwner);
      assert forall i :: 1 <= i < |members| ==> members[1..][i - 1] == members[i];
      [MemberRow(Get(members[0], "name"), captain, isOwner, isOwner && !captain)] + rest
  }

  /** The captain can never be kicked, and nobody but the owner can kick. */
  lemma NoKickForCaptainOrNonOwner(members: seq<Value>, ownerId: Value, isOwner: bool, i: int)
    requires 0 <= i < |members|
    requires !isOwner || StrictEquals(Get(members[i], "id"), ownerId)
    ensures !MemberRows(members, ownerId, isOwner)[i].kick
  {
  }

  class SettingsForms {
    var unError: Value
    var pwError: Value
    var teamError: Value

    constructor ()
      ensures unError == Str("") && pwError == Str("") && teamError == Str("")
    {
      unError := Str("");
      pwError := Str("");
      teamError := Str("");
    }

    /** `changePassword`: the checks, then `modifyUser` with the old and the
        new password. Returns the changes sent, if any. */
    method ChangePassword(current: string, new1: string, new2: string, reply: Result<(), Value>)
      returns (sent: Option<map<string, Value>>)
      modifies this`pwError
      ensures sent.Some? <==> PasswordProblem(current, new1, new2).None?
      ensures sent.Some? ==> sent.value == map["oPass" := Str(current), "nPass" := Str(new1)]
      ensures PasswordProblem(current, new1, new2).Some? ==> pwError == Str(PasswordProblem(current, new1, new2).value)
      ensures PasswordProblem(current, new1, new2).None? ==> pwError == ModifyResult(reply)
    {
      match PasswordProblem(current, new1, new2)
      case Some(problem) =>
        pwError := Str(problem);
        sent := None;
      case None =>
        sent := Some(map["oPass" := Str(current), "nPass" := Str(new1)]);
        pwError := ModifyResult(reply);
    }

    /** `changeUsername`: a name is required before `modifyUser` is called. */
    method ChangeUsername(name: string, reply: Result<(), Value>) returns (sent: Option<map<string, Value>>)
      modifies this`unError
      ensures name == "" ==> sent.None? && unError == Str("Username required")
      ensures name != "" ==> sent == Some(map["name" := Str(name)]) && unError == ModifyResult(reply)
    {
      if name == "" {
        unError := Str("Username required");
        return None;
      }
      sent := Some(map["name" := Str(name)]);
      unError := ModifyResult(reply);
    }

    /** `alterTeam` is not implemented. */
    method AlterTeam(name: string, desc: string, pass: string)
      modifies this`teamError
      ensures teamError == Str("Not implemented!")
    {
      teamError := Str("Not implemented!");
    }
  }

  /** With the session controller's `modifyUser`, which always rejects, a
      well-formed password change ends with the error "Nope.". */
  lemma PasswordChangeRejectedByStub(current: string, new1: string, changes: map<string, Value>)
    requires current != "" && new1 != ""
    ensures PasswordProblem(current, new1, new1).None?
    ensures ModifyResult(SessionCache.ModifyUser(changes)) == Str("Nope.")
  {
  }
}

=== FILE: sitenav.dfy ===
/** The site navigation: the sidebar's menus, built one after another from
    the signed-in user, the categories, the site configuration and the
    admin-page plugins, and the header bar's challenges link.  Captions are
    translation keys or values shown as they are. */
module SiteNav {
  import opened JsValues

  /** What an entry shows: a translation key, a fixed text followed by a
      translation key, or a value as it is. */
  datatype Caption = Key(key: string) | PrefixedKey(prefix: string, key: string) | Shown(v: Value)

  /** A link in a submenu. */
  datatype Link = Link(caption: Caption, to: Value)

  /** A sidebar menu: a named submenu whose entries may be empty (`null`),
      or a single named link. */
  datatype MenuItem =
    | Menu(name: Caption, submenu: seq<Option<Link>>, startOpen: bool)
    | Direct(name: Caption, link: Value)

  /** A category as the navigation lists it. */
  datatype CategoryLink = CategoryLink(name: Value, url: Value)

  /** An `adminPage` plugin: its key and its sidebar caption. */
  datatype AdminPage = AdminPage(key: string, sidebar: Value)

  /** The brand menu, always first; the teams entry is empty when teams are
      disabled. */
  function BrandMenu(hasTeams: bool): (m: MenuItem)
    ensures m.Menu? && m.startOpen && |m.submenu| == 4
    ensures m.submenu[2].None? <==> !hasTeams
  {
    Menu(Key("sidebar.brand"),
         [Some(Link(Key("sidebar.home"), Str("/"))),
          Some(Link(Key("user_plural"), Str("/users"))),
          if hasTeams then Some(Link(Key("team_plural"), Str("/teams"))) else None,
          Some(Link(Key("leaderboard"), Str("/leaderboard")))],
         true)
  }

  /** The signed-in user's menu, named after the user. */
  function UserMenu(user: Value, hasTeams: bool): (m: MenuItem)
    ensures m.Menu? && !m.startOpen && m.name == Shown(Get(user, "username")) && |m.submenu| == 4
    ensures m.submenu[1].None? <==> !hasTeams
  {
    Menu(Shown(Get(user, "username")),
         [Some(Link(Key("sidebar.profile"), Str("/profile/me"))),
          if hasTeams then Some(Link(Key("team"), Str("/team/me"))) else None,
          Some(Link(Key("setting_plural"), Str("/settings"))),
          Some(Link(Key("sidebar.logout"), Str("/logout")))],
         false)
  }

  /** The entry that adds a category: "+ " and the translated caption. */
  const NewCategoryLink: Link := Link(PrefixedKey("+ ", "challenge.new_cat"), Str("/campaign/new"))

  predicate IsStaff(user: Value) {
    Truthy(user) && Truthy(Get(user, "is_staff"))
  }

  /** A signed-in user gets a challenges section when they are staff or
      there is a category to list. */
  predicate HasChallenges(user: Value, categories: seq<CategoryLink>) {
    Truthy(user) && (IsStaff(user) || |categories| > 0)
  }

  /** A visitor gets a login menu when logging in or registering is open. */
  predicate HasLoginMenu(user: Value, login: bool, registration: bool) {
    !Truthy(user) && (login || registration)
  }

  /** `SideBarNav_`'s menu.  The brand menu comes first; a signed-in user
      then gets the challenges section (a submenu of the categories, with
      the new-category entry last for staff, or for a non-staff user with a
      single category a direct link to it) and their own menu; a visitor
      gets the login menu, login before register; staff get the admin menu
      last, one entry per admin page. */
  method BuildSidebar(user: Value, categories: seq<CategoryLink>, hasTeams: bool, login: bool,
                      registration: bool, adminPages: seq<AdminPage>) returns (menu: seq<MenuItem>)
    ensures |menu| == 1 + (if HasChallenges(user, categories) then 1 else 0) +
                      (if Truthy(user) || HasLoginMenu(user, login, registration) then 1 else 0) +
                      (if IsStaff(user) then 1 else 0)
    ensures menu[0] == BrandMenu(hasTeams)
    ensures HasChallenges(user, categories) && (IsStaff(user) || |categories| != 1) ==>
              menu[1].Menu? && menu[1].name == Key("challenge_plural") && menu[1].startOpen &&
              |menu[1].submenu| == |categories| + (if IsStaff(user) then 1 else 0) &&
              (forall i :: 0 <= i < |categories| ==>
                 menu[1].submenu[i] == Some(Link(Shown(categories[i].name), categories[i].url))) &&
              (IsStaff(user) ==> menu[1].submenu[|categories|] == Some(NewCategoryLink))
    ensures HasChallenges(user, categories) && !IsStaff(user) && |categories| == 1 ==>
              menu[1] == Direct(Key("challenge_plural"), categories[0].url)
    ensures Truthy(user) ==>
              menu[if HasChallenges(user, categories) then 2 else 1] == UserMenu(user, hasTeams)
    ensures HasLoginMenu(user, login, registration) ==>
              menu[1] == Menu(Key("login"),
                              (if login then [Some(Link(Key("login"), Str("/login")))] else []) +
                              (if registration then [Some(Link(Key("register"), Str("/register")))] else []),
                              true)
    ensures IsStaff(user) ==>
              var admin := menu[|menu| - 1];
              admin.Menu? && admin.name == Key("sidebar.admin") && |admin.submenu| == |adminPages| &&
              forall i :: 0 <= i < |adminPages| ==>
                admin.submenu[i] == Some(Link(Shown(adminPages[i].sidebar), Str("/admin/" + adminPages[i].key)))
  {
    menu := [BrandMenu(hasTeams)];
    var staff := IsStaff(user);
    if Truthy(user) {
      if staff || |categories| > 0 {
        var submenu: seq<Option<Link>> := [];
        for i := 0 to |categories|
          invariant |submenu| == i
          invariant forall j :: 0 <= j < i ==> submenu[j] == Some(Link(Shown(categories[j].name), categories[j].url))
        {
          submenu := submenu + [Some(Link(Shown(categories[i].name), categories[i].url))];
        }
        if staff {
          submenu := submenu + [Some(NewCategoryLink)];
        }
        if staff || |submenu| != 1 {
          menu := menu + [Menu(Key("challenge_plural"), submenu, true)];
        } else {
          menu := menu + [Direct(Key("challenge_plural"), categories[0].url)];
        }
      }
      menu := menu + [UserMenu(user, hasTeams)];
    } else if login || registration {
      var submenu: seq<Option<Link>> := [];
      if login {
        submenu := submenu + [Some(Link(Key("login"), Str("/login")))];
      }
      if registration {
        submenu := submenu + [Some(Link(Key("register"), Str("/register")))];
      }
      menu := menu + [Menu(Key("login"), submenu, true)];
    }
    if staff {
      var entries: seq<Option<Link>> := [];
      for i := 0 to |adminPages|
        invariant |entries| == i
        invariant forall j :: 0 <= j < i ==>
                    entries[j] == Some(Link(Shown(adminPages[j].sidebar), Str("/admin/" + adminPages[j].key)))
      {
        entries := entries + [Some(Link(Shown(adminPages[i].sidebar), Str("/admin/" + adminPages[i].key)))];
      }
      menu := menu + [Menu(Key("sidebar.admin"), entries, false)];
    }
  }

  /** The header bar's challenges link: straight to the only category, or
      to the campaign page when there are none or several. */
  function HeaderChallengesLink(categories: seq<CategoryLink>): (to: Value)
    ensures |categories| == 1 ==> to == categories[0].url
    ensures |categories| != 1 ==> to == Str("/campaign")
  {
    if |categories| == 1 then categories[0].url else Str("/campaign")
  }
}

=== FILE: twofa.dfy ===
/** The page that turns on two-factor authentication: it asks the server for
    a TOTP secret, shows it as an `otpauth://` URI (the Key URI format of
    TOTP authenticators, RFC 6238) and in groups of four, and verifies a PIN
    before reloading the session.  Messages are translation keys. */
module TwoFactor {
  import opened JsValues
  import opened Prompt
  import SessionCache

  // ---------------------------------------------------------------------
  // `formatSecret`

  /** `sec.substring(0, 4) + " " + ... + sec.substring(12, 16)`. */
  function FormatSecret(sec: string): (r: string)
    ensures |r| <= 19
  {
    Substring(sec, 0, 4) + " " + Substring(sec, 4, 8) + " " +
    Substring(sec, 8, 12) + " " + Substring(sec, 12, 16)
  }

  /** A secret of at least 16 characters is shown as its first 16 in four
      groups of four, separated by single spaces. */
  lemma FormatSecretShape(sec: string)
    requires |sec| >= 16
    ensures |FormatSecret(sec)| == 19
    ensures forall i :: 0 <= i < 19 ==>
              FormatSecret(sec)[i] == if i % 5 == 4 then ' ' else sec[i - i / 5]
  {
    var r := FormatSecret(sec);
    assert r == sec[0..4] + " " + sec[4..8] + " " + sec[8..12] + " " + sec[12..16];
  }

  /** `s` with its spaces dropped. */
  function RemoveSpaces(s: string): (r: string)
    ensures |r| <= |s|
  {
    if s == [] then [] else (if s[0] == ' ' then [] else [s[0]]) + RemoveSpaces(s[1..])
  }

  lemma {:induction false} RemoveSpacesAppend(a: string, b: string)
    ensures RemoveSpaces(a + b) == RemoveSpaces(a) + RemoveSpaces(b)
  {
    if a != [] {
      assert (a + b)[0] == a[0] && (a + b)[1..] == a[1..] + b;
      RemoveSpacesAppend(a[1..], b);
    } else {
      assert a + b == b;
    }
  }

  lemma {:induction false} RemoveSpacesNone(s: string)
    requires forall i :: 0 <= i < |s| ==> s[i] != ' '
    ensures RemoveSpaces(s) == s
  {
    if s != [] {
      RemoveSpacesNone(s[1..]);
    }
  }

  /** Dropping the spaces of the grouped secret gives back its first 16
      characters. */
  lemma FormatSecretDegroup(sec: string)
    requires |sec| >= 16
    requires forall i :: 0 <= i < 16 ==> sec[i] != ' '
    ensures RemoveSpaces(FormatSecret(sec)) == sec[..16]
  {
    var a, b, c, d := sec[0..4], sec[4..8], sec[8..12], sec[12..16];
    assert FormatSecret(sec) == a + (" " + (b + (" " + (c + (" " + d)))));
    RemoveSpacesNone(a);
    RemoveSpacesNone(b);
    RemoveSpacesNone(c);
    RemoveSpacesNone(d);
    assert RemoveSpaces(" ") == "";
    RemoveSpacesAppend(c, " " + d);
    RemoveSpacesAppend(" ", d);
    RemoveSpacesAppend(" ", c + (" " + d));
    RemoveSpacesAppend(b, " " + (c + (" " + d)));
    RemoveSpacesAppend(" ", b + (" " + (c + (" " + d))));
    RemoveSpacesAppend(a, " " + (b + (" " + (c + (" " + d)))));
    assert sec[..16] == a + b + c + d;
  }

  // ---------------------------------------------------------------------
  // `buildURI`

  const UriPrefix: string := "otpauth://totp/RACTF:"
  const SecretParam: string := "?secret="
  const IssuerParam: string := "&issuer=RACTF"

  /** The key URI; neither part is escaped. */
  function BuildUri(username: string, sec: string): (uri: string)
    ensures |uri| == |UriPrefix| + |username| + |SecretParam| + |sec| + |IssuerParam|
    ensures uri[..|UriPrefix|] == UriPrefix && uri[|uri| - |IssuerParam|..] == IssuerParam
  {
    UriPrefix + username + SecretParam + sec + IssuerParam
  }

  /** The first position of `c` in `s`, or `|s|`. */
  function IndexOf(s: string, c: char): (i: nat)
    ensures i <= |s|
    ensures i < |s| ==> s[i] == c
    ensures forall j :: 0 <= j < i ==> s[j] != c
  {
    if s == [] then 0 else if s[0] == c then 0 else 1 + IndexOf(s[1..], c)
  }

  /** Reads the account name and the secret back out of a key URI. */
  function ParseUri(uri: string): Option<(string, string)> {
    if |uri| < |UriPrefix| || uri[..|UriPrefix|] != UriPrefix then None
    else
      var rest := uri[|UriPrefix|..];
      var i := IndexOf(rest, '?');
      var after := rest[i..];
      if |after| < |SecretParam| || after[..|SecretParam|] != SecretParam then None
      else
        var tail := after[|SecretParam|..];
        var j := IndexOf(tail, '&');
        if tail[j..] != IssuerParam then None else Some((rest[..i], tail[..j]))
  }

  /** The URI carries the account name and the secret unambiguously as long
      as the name has no `?` and the secret no `&`. */
  lemma ParseBuildUri(username: string, sec: string)
    requires forall i :: 0 <= i < |username| ==> username[i] != '?'
    requires forall i :: 0 <= i < |sec| ==> sec[i] != '&'
    ensures ParseUri(BuildUri(username, sec)) == Some((username, sec))
  {
    var uri := BuildUri(username, sec);
    assert uri[..|UriPrefix|] == UriPrefix;
    var rest := uri[|UriPrefix|..];
    assert rest == username + (SecretParam + sec + IssuerParam);
    assert rest[|username|] == '?';
    var i := IndexOf(rest, '?');
    assert i == |username|;
    var after := rest[i..];
    assert after == SecretParam + (sec + IssuerParam);
    var tail := after[|SecretParam|..];
    assert tail == sec + IssuerParam;
    assert tail[|sec|] == '&';
    var j := IndexOf(tail, '&');
    assert j == |sec|;
  }

  // ---------------------------------------------------------------------
  // The page

  const ValidationFail: string := "2fa.validation_fail"
  const UnableToActivate: string := "2fa.unable_to_active"

  /** `resp.d.valid` of the verification, or the error it fails with. */
  function VerifyOutcome(reply: Result<Value, JsError>): (r: Result<bool, JsError>)
    ensures reply.Err? ==> r == Err(reply.error)
    ensures reply.Ok? ==>
              (r.Err? <==> (reply.value == Null || reply.value == Undefined ||
                            Get(reply.value, "d") == Null || Get(reply.value, "d") == Undefined))
    ensures reply.Ok? && r.Err? ==> r.error == ReadFailure
    ensures reply.Ok? && reply.value != Null && reply.value != Undefined &&
            Get(reply.value, "d") != Null && Get(reply.value, "d") != Undefined ==>
              r == Ok(Truthy(Get(Get(reply.value, "d"), "valid")))
  {
    match reply
    case Err(e) => Err(e)
    case Ok(resp) =>
      match Read(resp, "d")
      case Err(e) => Err(e)
      case Ok(d) =>
        match Read(d, "valid")
        case Err(e) => Err(e)
        case Ok(v) => Ok(Truthy(v))
  }

  /** `resp.d.totp_secret` of the activation, the raw value the page
      stores; reading it throws when the reply has no `d`. */
  function SecretOf(reply: Result<Value, JsError>): (r: Result<Value, JsError>)
    ensures reply.Err? ==> r == Err(reply.error)
    ensures reply.Ok? ==>
              (r.Err? <==> (reply.value == Null || reply.value == Undefined ||
                            Get(reply.value, "d") == Null || Get(reply.value, "d") == Undefined))
    ensures r.Ok? ==> r.value == Get(Get(reply.value, "d"), "totp_secret")
  {
    match reply
    case Err(e) => Err(e)
    case Ok(resp) =>
      match Read(resp, "d")
      case Err(e) => Err(e)
      case Ok(d) => Read(d, "totp_secret")
  }

  /** A reply without `d` (here the empty object) fails, so the page shows
      the error page rather than a secret. */
  lemma SecretMissingFails()
    ensures SecretOf(Ok(Obj(map[]))) == Err(ReadFailure)
    ensures SecretOf(Ok(Obj(map["d" := Null]))) == Err(ReadFailure)
  {
    assert Get(Obj(map[]), "d") == Undefined;
  }

  /** The error `sec.substring` throws on a secret that is not a string. */
  const SubstringNotAFunction: JsError := JsError(None, None, "TypeError: sec.substring is not a function")

  /** What the page shows. */
  datatype Screen =
    | Intro(promptKey: string)
    | Enabling
    | Finalise(uri: string, groupedSecret: string, message: Option<string>)
    | Done
    | ErrorPage

  /** The page's render: page 0 offers to add or, when the user already
      has 2FA (`totp_status` 2), to replace it; page 2 shows the URI and
      the grouped secret, which needs the secret to be a string; any page
      other than 0 to 3 is the error page. */
  function Render(page: int, user: Value, secret: Value, message: Option<string>): (r: Result<Screen, JsError>)
    ensures page == 1 ==> r == Ok(Enabling)
    ensures page == 3 ==> r == Ok(Done)
    ensures page !in {0, 1, 2, 3} ==> r == Ok(ErrorPage)
    ensures page == 0 ==> (r.Err? <==> (user == Null || user == Undefined))
    ensures page == 2 ==> (r.Err? <==> (user == Null || user == Undefined || !secret.Str?))
    ensures page == 2 && (user == Null || user == Undefined) ==> r == Err(ReadFailure)
    ensures page == 2 && user != Null && user != Undefined && !secret.Str? ==> r == Err(SubstringNotAFunction)
    ensures page == 0 && r.Ok? ==>
              r.value == Intro(if StrictEquals(Get(user, "totp_status"), Num(2)) then "2fa.replace_prompt" else "2fa.add_prompt")
    ensures page == 2 && r.Ok? ==>
              r.value == Finalise(BuildUri(JsString(Get(user, "username")), secret.s), FormatSecret(secret.s), message)
  {
    if page == 0 then
      match Read(user, "totp_status")
      case Err(e) => Err(e)
      case Ok(status) =>
        Ok(Intro(if StrictEquals(status, Num(2)) then "2fa.replace_prompt" else "2fa.add_prompt"))
    else if page == 1 then Ok(Enabling)
    else if page == 2 then
      match Read(user, "username")
      case Err(e) => Err(e)
      case Ok(name) =>
        match secret
        case Str(sec) => Ok(Finalise(BuildUri(JsString(name), sec), FormatSecret(sec), message))
        case _ => Err(SubstringNotAFunction)
    else if page == 3 then Ok(Done)
    else Ok(ErrorPage)
  }

  class TwoFAPage {
    var page: int
    var secret: Value
    var message: Option<string>

    constructor ()
      ensures page == 0 && secret == Str("") && message.None?
    {
      page := 0;
      secret := Str("");
      message := None;
    }

    /** `startFlow`: show the spinner while the secret is requested. */
    method StartFlow()
      modifies this
      ensures page == 1 && secret == old(secret) && message == old(message)
    {
      page := 1;
    }

    /** The activation request settles: the secret is stored and shown, or
        the error page is shown. */
    method SecretArrived(reply: Result<Value, JsError>)
      modifies this
      ensures SecretOf(reply).Ok? ==> page == 2 && secret == SecretOf(reply).value && message == old(message)
      ensures SecretOf(reply).Err? ==> page == -1 && secret == old(secret) && message == old(message)
    {
      match SecretOf(reply)
      case Ok(s) =>
        secret := s;
        page := 2;
      case Err(_) =>
        page := -1;
    }

    /** `faPrompt` with the user's answers: a valid six-character PIN
        reloads the session and finishes; an invalid one or an error shows
        the validation failure; cancelling shows that activation failed.
        Returns the PIN sent for verification, if any. */
    method FaPrompt(answers: seq<Answer>, verifyReply: Result<Value, JsError>,
                    api: SessionCache.Api, u: SessionCache.Reply, t: SessionCache.Reply, c: SessionCache.Reply)
      returns (sent: Option<string>)
      modifies this, api
      ensures sent.Some? ==> CodeUnits(sent.value) == PinLength
      ensures secret == old(secret)
      ensures AwaitPin(answers).Open? ==> sent.None? && unchanged(this, api)
      ensures AwaitPin(answers).Cancelled? ==>
                sent.None? && page == old(page) && message == Some(UnableToActivate) && unchanged(api)
      ensures AwaitPin(answers).Pin? ==>
                sent == Some(AwaitPin(answers).pin) &&
                (VerifyOutcome(verifyReply) == Ok(true) ==>
                   page == 3 && message == old(message) &&
                   api.State() == SessionCache.ReloadSpec(old(api.State()), u, t, c, api.stringify)) &&
                (VerifyOutcome(verifyReply) != Ok(true) ==>
                   page == old(page) && message == Some(ValidationFail) && unchanged(api))
    {
      sent := None;
      match AwaitPin(answers)
      case Open =>
      case Cancelled(_) =>
        message := Some(UnableToActivate);
      case Pin(pin, _) =>
        sent := Some(pin);
        match VerifyOutcome(verifyReply)
        case Ok(valid) =>
          if valid {
            api.ReloadCache(u, t, c);
            page := 3;
          } else {
            message := Some(ValidationFail);
          }
        case Err(_) =>
          message := Some(ValidationFail);
    }

    /** The error page's restart button. */
    method Restart()
      modifies this
      ensures page == 0 && secret == old(secret) && message == old(message)
    {
      page := 0;
    }
  }
}

=== FILE: values.dfy ===
/** JavaScript values as the front-end sees them: parsed JSON bodies, cached
    records, form values.  Only the parts of the language the modelled code
    relies on are given a meaning here: truthiness, `String(v)`, property reads
    and the shape of a thrown error. */
module JsValues {

  datatype Option<+T> = None | Some(value: T)

  datatype Result<+T, +E> = Ok(value: T) | Err(error: E)

  /** A JavaScript value. Numbers are integers (the code only handles ids,
      timestamps and counts); NaN and fractions are not modelled. */
  datatype Value =
    | Undefined
    | Null
    | Bool(b: bool)
    | Num(n: int)
    | Str(s: string)
    | Arr(items: seq<Value>)
    | Obj(fields: map<string, Value>)

  /** A thrown error: an axios error (which may carry `response.data` and
      `request.status`) or a TypeError raised by the code itself. */
  datatype JsError = JsError(responseData: Option<Value>, requestStatus: Option<int>, message: string)

  /** The error a property read on `null`/`undefined` throws. */
  const TypeErrorMessage: string := "TypeError: cannot read property of null or undefined"
  const ReadFailure: JsError := JsError(None, None, TypeErrorMessage)

  /** `!!v` */
  predicate Truthy(v: Value) {
    match v
    case Undefined => false
    case Null => false
    case Bool(b) => b
    case Num(n) => n != 0
    case Str(s) => s != ""
    case Arr(_) => true
    case Obj(_) => true
  }

  /** `typeof v === "object"` (true of null, arrays and objects). */
  predicate IsObjectType(v: Value) {
    v.Null? || v.Arr? || v.Obj?
  }

  /** `a === b`. Distinct parsed arrays and objects are distinct references,
      so `===` on them is false. */
  predicate StrictEquals(a: Value, b: Value) {
    match (a, b)
    case (Undefined, Undefined) => true
    case (Null, Null) => true
    case (Bool(x), Bool(y)) => x == y
    case (Num(x), Num(y)) => x == y
    case (Str(x), Str(y)) => x == y
    case _ => false
  }

  /** `v[k]` on a value that is not null or undefined: own fields of an object,
      `undefined` for everything else the code reads. */
  function Get(v: Value, k: string): (r: Value)
    ensures !v.Obj? ==> r == Undefined
    ensures v.Obj? && k !in v.fields ==> r == Undefined
    ensures v.Obj? && k in v.fields ==> r == v.fields[k]
  {
    if v.Obj? && k in v.fields then v.fields[k] else Undefined
  }

  /** `v.k`, which throws a TypeError when `v` is null or undefined. */
  function Read(v: Value, k: string): (r: Result<Value, JsError>)
    ensures r.Err? <==> (v == Null || v == Undefined)
    ensures r.Err? ==> r.error == ReadFailure
    ensures r.Ok? ==> r.value == Get(v, k)
  {
    if v == Null || v == Undefined then Err(ReadFailure) else Ok(Get(v, k))
  }

  function DigitChar(d: nat): (c: char)
    requires d < 10
    ensures '0' <= c <= '9'
  {
    "0123456789"[d]
  }

  /** Decimal digits of a natural number, as `String(n)` writes them. */
  function NatToString(n: nat): (s: string)
    ensures |s| >= 1
    ensures forall i :: 0 <= i < |s| ==> '0' <= s[i] <= '9'
  {
    if n < 10 then [DigitChar(n)] else NatToString(n / 10) + [DigitChar(n % 10)]
  }

  function IntToString(n: int): (s: string)
    ensures |s| >= 1
  {
    if n < 0 then "-" + NatToString(-n) else NatToString(n)
  }

  /** `String(v)`, the conversion `toString()`, `setItem` and template
      literals apply. */
  function JsString(v: Value): (s: string)
    decreases v, 1
  {
    match v
    case Undefined => "undefined"
    case Null => "null"
    case Bool(b) => if b then "true" else "false"
    case Num(n) => IntToString(n)
    case Str(s) => s
    case Arr(items) => JoinItems(items)
    case Obj(_) => "[object Object]"
  }

  /** `Array.prototype.join(",")`, which writes null and undefined as "". */
  function JoinItems(items: seq<Value>): string
    decreases items, 0
  {
    if items == [] then ""
    else
      var head := if items[0] == Null || items[0] == Undefined then "" else JsString(items[0]);
      if |items| == 1 then head else head + "," + JoinItems(items[1..])
  }

  /** `s.substring(a, b)` with JavaScript's clamping of both ends and swap of
      reversed bounds. */
  function Substring(s: string, a: int, b: int): (r: string)
    ensures 0 <= a <= b <= |s| ==> r == s[a..b]
    ensures |r| <= |s|
  {
    var x := if a < 0 then 0 else if a > |s| then |s| else a;
    var y := if b < 0 then 0 else if b > |s| then |s| else b;
    if x <= y then s[x..y] else s[y..x]
  }

  /** `s.length`: the number of UTF-16 code units, two for a character
      outside the Basic Multilingual Plane. */
  function CodeUnits(s: string): (n: nat)
    ensures |s| <= n <= 2 * |s|
  {
    if s == [] then 0 else (if s[0] as int > 0xFFFF then 2 else 1) + CodeUnits(s[1..])
  }

  /** Whether `s` contains a decimal digit, i.e. whether `/\d+/` matches
      somewhere in it. */
  predicate HasDigit(s: string) {
    exists i :: 0 <= i < |s| && '0' <= s[i] <= '9'
  }
}
